=== FILE: README.md ===
# restack-gen core, modelled in Dafny

restack-gen is a command-line code generator for Restack projects. It
creates projects, generates agents, functions and workflows from
templates, lists the routes registered in a service, and has an
interactive front end. This project models the decision logic of that
tool as pure Dafny functions over strings, sequences, maps and an
abstract file system, and proves what the tool promises about it.

One module per source file:

- `Constants`: the `Language` and `GenerationType` enumerations, the
  default `Config` and the CLI exit codes.
- `Text`: `snake_case`, `pascal_case` and `kebab_case`, with each regular
  expression substitution written as a left-to-right character scan.
  `CamelWords` proves what `snake_case` does to camel-case words, and
  `TextExamples` works through the documented examples.
- `Validation`: `validate_name`, whose rules run in order with exact
  messages (the Python keyword list from section 2.3.1 of the Python
  Language Reference is a fixed set), and `validate_path`. Worked cases
  are in `ValidationExamples`.
- `Sanitize`, `PromptValidators` and `PromptExamples`: the interactive
  name sanitiser, the anchored `PROJECT_NAME_RE` check and the path
  validator.
- `Templates`: the lazily initialised template backend, `list_templates`,
  `template_exists` and `build_template_context`. Worked cases are in
  `TemplateExamples`.
- `Project`: the search for the nearest `restack.toml`, the fixed
  sub-directories and `ensure_structure`.
- `Generate` and `GenerateExamples`: `GenerateCommand.execute`. This
  covers argument checks, language detection, the output path, the
  overwrite decision, dry run, rendering and writing.
- `Batch`: `ConcurrentProjectCreator`. The worker threads become a fold
  over the order in which the workers finish.
- `Cli`: `execute_command`, `show_help` and `main`.
- `Entry`: the dispatcher between the interactive and the standard CLI.
- `Registry`: the command table, `get` and `list_commands`.
- `Routes`: the `routes` command, which parses `service.py`.
- `Completers`: `ChoiceCompleter` and `PackageManagerCompleter`.
- `TemplateCatalogue`: the interactive template catalogue and its
  selection.
- `Preferences`: the user preference file and project marker detection.

`Wrappers`, `Chars` and `Fs` hold shared helpers:

- `Option` and `Result`.
- ASCII character classes, plus Python's exact set of white-space
  characters.
- A file system of directories and files, with paths as sequences of
  components. It provides `mkdir(parents=True)`, `rmtree`, `write_text`
  and path resolution.

Anything the tool gets from outside becomes a parameter of the function
that needs it:

- the working directory, terminal flags and confirmation answers;
- the result of importing Jinja2 and the template renderer;
- `NewCommand.execute` and the JSON codec;
- the replies typed at a prompt.

Behaviours of the source that the model keeps as written:

- `build_template_context` merges the extra keyword values last. They
  therefore override every variable they name, the derived ones
  included. `name` and `app_name` never reach that merge: they are named
  parameters. A keyword `name` is a `TypeError`, because every caller
  also passes the name by position. A keyword `app_name` binds the
  parameter, unless the application name was also passed by position,
  which is a `TypeError` as well. Context
  keys are canonical: a caller's variable name that spells one of the
  twelve built-in names is that built-in key (`Templates.KeyOf`).
- `HelpCommand` is imported by `restack_gen/cli.py:325` and
  `restack_gen/commands/__init__.py:27`, but it is not defined in
  `restack_gen/commands/info.py`. As written, `show_help` and building
  the command registry raise `ImportError`. Whether those imports succeed
  is therefore an input (`helpImports`, `registryImports`), and the model
  states what follows either way.
- The interactive name check (`PROJECT_NAME_RE`) accepts a leading
  underscore that `validate_name` rejects. It also accepts one trailing
  newline, because of `re.match` and `$`. `PromptExamples` states both
  cases.

## Model

| member | source | states |
|---|---|---|
| Constants.ParseLanguage | restack_gen/constants.py:12-14 | a string parses to a language exactly when it is that language's value ("py" or "ts") |
| Constants.ParseGenerationType | restack_gen/constants.py:17-20 | a string parses to a generation type exactly when it is that type's value ("agent", "function", "workflow") |
| Constants.GenerationTypeRoundTrip | restack_gen/constants.py:12-20 | parsing a type's value gives the type back; exactly three strings parse as types and exactly two as languages |
| Constants.DefaultConfig | restack_gen/constants.py:23-35 | a default configuration has no language, package manager or working directory, and every flag is off |
| Constants.ExitCodesDistinct | restack_gen/cli.py:25-30 | the exit codes are exactly 0, 1 and 130, one per outcome |
| Text.SnakeCase | restack_gen/utils/text.py:7-10 | the result has no upper-case letter; its first character is the lower-cased first character of the input, so no '_' is ever inserted in front; deleting every '_' from it gives the lower-cased input with every '_' deleted, so the only change is inserted underscores |
| Text.SnakeCaseFixpoints | restack_gen/utils/text.py:7-10 | `snake_case` leaves a string unchanged exactly when it has no upper-case letter |
| Text.SnakeCaseIdempotent | restack_gen/utils/text.py:7-10 | applying `snake_case` twice is the same as applying it once |
| CamelWords.SnakeCaseOfWords | restack_gen/utils/text.py:7-10 | a camel-case word sequence (a first word, then capitalised words) becomes its words joined by '_' and lower-cased |
| Text.SplitJoin | restack_gen/utils/text.py:15 | joining the pieces of `split(sep)` with `sep` gives the string back |
| Text.ConcatSplit | restack_gen/utils/text.py:15 | concatenating the pieces of `split(sep)` deletes every `sep` |
| Text.PascalCase | restack_gen/utils/text.py:13-15 | the result has no '_' and, ignoring case, is the input with every '_' deleted |
| Text.Capitalize | restack_gen/utils/text.py:15 | `str.capitalize`: same length, the first character upper-cased and every later one lower-cased |
| Text.SplitOfJoin | restack_gen/utils/text.py:15 | splitting on `sep` the join by `sep` of pieces free of `sep` gives the pieces back |
| Text.PascalOfWords | restack_gen/utils/text.py:13-15 | for words free of '_' and of upper case, `pascal_case` of their '_'-join is the concatenation of the capitalised words, so the case of every letter is fixed |
| Text.PascalOfSnake | restack_gen/utils/text.py:13-15 | `pascal_case(snake_case(x)) == pascal_case(x)` for every x |
| Text.KebabCase | restack_gen/utils/text.py:18-20 | the result is `snake_case` of the input with every '_' replaced by '-': same length, no '_', no upper case, other characters unchanged |
| Text.SplitOnFirst | restack_gen/utils/text.py:15 | splitting `a + sep + b`, where `a` has no `sep`, gives `a` followed by the pieces of `b` |
| TextExamples.SnakeCaseMyTest | restack_gen/utils/text.py:7-10 | `snake_case("MyTest") == "my_test"` |
| TextExamples.SnakeCaseMyTestString | restack_gen/utils/text.py:7-10 | `snake_case("myTestString") == "my_test_string"` |
| TextExamples.SnakeCaseTestName | restack_gen/utils/text.py:7-10 | `snake_case("test_name")` is unchanged |
| TextExamples.KebabMyTest | restack_gen/utils/text.py:18-20 | `kebab_case("MyTest") == "my-test"` |
| TextExamples.PascalMyTest | restack_gen/utils/text.py:13-15 | `pascal_case("my_test") == "MyTest"` |
| TextExamples.PascalAnotherExample | restack_gen/utils/text.py:13-15 | `pascal_case("another_example") == "AnotherExample"` |
| TextExamples.PascalHyphenated | restack_gen/utils/text.py:7-15 | hyphens are never touched: `pascal_case("test-py-app3") == "Test-py-app3"` |
| Validation.ValidateName | restack_gen/core/validation.py:18-31 | a name is accepted exactly when it passes all five rules, with an empty message; a rejection carries one of the five messages |
| Validation.ValidNameRules | restack_gen/core/validation.py:20-30 | the rules spelled out: non-empty; after '-' becomes '_' and '_' is deleted, the rest is non-empty and alphanumeric; no leading digit; no leading '_'; not a keyword unless it contains '-' |
| Validation.CharRule | restack_gen/core/validation.py:22-24 | the character rule holds exactly when every character is a letter, digit, '_' or '-' and at least one is a letter or digit |
| Validation.ValidateNameOrder | restack_gen/core/validation.py:20-28 | the first failing rule decides the message: empty, then characters, then a leading digit, then a leading underscore |
| Validation.KeywordRejected | restack_gen/core/validation.py:29-30 | a Python keyword is rejected with the keyword message |
| Validation.KeywordHasNoHyphen | restack_gen/core/validation.py:29 | no keyword contains '-', so the '-' test only exempts names that are not keywords anyway |
| Validation.AcceptedShape | restack_gen/core/validation.py:20-31 | an accepted name is non-empty, uses only letters, digits, '_' and '-', and starts with a letter or '-' (a leading '-' is not rejected) |
| Validation.ValidatePath | restack_gen/core/validation.py:34-44 | a path is accepted exactly when it resolves and, if it must exist, it does; a resolution error gives "Invalid path: …" |
| Validation.ValidatePathOrder | restack_gen/core/validation.py:38-42 | the must-exist check comes before the '..' check; any ".." substring is rejected as suspicious; without ".." and without must-exist a resolvable path is accepted |
| ValidationExamples.InvalidAtRejected | restack_gen/core/validation.py:22-24 | "invalid@name" is rejected for its characters |
| ValidationExamples.InjectionRejected | restack_gen/core/validation.py:22-24 | "foo;rm -rf /" is rejected for its characters |
| ValidationExamples.OnlySeparatorsRejected | restack_gen/core/validation.py:22-24 | "--" is rejected for its characters, since nothing is left after deleting the separators |
| ValidationExamples.DigitRejected | restack_gen/core/validation.py:25-26 | "123bad" is rejected with the digit message |
| ValidationExamples.UnderscoreRejected | restack_gen/core/validation.py:27-28 | "_private" is rejected with the underscore message |
| ValidationExamples.KeywordsRejected | restack_gen/core/validation.py:29-30 | "class" and "def" are rejected as keywords |
| ValidationExamples.AcceptsClassName | restack_gen/core/validation.py:29-31 | "class-name" is accepted because it contains '-' |
| ValidationExamples.TraversalRejected | restack_gen/core/validation.py:40-41 | "../../../etc/passwd" is rejected as suspicious |
| Sanitize.SanitizeProjectName | restack_gen/interactive/sanitize.py:12-19 | the result uses only letters, digits, '_' and '-'; when non-empty it starts with a letter or '_'; and it keeps exactly the input's letters and digits, in order |
| Sanitize.SanitizeAlnums | restack_gen/interactive/sanitize.py:13-16 | no step before the prefix drops or reorders a letter or digit |
| Sanitize.SanitizeFixpoint | restack_gen/interactive/sanitize.py:12-19 | an already sanitised name is returned unchanged |
| Sanitize.SanitizeIdempotent | restack_gen/interactive/sanitize.py:12-19 | sanitising twice equals sanitising once |
| Sanitize.SanitizeNothing | restack_gen/interactive/sanitize.py:17 | input with no name character and no white space sanitises to "" and gets no '_' prefix |
| Sanitize.SanitizeBadStart | restack_gen/interactive/sanitize.py:17-18 | a name that does not start with a letter or '_' gets a '_' prefix |
| Sanitize.SanitizePath | restack_gen/interactive/sanitize.py:22-27 | every NUL is removed; the resolved path is returned, or the NUL-free text when resolution fails |
| PromptValidators.MatchProjectName | restack_gen/interactive/validators.py:20 | the loop decides `re.match` of `^[a-zA-Z_][a-zA-Z0-9_-]*$`, where '$' also admits one trailing newline |
| PromptValidators.ValidateProjectName | restack_gen/interactive/validators.py:30-37 | text is accepted exactly when it matches the pattern; empty text gets the empty-name message and other mismatches the invalid-name message |
| PromptValidators.ValidatePathText | restack_gen/interactive/validators.py:40-45 | a path text is rejected exactly when it contains NUL |
| PromptValidators.AcceptedIsSanitized | restack_gen/interactive/validators.py:20 | without a trailing newline, text is accepted exactly when it is non-empty and has the sanitiser's output shape |
| PromptValidators.SanitizedAccepted | restack_gen/interactive/sanitize.py:12-19 | every non-empty sanitiser output is accepted by the name validator |
| PromptValidators.AcceptedIsFixpoint | restack_gen/interactive/validators.py:30-37 | non-empty text without a trailing newline is accepted exactly when sanitising leaves it unchanged |
| PromptValidators.ValidNameAccepted | restack_gen/core/validation.py:18-31 | a name `validate_name` accepts passes the prompt check exactly when it does not start with '-' |
| PromptValidators.SanitizedPathAccepted | restack_gen/interactive/sanitize.py:22-27 | a path whose resolution fails, once sanitised, passes the path validator |
| PromptExamples.AcceptsProjectNames | restack_gen/interactive/validators.py:30-37 | "my-project" and "MyProject" are accepted |
| PromptExamples.RefusesProjectNames | restack_gen/interactive/validators.py:34-37 | "123-abc" and "has space" are refused with the invalid-name message |
| PromptExamples.EmptyProjectNameRefused | restack_gen/interactive/validators.py:32-33 | "" is refused with "Project name cannot be empty" |
| PromptExamples.TrailingNewlineAccepted | restack_gen/interactive/validators.py:20 | "app\n" is accepted |
| PromptExamples.LeadingUnderscoreDisagreement | restack_gen/interactive/validators.py:20 | "_a" passes the prompt check but `validate_name` rejects it with the underscore message |
| PromptExamples.SanitizeMyProject | restack_gen/interactive/sanitize.py:15 | "my project" becomes "my-project" |
| PromptExamples.SanitizeTab | restack_gen/interactive/sanitize.py:13 | a tab is deleted as a control character, not turned into '-': "my\tproject" becomes "myproject" |
| PromptExamples.SanitizeDigitName | restack_gen/interactive/sanitize.py:17-18 | "123abc" becomes "_123abc" |
| PromptExamples.SanitizeBangs | restack_gen/interactive/sanitize.py:16-17 | "!?!" becomes "" |
| Templates.NewEngine | restack_gen/core/templates.py:6-8 | a new engine keeps its directory and starts uninitialised |
| Templates.Env | restack_gen/core/templates.py:9-23 | the first access creates the environment when Jinja2 is available and fails with the install message otherwise; later accesses return the same environment; the directory never changes |
| Templates.EnvStable | restack_gen/core/templates.py:9-23 | once created, the environment is returned again whatever the later accesses are given |
| Templates.EnvRetry | restack_gen/core/templates.py:12-22 | from an uninitialised engine, access fails without Jinja2 and with it creates and stores the given environment |
| Templates.Render | restack_gen/core/templates.py:24-27 | rendering fails with the Jinja2 message when the backend cannot be created; otherwise it is the loader's result in the shared environment |
| Templates.RenderReusesEnv | restack_gen/core/templates.py:24-27 | two renders in a row use the same environment |
| Templates.ListTemplates | restack_gen/core/templates.py:31-39 | a missing directory lists nothing; otherwise the listed names are exactly the directory's regular files whose names do not start with '.' |
| Templates.TemplateExists | restack_gen/core/templates.py:28-30 | a template exists exactly when a file or a directory sits at `templates_dir / name`; "" and "." name the directory itself |
| Templates.ListedTemplatesExist | restack_gen/core/templates.py:28-39 | every listed template passes `template_exists` |
| Templates.EffectiveAppName | restack_gen/core/templates.py:48 | the application name is the given one unless it is missing or empty, then the entity name |
| Templates.BuildTemplateContext | restack_gen/core/templates.py:41-65 | given extra entries under canonical keys, the keys are the twelve fixed keys plus the extra ones; extra values win; every other fixed key gets its default or name-derived value |
| Templates.KeyOf | restack_gen/core/templates.py:49-62 | every variable name has exactly one canonical key, and the key spells the name back |
| Templates.KeyRoundTrip | restack_gen/core/templates.py:49-62 | a name maps to a key spelling it, and a canonical key is recovered from its spelling |
| Templates.BoundAppName | restack_gen/core/templates.py:41-48 | without an `app_name` keyword the positional value stands; a keyword `app_name` next to a positional one is the multiple-values TypeError; alone, a string keyword becomes the application name |
| Templates.BuildFromKeywords | restack_gen/core/templates.py:41-65 | fails exactly on a keyword "name" or a failed binding of `app_name`; otherwise every keyword other than `app_name` is found under its name, including a fixed key's, every fixed key is present, `app_name` holds the bound name or its fallback, and the keys are the fixed ones plus the keywords |
| Templates.MergeKeywords | restack_gen/core/templates.py:49-65 | once the parameters are bound, every other keyword overrides or adds its key, and every fixed key not named by a keyword keeps its base value |
| Templates.AppNameKeywordIsPositional | restack_gen/core/templates.py:41-48 | passing the application name by keyword gives the same result as passing it by position |
| Templates.KeywordOverridesFixed | restack_gen/core/templates.py:64 | a keyword spelling a fixed key replaces that key's value and adds no second entry |
| Templates.ContextNameForms | restack_gen/core/templates.py:52-54 | the context holds the snake, Pascal and kebab forms of the entity name |
| Templates.ContextAppForms | restack_gen/core/templates.py:48-57 | the context holds the snake, Pascal and kebab forms of the application name in effect (`app_name or name`) |
| Templates.DefaultValues | restack_gen/core/templates.py:59-62 | the four literal defaults are 30, "30s", "{}" and "default" |
| Templates.ContextOverride | restack_gen/core/templates.py:64 | an extra value under a canonical fixed key overrides it, name-derived ones included |
| Templates.AppNameFallback | restack_gen/core/templates.py:48 | an empty or missing application name gives the same context as passing the entity name |
| Templates.ContextForms | restack_gen/core/templates.py:49-57 | the derived forms are the text conversions of the name and application name |
| TemplateExamples.ContextTestName | restack_gen/core/templates.py:41-65 | "test_name" with application "my_app" gives "TestName", "test-name", "MyApp", "my-app" and the defaults |
| TemplateExamples.ContextDefaultApp | restack_gen/core/templates.py:48 | without an application name, the application entries repeat the name's forms |
| TemplateExamples.ContextCustom | restack_gen/core/templates.py:64 | the keyword `custom_var="value"` appears with its value |
| TemplateExamples.ContextSnakeOverride | restack_gen/core/templates.py:64 | the keyword `snake_name="x"` replaces the derived snake form |
| TemplateExamples.ContextNameKeywordRejected | restack_gen/core/templates.py:41-45 | a keyword "name" fails with the multiple-values TypeError |
| TemplateExamples.ContextAppNameKeyword | restack_gen/core/templates.py:41-48 | `build_template_context("test_name", app_name="my_app")` succeeds, equals the positional call, and has application name "my_app" |
| TemplateExamples.ContextAppNameTwice | restack_gen/core/templates.py:41-45 | an application name given both by position and by keyword is a TypeError |
| Project.FindRoot | restack_gen/core/project.py:17-24 | the root is the nearest of the start path and its ancestors holding `restack.toml`, or the start path when none does |
| Project.FindRootUnique | restack_gen/core/project.py:17-24 | any marked ancestor with no marked directory below it is the root |
| Project.FindRootIdempotent | restack_gen/core/project.py:17-24 | searching again from the root finds the same root |
| Project.MarkedStartIsRoot | restack_gen/core/project.py:20-22 | a marked start path is its own root |
| Project.MarkerInParentFound | restack_gen/core/project.py:20-22 | from an unmarked sub-directory of a marked directory, the root is the parent |
| Project.StartPath | restack_gen/core/project.py:10-15 | the search starts at the resolved argument, or at the working directory when none is given |
| Project.NewStructure | restack_gen/core/project.py:10-27 | the root is the start path or a marked ancestor; src, tests and scripts sit directly under it |
| Project.GetSubdir | restack_gen/core/project.py:29-31 | a sub-directory name is appended to src |
| Project.EnsureStructure | restack_gen/core/project.py:33-43 | files are untouched; it fails exactly when a file blocks one of the five directories; on success exactly those directories and their ancestors are added |
| Project.EnsureStructureMakes | restack_gen/core/project.py:35-43 | afterwards src/agents, src/functions, src/workflows, tests and scripts exist, and every new directory lies on the way to one of them |
| Project.EnsureStructureIdempotent | restack_gen/core/project.py:33-43 | running it a second time changes nothing |
| Generate.ProjectRootArg | restack_gen/commands/generate.py:53 | the project root argument is the configured cwd, or the absolute working directory |
| Generate.Subdir | restack_gen/commands/generate.py:108-112 | each generation type has its own directory: agents, functions or workflows |
| Generate.SubdirInjective | restack_gen/commands/generate.py:108-112 | two types share a directory only when they are the same type |
| Generate.DetectLanguage | restack_gen/commands/generate.py:80-88 | the configured language wins; otherwise TypeScript exactly when src holds some .ts file and no .py file |
| Generate.PythonWins | restack_gen/commands/generate.py:84-85 | with any .py file under src, Python is detected, even with .ts files present |
| Generate.OutputFileName | restack_gen/commands/generate.py:115 | the file name is `snake_case(name)` followed by '.' and the language value |
| Generate.OutputPath | restack_gen/commands/generate.py:98-115 | the output path is src/<type directory>/<file name>, and its parent is `get_subdir` of the type directory |
| Generate.OutputPathsOfKinds | restack_gen/commands/generate.py:108-115 | entities of different types never share an output path |
| Generate.TemplateName | restack_gen/commands/generate.py:67 | the template name is "<type>.<lang>.j2" |
| Generate.MayWrite | restack_gen/commands/generate.py:117-125 | a missing file proceeds; an existing file proceeds with force, is skipped with yes, and otherwise the confirmation decides |
| Generate.MayWriteDeclines | restack_gen/commands/generate.py:117-125 | the write is declined exactly when the file exists, force is off, and either yes is on or the confirmation says no |
| Generate.DotCwdUsesEntityName | restack_gen/commands/generate.py:53-66 | with cwd "." the application name is the entity name, because the final component of "." is empty |
| Generate.MakePlan | restack_gen/commands/generate.py:53-59 | the plan's root comes from the configured cwd; the layout step never touches files; the configured language is used when set; the output path is root/src/<type>/<file> |
| Generate.WriteRendered | restack_gen/commands/generate.py:68-78 | a failed render or write returns 1 and changes nothing; success writes exactly the rendered text to the output path |
| Generate.Finish | restack_gen/commands/generate.py:57-78 | after the layout step, either no file changes or code 0 with only the output file written |
| Generate.FinishWith | restack_gen/commands/generate.py:57-78 | given the rendered text and the confirmation reply: exit code 0 or 1; on code 1 the file system is the one after the layout step; on code 0 either nothing changed or only the output file was written, and never in a dry run |
| Generate.RunGenerate | restack_gen/commands/generate.py:49-78 | the code is 0 or 1; failure leaves every file as it was |
| Generate.Execute | restack_gen/commands/generate.py:17-29 | the code is 0 or 1; fewer than two arguments returns 1 and touches nothing; the file system changes only when the type parses and the name is valid |
| Generate.RejectedArgumentsTouchNothing | restack_gen/commands/generate.py:22-28 | an unknown type or an invalid name returns 1 before any file-system work |
| Generate.DeclinedOverwrite | restack_gen/commands/generate.py:60-61 | a declined overwrite returns 0 and writes no file |
| Generate.DryRunStopsAfterLayout | restack_gen/commands/generate.py:56-64 | a dry run returns 0 with the directories already created and no file written |
| Generate.GenerateWrites | restack_gen/commands/generate.py:66-71 | when every step succeeds, exactly the rendered content is written to the output path and 0 is returned |
| GenerateExamples.EmailHandlerOutput | restack_gen/commands/generate.py:113-115 | a Python agent "EmailHandler" goes to src/agents/email_handler.py |
| GenerateExamples.BadTypeRejected | restack_gen/commands/generate.py:24-26 | `g badtype x` returns 1 and touches nothing |
| GenerateExamples.DigitNameRejected | restack_gen/commands/generate.py:27-28 | `g agent 123bad` returns 1 and touches nothing |
| GenerateExamples.DetectsPython | restack_gen/commands/generate.py:84-85 | a .py file under src selects Python |
| GenerateExamples.DetectsTypeScript | restack_gen/commands/generate.py:86-87 | a lone .ts file under src selects TypeScript |
| Batch.Cleanup | restack_gen/cli.py:113-131 | the application directory `cwd / name` (split on '/', with "", "." and ".." resolved) and everything under it is removed, if it is a directory; nothing outside it changes |
| Batch.CleanupIdempotent | restack_gen/cli.py:122-131 | cleaning up twice is the same as once |
| Batch.Work | restack_gen/cli.py:84-111 | the code is the command's own code, or ERROR when it raised; any non-zero outcome rolls the directory back, except when construction raised, which escapes without cleanup |
| Batch.RunAll | restack_gen/cli.py:54-80 | one completion per name, in completion order |
| Batch.Put | restack_gen/cli.py:69 | assigning a key keeps the dictionary's insertion order and sets that one value |
| Batch.Results | restack_gen/cli.py:52-69 | one entry per distinct completed name |
| Batch.ResultsLastWins | restack_gen/cli.py:69 | a name's entry is the code of its last completion |
| Batch.StickyResults | restack_gen/cli.py:52-69 | the corrected dictionary has one entry per distinct name |
| Batch.StickyFailure | restack_gen/cli.py:52-69 | in the corrected dictionary, a name's entry is non-zero exactly when some completion for it failed |
| Batch.Report | restack_gen/cli.py:133-154 | ERROR exactly when some entry is non-zero; the failure line names exactly the failed entries; success lines only when not quiet |
| Batch.FailedListed | restack_gen/cli.py:142-145 | the failed list is non-empty exactly when some entry is non-zero |
| Batch.AppDirPlain | restack_gen/cli.py:126 | a name without '/' that is not "", "." or ".." is a child of the working directory |
| Batch.AppDirDots | restack_gen/cli.py:126 | "" and "." name the working directory and ".." its parent |
| Batch.CleanupDotDot | restack_gen/cli.py:122-128 | a failed creation of ".." removes the working directory's parent tree, the working directory included |
| Batch.Conclude | restack_gen/cli.py:63-82 | the exit code reflects the dictionary; quiet mode prints no progress or success lines; otherwise one progress line per completion comes first |
| Batch.CreateProjectsAsWritten | restack_gen/cli.py:39-82 | no names gives ERROR before any work; otherwise the dictionary covers exactly the requested names and ERROR means some entry failed |
| Batch.CreateProjects | restack_gen/cli.py:39-82 | no names gives ERROR; otherwise ERROR exactly when some worker failed |
| Batch.StickyAgreesOnDistinct | restack_gen/cli.py:52-69 | with distinct names the corrected dictionary equals the one as written |
| Batch.ResultsOrderIndependent | restack_gen/cli.py:54-69 | with distinct names the result dictionary does not depend on completion order |
| Batch.StickyOrderIndependent | restack_gen/cli.py:133-154 | the corrected exit code does not depend on completion order |
| Batch.FailureMoves | restack_gen/cli.py:133-154 | a failure seen in one completion order is seen in every other |
| Batch.DuplicateMasksFailure | restack_gen/cli.py:52-154 | as written, a name requested twice that fails and then succeeds reports SUCCESS |
| Batch.DuplicateFailureKept | restack_gen/cli.py:133-154 | in the corrected model the same completions report ERROR |
| Cli.ShowHelp | restack_gen/cli.py:319-328 | help returns 0 exactly when the import and the help command both return normally |
| Cli.ExecuteCommand | restack_gen/cli.py:295-316 | an unknown command returns ERROR; a known one returns its command's outcome; a failed registry import raises |
| Cli.ExitOf | restack_gen/cli.py:370-380 | an interrupt gives 130, any other exception 1, otherwise the returned code |
| Cli.Main | restack_gen/cli.py:341-380 | `--concurrent-new`, even empty, takes precedence: empty gives 1, an interrupted pool 130, otherwise 0 exactly when the as-written result dictionary has no failure; help or no command shows help; an unknown command gives 1 |
| Cli.MainMasksRepeatedFailure | restack_gen/cli.py:52-69 | `--concurrent-new a a` where the first creation fails and the second succeeds exits 0, while the corrected batch reports 1 |
| Cli.InterruptedOnlyFromInterrupt | restack_gen/cli.py:370-372 | 130 comes only from an interrupt or a command returning 130 |
| Cli.GeneratorAlias | restack_gen/cli.py:366-368 | "g" runs the generate command |
| Entry.ShouldUseInteractive | restack_gen/__main__.py:16-43 | interactive exactly when "-i" or "--interactive" is present, or argv is empty and both streams are terminals |
| Entry.FlagAnywhere | restack_gen/__main__.py:27-28 | the flag is honoured at any position |
| Entry.HelpFallsBack | restack_gen/__main__.py:34-41 | "help", "--help" and "new app" use the standard CLI even on a terminal |
| Entry.Main | restack_gen/__main__.py:46-70 | the chosen front end's outcome decides: an interrupt gives 130 and any other exception 1 |
| Registry.Get | restack_gen/commands/__init__.py:44-49 | a name gives the class registered under it, and nothing exactly when the table does not have it |
| Registry.GetGenerate | restack_gen/commands/__init__.py:29-42 | "g" and "generate" give the generate command |
| Registry.Sort | restack_gen/commands/__init__.py:59 | the result is sorted under Python's string order and is a permutation of the input |
| Registry.ListCommands | restack_gen/commands/__init__.py:51-59 | the list is sorted, has no duplicates, names only known commands, and holds a table name exactly when no earlier entry has its class |
| Registry.ListedIff | restack_gen/commands/__init__.py:51-58 | a table name is listed exactly when no earlier entry has its class |
| Registry.ListedAreKnown | restack_gen/commands/__init__.py:51-58 | every listed name is a known command |
| Registry.ListCommandsSortedDistinct | restack_gen/commands/__init__.py:59 | the list is sorted and has no duplicates |
| Registry.FirstEntriesCount | restack_gen/commands/__init__.py:53-58 | on a table with the registry's classes in its order, the loop keeps ten entries: aliases are skipped |
| Registry.ListCommandsCount | restack_gen/commands/__init__.py:51-59 | there are ten names, one per distinct class |
| Registry.ListedGenerator | restack_gen/commands/__init__.py:51-58 | "g" is listed and its alias "generate" is not |
| Registry.ListedTemplates | restack_gen/commands/__init__.py:51-58 | "list-templates" is listed and its alias "ls-templates" is not |
| Routes.FindChar | restack_gen/commands/routes.py:37-39 | the index of the first occurrence at or after a start, or none |
| Routes.SearchFrom | restack_gen/commands/routes.py:37-39 | a found list text never contains ']' |
| Routes.SearchFindsFirst | restack_gen/commands/routes.py:37-39 | the text found is what lies between the first "<key>=[" and the next ']' |
| Routes.SearchAbsent | restack_gen/commands/routes.py:37-40 | without an occurrence of the key, nothing is found |
| Routes.SearchUnclosed | restack_gen/commands/routes.py:37-40 | when no opening "<key>=[" has a ']' after it, nothing is found, as `re.search` fails on a missing closing bracket |
| Routes.Items | restack_gen/commands/routes.py:41-45 | every item is non-empty, stripped, and contains no ',' and no ']' when the text had none |
| Routes.KeptOfJoin | restack_gen/commands/routes.py:41 | splitting a ", "-join of clean items on ',' and keeping the stripped non-empty pieces gives the items back |
| Routes.ItemsRoundTrip | restack_gen/commands/routes.py:41-45 | parsing the ", "-join of clean items gives exactly those items, in order |
| Routes.ItemsCanonical | restack_gen/commands/routes.py:41-45 | re-joining and re-parsing the items of any text gives the same items |
| Routes.KeptAbsent | restack_gen/commands/routes.py:41 | trimming and dropping pieces introduces no new character |
| Routes.KeptTrimmed | restack_gen/commands/routes.py:41 | every item the comprehension keeps is non-empty with no whitespace at either end |
| Routes.ItemsOfOne | restack_gen/commands/routes.py:41 | one word gives a one-item list |
| Routes.ItemsOfTwo | restack_gen/commands/routes.py:41 | "a, b" gives the items a and b |
| Routes.EmptyListText | restack_gen/commands/routes.py:41 | "[]" (empty text) gives no items |
| Routes.ListOf | restack_gen/commands/routes.py:37-45 | an absent key gives []; a found list text gives exactly its items; every item is non-empty, stripped and free of ',' and ']' |
| Routes.ParseService | restack_gen/commands/routes.py:27-48 | a failed read gives three empty lists; a successful one gives each list as found under its key; all items are clean |
| Routes.Output | restack_gen/commands/routes.py:14-56 | the heading comes first; a section appears for each non-empty list; the warning appears exactly when the file is missing or all lists are empty |
| Routes.Execute | restack_gen/commands/routes.py:12-25 | always returns 0 after the heading; with no service.py, the heading and the warning only |
| Completers.Put | restack_gen/interactive/completers.py:22 | dictionary assignment: a new key goes last, an existing one keeps its place |
| Completers.FromList | restack_gen/interactive/completers.py:22 | a list becomes the identity map |
| Completers.FromListKeys | restack_gen/interactive/completers.py:22 | the keys are exactly the list's elements |
| Completers.FromListOrder | restack_gen/interactive/completers.py:22 | distinct elements keep their list order |
| Completers.FromListRepeat | restack_gen/interactive/completers.py:22 | a repeated element changes nothing |
| Completers.Init | restack_gen/interactive/completers.py:18-22 | a dictionary is kept as given, a list becomes the identity map |
| Completers.SelectMembers | restack_gen/interactive/completers.py:28-29 | filtering keeps exactly the keys that pass the test |
| Completers.SelectAppend | restack_gen/interactive/completers.py:28-29 | filtering preserves order |
| Completers.Completions | restack_gen/interactive/completers.py:24-30 | one completion per matching key in map order; each replaces the typed text and shows the key's description |
| Completers.CompletionsComplete | restack_gen/interactive/completers.py:27-30 | a key is offered exactly when it starts with the lower-cased text |
| Completers.EmptyTextOffersAll | restack_gen/interactive/completers.py:27-30 | with nothing typed every key is offered, in order |
| Completers.Restrict | restack_gen/interactive/completers.py:41-44 | restriction keeps exactly the allowed keys, with their descriptions unchanged |
| Completers.PackageManagers | restack_gen/interactive/completers.py:33-47 | the offered managers are exactly those for the language, with the original descriptions |
| Completers.PythonManagers | restack_gen/interactive/completers.py:41-42 | "py" offers uv and pip, in that order |
| Completers.TypeScriptManagers | restack_gen/interactive/completers.py:43-44 | "ts" offers pnpm and npm, in that order |
| Completers.OtherManagers | restack_gen/interactive/completers.py:45-46 | any other language, None included, offers all four |
| TemplateCatalogue.ById | restack_gen/interactive/templates.py:51 | each key maps to a template with that id |
| TemplateCatalogue.ByIdFinds | restack_gen/interactive/templates.py:51 | with distinct ids, each template is found under its id |
| TemplateCatalogue.ByIdKeys | restack_gen/interactive/templates.py:51 | the keys are exactly the ids of the list |
| TemplateCatalogue.CatalogueShape | restack_gen/interactive/templates.py:23-51 | three templates, distinct ids, one selector entry each |
| TemplateCatalogue.Available | restack_gen/interactive/templates.py:54-56 | no language or an empty one offers the whole catalogue |
| TemplateCatalogue.AvailableMembers | restack_gen/interactive/templates.py:54-56 | a template is offered exactly when no language is given or it is the template's language |
| TemplateCatalogue.AvailableByLanguage | restack_gen/interactive/templates.py:54-56 | "py" offers the two Python templates, "ts" the TypeScript one |
| TemplateCatalogue.Menu | restack_gen/interactive/templates.py:57 | one (id, name) entry per offered template |
| TemplateCatalogue.Selector | restack_gen/interactive/templates.py:51 | the selector map holds catalogue templates under their own ids |
| TemplateCatalogue.PromptTemplate | restack_gen/interactive/templates.py:65-75 | a template is chosen exactly when some reply is accepted; it is the first accepted reply's template, from the whole catalogue |
| TemplateCatalogue.PicksById | restack_gen/interactive/templates.py:73-84 | after rejected replies, an id in any case and with spaces selects that template, even one of another language |
| Preferences.ConfigFile | restack_gen/interactive/context.py:14 | the file is ~/.config/restack-gen/preferences.json |
| Preferences.Load | restack_gen/interactive/context.py:19-26 | a missing or unparsable file gives {}; otherwise the parsed value |
| Preferences.UnparsableStartsEmpty | restack_gen/interactive/context.py:22-26 | after an unparsable file both getters return None |
| Preferences.DefaultLanguage | restack_gen/interactive/context.py:36-37 | the stored default language, None when absent; non-dictionary preferences raise |
| Preferences.DefaultPackageManager | restack_gen/interactive/context.py:39-40 | the stored manager for the language, None when absent; a non-dictionary value raises |
| Preferences.Save | restack_gen/interactive/context.py:28-34 | it fails exactly when the directory cannot be made; a write failure is swallowed |
| Preferences.UpdateFromResult | restack_gen/interactive/context.py:42-47 | afterwards the default language is the result's language and its manager the result's manager |
| Preferences.UpdateKeepsOthers | restack_gen/interactive/context.py:42-47 | other keys and other languages' managers are unchanged |
| Preferences.UpdateRaisesOnlyWhen | restack_gen/interactive/context.py:44-46 | on a dictionary, the update raises exactly when `package_managers` is present and not a dictionary |
| Preferences.SaveThenLoad | restack_gen/interactive/context.py:28-47 | with a lossless codec, reloading after an update returns the saved preferences and the same default language |
| Preferences.Detect | restack_gen/interactive/context.py:49-64 | pyproject.toml gives "py", else package.json gives "ts"; the manager follows uv.lock over pnpm-lock.yaml over package-lock.json |
| Preferences.DetectOnlyMarkers | restack_gen/interactive/context.py:49-64 | detection depends only on the five marker files |

## Left out

- Threads: `ThreadPoolExecutor` and `as_completed` are not modelled. The order in which the workers finish is an input, with any permutation of the names allowed.
- `restack_gen/commands/new.py` is not part of this model. `NewCommand.execute` is an input that returns a code, raises, or raises during construction. `_get_app_directory(name)` is taken to be `cwd / name`, resolved as the file system sees it (`Batch.AppDir`).
- Jinja2 and TOML are foreign libraries. Whether Jinja2 imports and what a render returns are inputs.
- `TemplateEngine.render` only models how it uses the environment. Template lookup is not modelled.
- Console output, colours, verbose tracebacks and `confirm` are not modelled. Printed messages appear as line records where the outcome depends on them, and `confirm` is a boolean input.
- argparse (`create_parser`, `build_config`) is not modelled. `Cli.Main` takes the parsed arguments.
- Unicode: `lower`, `capitalize`, `isalnum`, `isdigit` and category C are modelled over ASCII. Python's white-space set is modelled exactly.
- Sanitize.DropControl: drops category Cc only; the other C categories (Cf, Co, Cs, Cn) are kept, so " \u200b a" sanitises to "_-a" in the model where Python gives "a".
- Symbolic links: path resolution normalises "." and "..", but links are not followed.
- `restack_gen/commands/info.py` is not part of this model. It is defective as written: `HelpCommand` is missing, and a second `execute` replaces the first. The help command is an input.
- Subprocess commands are not modelled: build, dev, test and doctor.
- Telemetry is not modelled.
- The prompt_toolkit session, wizard, theme and signal modules are not modelled.
- The JSON codec is a parameter. `Preferences.SaveThenLoad` assumes that decoding an encoded value gives it back. The indentation of the dump is not modelled.
- A file that cannot be decoded as UTF-8 is not modelled. A read either succeeds or the file is absent.
- TemplateCatalogue.PromptTemplate: when the replies run out, the model returns no template. The source instead keeps prompting, or fails at end of input.
- The `WordCompleter` menu shown while typing a template id is not modelled; `Menu` lists its entries.
- Routes.Items: the three-list sample `agents=[AgentTest], workflows=[WorkflowTest], functions=[function_test]` is not stated as one lemma. `Routes.SearchFindsFirst` and `Routes.ItemsOfOne` state each list separately.
- Templates.TemplateExists: the template name is one path component, as in every name the listing returns; a name holding '/' or ".." is not resolved the way `templates_dir / name` would resolve it. `Project.GetSubdir` is only given the fixed names "agents", "functions" and "workflows".
- Fs helpers: permissions and races on the file system are not modelled. `rmtree(ignore_errors=True)` removes the whole tree.

## Findings

| source | as written | input that shows it | evidently intended | confidence | as-written member | corrected member |
|---|---|---|---|---|---|---|
| restack_gen/cli.py:52-69 | results are keyed by project name, so a later completion for the same name overwrites an earlier one | names ["a", "a"]: the first worker fails with 1, the second succeeds with 0; the report says SUCCESS | the overall code is ERROR whenever any creation failed | not executed | Cli.MainMasksRepeatedFailure | Batch.CreateProjects |

=== FILE: batch.dfy ===
/** Creating several projects at once (`ConcurrentProjectCreator` in
    restack_gen/cli.py). Each project is made by `NewCommand.execute`,
    whose effect is an input here; a failed project's directory is removed
    again; the per-project codes are gathered into a name-keyed dict and
    reported. The thread pool is modelled by the order in which the
    workers complete: a sequence holding each requested name once per
    occurrence, in any order. */
module Batch {
  import opened Wrappers
  import opened Fs
  import opened Chars
  import C = Constants
  import Text

  /** How one worker went. */
  datatype Attempt =
    | Returned(code: int, after: FileSystem)  // `execute([name])` returned `code`, leaving `after`
    | Raised(after: FileSystem)               // `execute` raised inside the `try`, leaving `after`
    | Escaped                                 // the worker raised before its `try` (constructing the command)

  /** `_get_app_directory(name)`, taken to be `cwd / name`, as the file
      system sees it: the name is split on '/', a leading '/' makes it
      absolute, and "" / "." / ".." components are resolved (symbolic
      links are not modelled). */
  function AppDir(cwd: Path, name: string): (d: Path)
    ensures Normal(cwd) ==> Normal(d)
  {
    Resolve(RawPath(StartsWith(name, "/"), Text.SplitOn(name, '/')), cwd)
  }

  /** An ordinary name is one component below the working directory. */
  lemma AppDirPlain(cwd: Path, name: string)
    requires '/' !in name && name != "" && name != "." && name != ".."
    ensures AppDir(cwd, name) == cwd + [name]
  {
    Text.SplitOnAbsent(name, '/');
    assert name[0] in name && name[..1] == [name[0]];
    assert [name][1..] == [];
    assert Normalize(cwd, [name]) == Normalize(cwd + [name], []);
  }

  /** "" and "." name the working directory itself, and ".." its parent. */
  lemma AppDirDots(cwd: Path)
    ensures AppDir(cwd, "") == cwd && AppDir(cwd, ".") == cwd
    ensures cwd != [] ==> AppDir(cwd, "..") == Parent(cwd)
  {
    Text.SplitOnAbsent("", '/');
    Text.SplitOnAbsent(".", '/');
    Text.SplitOnAbsent("..", '/');
    assert [""][1..] == [] && ["."][1..] == [] && [".."][1..] == [];
  }

  /** `after` is `before` with the directory `d` and everything below it
      removed, when `d` was a directory, and is `before` otherwise. */
  ghost predicate RolledBack(before: FileSystem, after: FileSystem, d: Path) {
    && (d in before.dirs ==> forall q :: IsUnder(d, q) && q != [] ==> !Exists(after, q))
    && (d !in before.dirs ==> after == before)
    && (forall q :: !IsUnder(d, q) ==> (q in after.dirs <==> q in before.dirs))
    && (forall q :: !IsUnder(d, q) && q in before.files ==> q in after.files && after.files[q] == before.files[q])
    && after.files.Keys <= before.files.Keys
  }

  /** `_cleanup_failed_project`: remove the project directory if it exists.
      `rmtree(..., ignore_errors=True)` leaves a regular file of that name
      alone, and every error is swallowed. */
  function Cleanup(fs: FileSystem, cwd: Path, name: string): (r: FileSystem)
    ensures RolledBack(fs, r, AppDir(cwd, name))
    ensures Wf(fs) ==> Wf(r)
  {
    RemoveTree(fs, AppDir(cwd, name))
  }

  /** A second cleanup finds nothing left to remove. */
  lemma CleanupIdempotent(fs: FileSystem, cwd: Path, name: string)
    requires Wf(fs)
    ensures Cleanup(Cleanup(fs, cwd, name), cwd, name) == Cleanup(fs, cwd, name)
  {
    var d := AppDir(cwd, name);
    var r := Cleanup(fs, cwd, name);
    if d in fs.dirs && d != [] {
      assert IsUnder(d, d);
      assert d !in r.dirs;
    } else if d in fs.dirs {
      assert r.dirs == {[]} by {
        forall q | q in r.dirs ensures q == [] {
          assert IsUnder(d, q);
        }
      }
      assert r.files == map[];
    }
  }

  /** Cleaning up after a failed project named ".." removes the parent of
      the working directory, and so the working directory with it. */
  lemma CleanupDotDot(fs: FileSystem, cwd: Path)
    requires cwd != [] && Parent(cwd) in fs.dirs
    ensures !Exists(Cleanup(fs, cwd, ".."), cwd)
  {
    AppDirDots(cwd);
    assert IsUnder(Parent(cwd), cwd);
  }

  /** `_create_single_project` as `as_completed` sees it: the code recorded
      for the name and the file system afterwards. A non-zero code or an
      exception inside the `try` rolls the project directory back; a worker
      that raised before its `try` is recorded as ERROR and rolls nothing
      back. */
  function Work(fs: FileSystem, cwd: Path, name: string, a: Attempt): (r: (int, FileSystem))
    ensures r.0 == C.ExitCode.Success.Value() <==> a.Returned? && a.code == 0
    ensures a.Returned? ==> r.0 == a.code
    ensures !a.Returned? ==> r.0 == C.ExitCode.Error.Value()
    ensures a.Escaped? ==> r.1 == fs
    ensures a.Returned? && a.code == 0 ==> r.1 == a.after
    ensures r.0 != 0 && !a.Escaped? ==> RolledBack(a.after, r.1, AppDir(cwd, name))
  {
    match a
    case Returned(code, after) =>
      if code != C.ExitCode.Success.Value() then (code, Cleanup(after, cwd, name)) else (code, after)
    case Raised(after) => (C.ExitCode.Error.Value(), Cleanup(after, cwd, name))
    case Escaped => (C.ExitCode.Error.Value(), fs)
  }

  /** What `as_completed` hands back for one future. */
  datatype Completion = Completion(name: string, code: int)

  /** The workers in completion order, each on the file system the earlier
      ones left. */
  function RunAll(fs: FileSystem, cwd: Path, order: seq<string>,
                  execute: (string, FileSystem) -> Attempt): (r: (seq<Completion>, FileSystem))
    ensures |r.0| == |order|
    ensures forall i :: 0 <= i < |order| ==> r.0[i].name == order[i]
    decreases |order|
  {
    if |order| == 0 then ([], fs)
    else
      var (code, fs1) := Work(fs, cwd, order[0], execute(order[0], fs));
      var (rest, fs2) := RunAll(fs1, cwd, order[1..], execute);
      ([Completion(order[0], code)] + rest, fs2)
  }

  /** A Python dict from names to codes: its keys in insertion order and
      its values. */
  datatype Dict = Dict(order: seq<string>, values: map<string, int>)

  /** The order lists each key once. */
  predicate Valid(d: Dict) {
    && (forall k :: k in d.order ==> k in d.values)
    && (forall k :: k in d.values ==> k in d.order)
    && (forall i, j :: 0 <= i < j < |d.order| ==> d.order[i] != d.order[j])
  }

  const Empty := Dict([], map[])

  /** `d[k] = v`: an existing key keeps its place and gets the new value; a
      new key goes last. */
  function Put(d: Dict, k: string, v: int): (r: Dict)
    requires Valid(d)
    ensures Valid(r) && r.values == d.values[k := v]
    ensures |r.order| >= |d.order| && r.order[..|d.order|] == d.order
  {
    if k in d.values then Dict(d.order, d.values[k := v])
    else Dict(d.order + [k], d.values[k := v])
  }

  /** The names of a sequence of completions. */
  function NamesOf(cs: seq<Completion>): (r: set<string>)
    ensures forall i :: 0 <= i < |cs| ==> cs[i].name in r
    ensures forall x :: x in r ==> exists i :: 0 <= i < |cs| && cs[i].name == x
  {
    set c | c in cs :: c.name
  }

  /** The names of all completions: those of all but the last, and the
      last one's. */
  lemma NamesOfLast(cs: seq<Completion>)
    requires |cs| > 0
    ensures NamesOf(cs) == NamesOf(cs[..|cs| - 1]) + {cs[|cs| - 1].name}
  {
    var init := cs[..|cs| - 1];
    forall x | x in NamesOf(cs) ensures x in NamesOf(init) + {cs[|cs| - 1].name} {
      var i :| 0 <= i < |cs| && cs[i].name == x;
      if i < |init| {
        assert cs[i] == init[i];
      }
    }
    forall x | x in NamesOf(init) ensures x in NamesOf(cs) {
      var i :| 0 <= i < |init| && init[i].name == x;
      assert cs[i] == init[i];
    }
  }

  /** `cs[i]` is the last completion for its name. */
  predicate LastFor(cs: seq<Completion>, i: int)
    requires 0 <= i < |cs|
  {
    forall j :: i < j < |cs| ==> cs[j].name != cs[i].name
  }

  /** `results` as `create_projects` builds it: `results[name] = code` for
      each completion in turn. */
  function Results(cs: seq<Completion>): (r: Dict)
    ensures Valid(r) && r.values.Keys == NamesOf(cs)
    decreases |cs|
  {
    if |cs| == 0 then Empty
    else
      var init := cs[..|cs| - 1];
      var last := cs[|cs| - 1];
      NamesOfLast(cs);
      Put(Results(init), last.name, last.code)
  }

  /** The last completion of a name decides its entry. */
  lemma {:induction false} ResultsLastWins(cs: seq<Completion>, i: nat)
    requires i < |cs| && LastFor(cs, i)
    ensures Results(cs).values[cs[i].name] == cs[i].code
    decreases |cs|
  {
    var init := cs[..|cs| - 1];
    if i < |cs| - 1 {
      assert init[i] == cs[i];
      assert LastFor(init, i);
      ResultsLastWins(init, i);
    }
  }

  /** Some completion named `k` has a non-zero code. */
  predicate SomeFailed(cs: seq<Completion>, k: string) {
    exists i :: 0 <= i < |cs| && cs[i].name == k && cs[i].code != 0
  }

  /** The corrected `results`: a failure recorded for a name is never
      overwritten by a later success of the same name. */
  function StickyResults(cs: seq<Completion>): (r: Dict)
    ensures Valid(r) && r.values.Keys == NamesOf(cs)
    decreases |cs|
  {
    if |cs| == 0 then Empty
    else
      var init := cs[..|cs| - 1];
      var last := cs[|cs| - 1];
      var d := StickyResults(init);
      NamesOfLast(cs);
      Record(d, last.name, last.code)
  }

  /** `d[k] = v` unless `k` already holds a failure. */
  function Record(d: Dict, k: string, v: int): (r: Dict)
    requires Valid(d)
    ensures Valid(r) && r.values.Keys == d.values.Keys + {k}
    ensures forall x :: x in d.values && x != k ==> r.values[x] == d.values[x]
    ensures r.values[k] == if k in d.values && d.values[k] != 0 then d.values[k] else v
  {
    if k in d.values && d.values[k] != C.ExitCode.Success.Value() then d else Put(d, k, v)
  }

  /** Some completion named `k` failed, by recursion on the completions. */
  predicate FailedIn(cs: seq<Completion>, k: string)
    decreases |cs|
  {
    |cs| > 0 && (FailedIn(cs[..|cs| - 1], k) || (cs[|cs| - 1].name == k && cs[|cs| - 1].code != 0))
  }

  lemma {:induction false} FailedInIff(cs: seq<Completion>, k: string)
    ensures FailedIn(cs, k) <==> SomeFailed(cs, k)
    decreases |cs|
  {
    if |cs| > 0 {
      var init := cs[..|cs| - 1];
      assert cs == init + [cs[|cs| - 1]];
      FailedInIff(init, k);
      StickyStep(init, cs[|cs| - 1], k);
    }
  }

  /** A name's corrected entry is non-zero exactly when one of its
      completions failed. */
  lemma {:induction false} StickyFailure(cs: seq<Completion>, k: string)
    requires k in StickyResults(cs).values
    ensures StickyResults(cs).values[k] != 0 <==> FailedIn(cs, k)
    decreases |cs|
  {
    var init := cs[..|cs| - 1];
    var last := cs[|cs| - 1];
    var d := StickyResults(init);
    assert StickyResults(cs) == Record(d, last.name, last.code);
    if k in d.values {
      StickyFailure(init, k);
    } else {
      NotNamedNotFailed(init, k);
    }
  }

  /** A name without completions has no failure. */
  lemma {:induction false} NotNamedNotFailed(cs: seq<Completion>, k: string)
    requires k !in NamesOf(cs)
    ensures !FailedIn(cs, k)
    decreases |cs|
  {
    if |cs| > 0 {
      var init := cs[..|cs| - 1];
      NamesOfLast(cs);
      NotNamedNotFailed(init, k);
    }
  }

  /** A failure among the first completions, or the last one, is a failure
      of all of them. */
  lemma StickyStep(init: seq<Completion>, last: Completion, k: string)
    ensures SomeFailed(init + [last], k) <==> SomeFailed(init, k) || (last.name == k && last.code != 0)
  {
    var cs := init + [last];
    if SomeFailed(init, k) {
      var i :| 0 <= i < |init| && init[i].name == k && init[i].code != 0;
      assert cs[i] == init[i];
    }
    if SomeFailed(cs, k) && !(last.name == k && last.code != 0) {
      var i :| 0 <= i < |cs| && cs[i].name == k && cs[i].code != 0;
      assert i < |init| && init[i] == cs[i];
    }
    assert cs[|init|] == last;
  }

  /** The keys in `order` whose value is (`ok`) or is not (`!ok`) zero, in
      that order. */
  function Select(order: seq<string>, values: map<string, int>, ok: bool): (r: seq<string>)
    requires forall k :: k in order ==> k in values
    ensures forall x :: x in r <==> x in order && (values[x] == 0) == ok
    ensures |r| <= |order|
    decreases |order|
  {
    if |order| == 0 then []
    else
      var rest := Select(order[1..], values, ok);
      assert forall x :: x in order <==> x == order[0] || x in order[1..];
      if (values[order[0]] == 0) == ok then [order[0]] + rest else rest
  }

  /** A line of console output. */
  datatype Line =
    | NoNamesLine                                  // "No project names provided ..."
    | ProgressLine(completed: nat, total: nat, ok: bool, name: string)  // "[k/n] ✓ name", "[k/n] ✗ name"
    | FailedLine(names: seq<string>)               // "Failed to create: ..."
    | SucceededLine(names: seq<string>)            // "Successfully created: ..."
    | AllCreatedLine(names: seq<string>)           // "All projects created successfully: ..."

  /** Some value of `d` is not zero. */
  predicate AnyFailure(d: Dict) {
    exists k :: k in d.values && d.values[k] != 0
  }

  /** What a report line says about `d`: the failure line names exactly
      the failed entries; a success line appears only when not quiet and
      names exactly the successful entries. */
  ghost predicate Truthful(d: Dict, quiet: bool, l: Line) {
    && (l.FailedLine? ==> forall x :: x in l.names <==> x in d.values && d.values[x] != 0)
    && ((l.SucceededLine? || l.AllCreatedLine?) ==>
          !quiet && forall x :: x in l.names <==> x in d.values && d.values[x] == 0)
  }

  /** `_report_results`: ERROR when some project failed, listing the failed
      names always and the successful ones unless quiet; SUCCESS otherwise,
      with a summary unless quiet. */
  function Report(d: Dict, quiet: bool): (r: (int, seq<Line>))
    requires Valid(d)
    ensures r.0 == C.ExitCode.Error.Value() <==> AnyFailure(d)
    ensures r.0 == C.ExitCode.Success.Value() <==> !AnyFailure(d)
    ensures AnyFailure(d) ==> |r.1| > 0 && r.1[0].FailedLine? && r.1[0].names != []
    ensures forall l :: l in r.1 ==> Truthful(d, quiet, l)
    ensures quiet && !AnyFailure(d) ==> r.1 == []
    ensures !quiet && !AnyFailure(d) ==> |r.1| == 1 && r.1[0].AllCreatedLine?
  {
    var succeeded := Select(d.order, d.values, true);
    var failed := Select(d.order, d.values, false);
    FailedListed(d);
    if failed != [] then
      assert Truthful(d, quiet, FailedLine(failed));
      assert !quiet ==> Truthful(d, quiet, SucceededLine(succeeded));
      var extra := if succeeded != [] && !quiet then [SucceededLine(succeeded)] else [];
      (C.ExitCode.Error.Value(), [FailedLine(failed)] + extra)
    else
      assert !quiet ==> Truthful(d, quiet, AllCreatedLine(succeeded));
      (C.ExitCode.Success.Value(), if quiet then [] else [AllCreatedLine(succeeded)])
  }

  /** Some project failed exactly when the failed list is not empty. */
  lemma FailedListed(d: Dict)
    requires Valid(d)
    ensures Select(d.order, d.values, false) != [] <==> AnyFailure(d)
  {
    var failed := Select(d.order, d.values, false);
    if failed != [] {
      assert failed[0] in failed;
    }
    if AnyFailure(d) {
      var k :| k in d.values && d.values[k] != 0;
      assert k in failed;
    }
  }

  /** The progress lines of the completions, numbered from `k + 1`. */
  function Progress(cs: seq<Completion>, total: nat, k: nat): (r: seq<Line>)
    ensures |r| == |cs|
    ensures forall i :: 0 <= i < |cs| ==> r[i] == ProgressLine(k + i + 1, total, cs[i].code == 0, cs[i].name)
    decreases |cs|
  {
    if |cs| == 0 then []
    else [ProgressLine(k + 1, total, cs[0].code == 0, cs[0].name)] + Progress(cs[1..], total, k + 1)
  }

  /** The result of `create_projects`. */
  datatype Outcome = Outcome(code: int, results: Dict, lines: seq<Line>, fs: FileSystem)

  /** Progress lines, unless quiet, then the report. */
  function Conclude(quiet: bool, total: nat, cs: seq<Completion>, d: Dict, fs: FileSystem): (r: Outcome)
    requires Valid(d)
    ensures r.code == C.ExitCode.Error.Value() <==> AnyFailure(d)
    ensures r.code == C.ExitCode.Success.Value() <==> !AnyFailure(d)
    ensures r.results == d && r.fs == fs
    ensures quiet ==> forall l :: l in r.lines ==> !l.ProgressLine? && !l.SucceededLine? && !l.AllCreatedLine?
    ensures !quiet ==> |r.lines| >= |cs| && r.lines[..|cs|] == Progress(cs, total, 0)
  {
    var (code, report) := Report(d, quiet);
    var progress := if quiet then [] else Progress(cs, total, 0);
    assert !quiet ==> (progress + report)[..|cs|] == progress;
    Outcome(code, d, progress + report, fs)
  }

  /** The completion order is some arrangement of the requested names. */
  predicate IsOrder(names: seq<string>, order: seq<string>) {
    multiset(order) == multiset(names)
  }

  /** The names of the completions are the requested names. */
  lemma CompletedNames(names: seq<string>, order: seq<string>, cs: seq<Completion>)
    requires IsOrder(names, order) && |cs| == |order|
    requires forall i :: 0 <= i < |order| ==> cs[i].name == order[i]
    ensures NamesOf(cs) == set x | x in names
  {
    forall x | x in NamesOf(cs) ensures x in names {
      var i :| 0 <= i < |cs| && cs[i].name == x;
      assert order[i] in multiset(order);
    }
    forall x | x in names ensures x in NamesOf(cs) {
      assert x in multiset(order);
      var i :| 0 <= i < |order| && order[i] == x;
      assert cs[i].name == x;
    }
  }

  /** `create_projects` as written: an empty request is an error before
      anything runs; otherwise every name gets a worker, the results hold
      one entry per distinct name, and the code is ERROR exactly when some
      entry is not zero. */
  function CreateProjectsAsWritten(quiet: bool, cwd: Path, names: seq<string>, order: seq<string>,
                                   fs: FileSystem, execute: (string, FileSystem) -> Attempt): (r: Outcome)
    requires IsOrder(names, order)
    ensures names == [] ==> r == Outcome(C.ExitCode.Error.Value(), Empty, [NoNamesLine], fs)
    ensures names != [] ==> r.results.values.Keys == set x | x in names
    ensures names != [] ==> (r.code == C.ExitCode.Error.Value() <==> AnyFailure(r.results))
    ensures r.code in {C.ExitCode.Success.Value(), C.ExitCode.Error.Value()}
  {
    if names == [] then Outcome(C.ExitCode.Error.Value(), Empty, [NoNamesLine], fs)
    else
      var (cs, fs1) := RunAll(fs, cwd, order, execute);
      CompletedNames(names, order, cs);
      Conclude(quiet, |names|, cs, Results(cs), fs1)
  }

  /** `create_projects` with the evidently intended code: ERROR exactly when
      some worker failed, also when a name was requested twice. */
  function CreateProjects(quiet: bool, cwd: Path, names: seq<string>, order: seq<string>,
                          fs: FileSystem, execute: (string, FileSystem) -> Attempt): (r: Outcome)
    requires IsOrder(names, order)
    ensures names == [] ==> r == Outcome(C.ExitCode.Error.Value(), Empty, [NoNamesLine], fs)
    ensures names != [] ==> r.results.values.Keys == set x | x in names
    ensures names != [] ==> (r.code == C.ExitCode.Error.Value() <==>
      exists i :: 0 <= i < |names| && SomeFailed(RunAll(fs, cwd, order, execute).0, names[i]))
    ensures r.code in {C.ExitCode.Success.Value(), C.ExitCode.Error.Value()}
  {
    if names == [] then Outcome(C.ExitCode.Error.Value(), Empty, [NoNamesLine], fs)
    else
      var (cs, fs1) := RunAll(fs, cwd, order, execute);
      CompletedNames(names, order, cs);
      var d := StickyResults(cs);
      assert AnyFailure(d) <==> exists i :: 0 <= i < |names| && SomeFailed(cs, names[i]) by {
        if AnyFailure(d) {
          var k :| k in d.values && d.values[k] != 0;
          StickyFailure(cs, k);
          FailedInIff(cs, k);
        }
        if exists i :: 0 <= i < |names| && SomeFailed(cs, names[i]) {
          var i :| 0 <= i < |names| && SomeFailed(cs, names[i]);
          assert names[i] in d.values;
          StickyFailure(cs, names[i]);
          FailedInIff(cs, names[i]);
        }
      }
      Conclude(quiet, |names|, cs, d, fs1)
  }

  /** No two completions share a name. */
  predicate DistinctNames(cs: seq<Completion>) {
    forall i, j :: 0 <= i < j < |cs| ==> cs[i].name != cs[j].name
  }

  /** With distinct names the correction changes nothing. */
  lemma {:induction false} StickyAgreesOnDistinct(cs: seq<Completion>)
    requires DistinctNames(cs)
    ensures StickyResults(cs) == Results(cs)
    decreases |cs|
  {
    if |cs| > 0 {
      var init := cs[..|cs| - 1];
      var last := cs[|cs| - 1];
      assert DistinctNames(init) by {
        forall i, j | 0 <= i < j < |init| ensures init[i].name != init[j].name {
          assert init[i] == cs[i] && init[j] == cs[j];
        }
      }
      StickyAgreesOnDistinct(init);
      assert last.name !in NamesOf(init);
    }
  }

  /** Two arrangements of the same completions name the same projects. */
  lemma SameNames(cs1: seq<Completion>, cs2: seq<Completion>)
    requires multiset(cs1) == multiset(cs2)
    ensures NamesOf(cs1) == NamesOf(cs2)
  {
    forall k | k in NamesOf(cs1) ensures k in NamesOf(cs2) {
      var i :| 0 <= i < |cs1| && cs1[i].name == k;
      assert cs1[i] in multiset(cs2);
    }
    forall k | k in NamesOf(cs2) ensures k in NamesOf(cs1) {
      var j :| 0 <= j < |cs2| && cs2[j].name == k;
      assert cs2[j] in multiset(cs1);
    }
  }

  /** With distinct names the entries do not depend on the completion
      order. */
  lemma ResultsOrderIndependent(cs1: seq<Completion>, cs2: seq<Completion>)
    requires multiset(cs1) == multiset(cs2) && DistinctNames(cs1) && DistinctNames(cs2)
    ensures Results(cs1).values == Results(cs2).values
  {
    var d1 := Results(cs1);
    var d2 := Results(cs2);
    SameNames(cs1, cs2);
    assert d1.values.Keys == d2.values.Keys;
    forall k | k in d1.values ensures d1.values[k] == d2.values[k] {
      SameEntry(cs1, cs2, k);
    }
    MapsEqual(d1.values, d2.values);
  }

  /** Maps with the same keys and values are equal. */
  lemma MapsEqual(a: map<string, int>, b: map<string, int>)
    requires a.Keys == b.Keys && forall k :: k in a ==> a[k] == b[k]
    ensures a == b
  {
  }

  lemma SameEntry(cs1: seq<Completion>, cs2: seq<Completion>, k: string)
    requires multiset(cs1) == multiset(cs2) && DistinctNames(cs1) && DistinctNames(cs2)
    requires k in NamesOf(cs1)
    ensures k in Results(cs2).values && Results(cs1).values[k] == Results(cs2).values[k]
  {
    var i :| 0 <= i < |cs1| && cs1[i].name == k;
    assert cs1[i] in multiset(cs2);
    var j :| 0 <= j < |cs2| && cs2[j] == cs1[i];
    assert LastFor(cs1, i) && LastFor(cs2, j);
    ResultsLastWins(cs1, i);
    ResultsLastWins(cs2, j);
  }

  /** The corrected code does not depend on the completion order, whatever
      the names. */
  lemma StickyOrderIndependent(cs1: seq<Completion>, cs2: seq<Completion>, quiet: bool)
    requires multiset(cs1) == multiset(cs2)
    ensures Report(StickyResults(cs1), quiet).0 == Report(StickyResults(cs2), quiet).0
  {
    var d1 := StickyResults(cs1);
    var d2 := StickyResults(cs2);
    if AnyFailure(d1) {
      var k :| k in d1.values && d1.values[k] != 0;
      FailureMoves(cs1, cs2, k);
    }
    if AnyFailure(d2) {
      var k :| k in d2.values && d2.values[k] != 0;
      FailureMoves(cs2, cs1, k);
    }
  }

  /** A failure recorded under one completion order is recorded under any
      other. */
  lemma FailureMoves(cs1: seq<Completion>, cs2: seq<Completion>, k: string)
    requires multiset(cs1) == multiset(cs2)
    requires k in StickyResults(cs1).values && StickyResults(cs1).values[k] != 0
    ensures AnyFailure(StickyResults(cs2))
  {
    StickyFailure(cs1, k);
    FailedInIff(cs1, k);
    var i :| 0 <= i < |cs1| && cs1[i].name == k && cs1[i].code != 0;
    assert cs1[i] in multiset(cs2);
    var j :| 0 <= j < |cs2| && cs2[j] == cs1[i];
    assert k in NamesOf(cs2);
    FailedInIff(cs2, k);
    StickyFailure(cs2, k);
  }

  /** As written, a name requested twice whose first completion failed and
      second succeeded is reported as a success. */
  lemma DuplicateMasksFailure(name: string, code: int, quiet: bool)
    requires code != 0
    ensures Report(Results([Completion(name, code), Completion(name, 0)]), quiet).0 == C.ExitCode.Success.Value()
  {
    var cs := [Completion(name, code), Completion(name, 0)];
    assert LastFor(cs, 1);
    ResultsLastWins(cs, 1);
    assert NamesOf(cs) == {name};
  }

  /** The corrected results report that failure. */
  lemma DuplicateFailureKept(name: string, code: int, quiet: bool)
    requires code != 0
    ensures Report(StickyResults([Completion(name, code), Completion(name, 0)]), quiet).0 == C.ExitCode.Error.Value()
  {
    var cs := [Completion(name, code), Completion(name, 0)];
    assert NamesOf(cs) == {name};
    StickyFailure(cs, name);
    FailedInIff(cs, name);
    assert cs[0].name == name && cs[0].code != 0;
  }
}

=== FILE: camel_words.dfy ===
/** `snake_case` on camel-case identifiers (restack_gen/utils/text.py).

    An identifier written as words — a first word of letters with only its
    first letter possibly uppercase, then capitalised words of at least two
    letters — is split exactly at the word boundaries: `snake_case` of the
    concatenation is the words joined with '_' and lowercased. The two
    substitutions share the work: the first splits before every second
    capitalised word, the second splits the rest, because the first
    substitution's match swallows the letter the next match would need. */
module CamelWords {
  import opened Chars
  import opened Text

  predicate AllLower(w: string) {
    forall i :: 0 <= i < |w| ==> IsLower(w[i])
  }

  /** The first word: a letter followed by lowercase letters. */
  predicate FirstWord(w: string) {
    |w| >= 1 && IsAlpha(w[0]) && AllLower(w[1..])
  }

  /** A capitalised word: an uppercase letter and at least one lowercase
      letter. */
  predicate CapWord(w: string) {
    |w| >= 2 && IsUpper(w[0]) && AllLower(w[1..])
  }

  predicate IsCamel(ws: seq<string>) {
    |ws| >= 1 && FirstWord(ws[0]) && forall i :: 1 <= i < |ws| ==> CapWord(ws[i])
  }

  /** The words after substitution 1: '_' between the words of each pair
      (first and second, third and fourth, …), nothing between pairs. */
  function Pairs(ws: seq<string>): string
    decreases |ws|
  {
    if |ws| == 0 then ""
    else if |ws| == 1 then ws[0]
    else ws[0] + "_" + ws[1] + Pairs(ws[2..])
  }

  /** Pattern 1 cannot start where the next character is not uppercase. */
  lemma {:induction false} NoCamelWordWhere(s: string, n: nat)
    requires n <= |s|
    requires forall i :: 1 <= i <= n && i < |s| ==> !IsUpper(s[i])
    ensures NoCamelWordBefore(s, n)
    decreases n
  {
    if n > 0 && |s| > 0 {
      forall i | 1 <= i <= n - 1 && i < |s[1..]| ensures !IsUpper(s[1..][i]) {
        assert s[1..][i] == s[i + 1];
      }
      NoCamelWordWhere(s[1..], n - 1);
    }
  }

  /** Pattern 2 cannot start at a character that is not a lowercase letter
      or digit, nor before one that is not uppercase. */
  lemma {:induction false} NoBoundaryWhere(s: string, n: nat)
    requires n <= |s|
    requires forall p :: 0 <= p < n && p + 1 < |s| ==>
      !(IsLower(s[p]) || IsDigit(s[p])) || !IsUpper(s[p + 1])
    ensures NoBoundaryBefore(s, n)
    decreases n
  {
    if n > 0 && |s| > 0 {
      forall p | 0 <= p < n - 1 && p + 1 < |s[1..]|
        ensures !(IsLower(s[1..][p]) || IsDigit(s[1..][p])) || !IsUpper(s[1..][p + 1])
      {
        assert s[1..][p] == s[p + 1] && s[1..][p + 1] == s[p + 2];
      }
      NoBoundaryWhere(s[1..], n - 1);
    }
  }

  /** The lowercase run starting at 2 in `[c] + w + r`, for a capitalised
      `w` and an `r` that does not start with a lowercase letter, ends
      with `w`. */
  lemma RunOfCapWord(c: char, w: string, r: string)
    requires CapWord(w) && (|r| == 0 || !IsLower(r[0]))
    ensures LowerRunEnd([c] + w + r, 2) == 1 + |w|
  {
    var t := [c] + w + r;
    var m := 1 + |w|;
    var tail := w[1..];
    forall i | 2 <= i < m ensures IsLower(t[i]) {
      assert t[i] == tail[i - 2];
    }
    if m < |t| {
      assert t[m] == r[0];
    }
    LowerRunEndIs(t, 2, m);
  }

  /** The lowercase run from `k` ends at the first index that is not a
      lowercase letter. */
  lemma {:induction false} LowerRunEndIs(s: string, k: nat, m: nat)
    requires k <= m <= |s|
    requires forall i :: k <= i < m ==> IsLower(s[i])
    requires m == |s| || !IsLower(s[m])
    ensures LowerRunEnd(s, k) == m
    decreases m - k
  {
    if k < |s| && IsLower(s[k]) {
      LowerRunEndIs(s, k + 1, m);
    }
  }

  /** Substitution 1 on a single first word copies it. */
  lemma SplitCamelWordsFirstWord(w: string)
    requires FirstWord(w)
    ensures SplitCamelWords(w) == w
  {
    forall i | 1 <= i <= |w| && i < |w| ensures !IsUpper(w[i]) {
      assert w[i] == w[1..][i - 1];
    }
    NoCamelWordWhere(w, |w|);
    SplitCamelWordsSkip(w, |w|);
    assert w[..|w|] == w;
  }

  /** Substitution 1 copies a first word up to its last letter. */
  lemma SplitCamelWordsSkipFirstWord(w: string, rest: string)
    requires FirstWord(w)
    ensures SplitCamelWords(w + rest) ==
      w[..|w| - 1] + SplitCamelWords([w[|w| - 1]] + rest)
  {
    var s := w + rest;
    var n := |w| - 1;
    var tail := w[1..];
    forall i | 1 <= i <= n && i < |s| ensures !IsUpper(s[i]) {
      assert s[i] == tail[i - 1];
      assert IsLower(tail[i - 1]);
    }
    NoCamelWordWhere(s, n);
    SplitCamelWordsSkip(s, n);
    assert s[..n] == w[..n];
    assert s[n..] == [w[n]] + rest;
  }

  /** Substitution 1 matches a letter and the capitalised word after it. */
  lemma SplitCamelWordsMatchCapWord(c: char, w: string, r: string)
    requires c != '\n' && CapWord(w) && (|r| == 0 || !IsLower(r[0]))
    ensures SplitCamelWords([c] + w + r) == [c, '_'] + w + SplitCamelWords(r)
  {
    var t := [c] + w + r;
    RunOfCapWord(c, w, r);
    assert CamelWordAt(t) by {
      assert t[1] == w[0] && t[2] == w[1..][0];
    }
    SplitCamelWordsMatch(t);
    assert t[1..1 + |w|] == w;
    assert t[1 + |w|..] == r;
  }

  /** Substitution 1 on a first word followed by a capitalised word: one
      match, ending with the capitalised word. */
  lemma SplitCamelWordsPair(w0: string, w1: string, r: string)
    requires FirstWord(w0) && CapWord(w1) && (|r| == 0 || !IsLower(r[0]))
    ensures SplitCamelWords(w0 + w1 + r) == w0 + "_" + w1 + SplitCamelWords(r)
  {
    var n := |w0| - 1;
    SplitCamelWordsSkipFirstWord(w0, w1 + r);
    SplitCamelWordsMatchCapWord(w0[n], w1, r);
    PairAlgebra(w0, w1, r, SplitCamelWords(r));
  }

  /** The sequence identities `SplitCamelWordsPair` rests on. */
  lemma PairAlgebra(w0: string, w1: string, r: string, x: string)
    requires |w0| > 0
    ensures w0 + w1 + r == w0 + (w1 + r)
    ensures [w0[|w0| - 1]] + (w1 + r) == [w0[|w0| - 1]] + w1 + r
    ensures w0[..|w0| - 1] + ([w0[|w0| - 1], '_'] + w1 + x) == w0 + "_" + w1 + x
  {
    assert w0 == w0[..|w0| - 1] + [w0[|w0| - 1]];
  }

  /** `Concat` of at least two words, first two apart. */
  lemma ConcatTwo(ws: seq<string>)
    requires |ws| >= 2
    ensures Concat(ws) == ws[0] + ws[1] + Concat(ws[2..])
  {
    assert Concat(ws[1..]) == ws[1] + Concat(ws[2..]) by {
      assert ws[1..][1..] == ws[2..];
    }
  }

  lemma {:induction false} SplitCamelWordsOfWords(ws: seq<string>)
    requires IsCamel(ws)
    ensures SplitCamelWords(Concat(ws)) == Pairs(ws)
    decreases |ws|
  {
    if |ws| == 1 {
      assert ws[1..] == [];
      assert Concat(ws) == ws[0];
      SplitCamelWordsFirstWord(ws[0]);
    } else {
      ConcatTwo(ws);
      var r := Concat(ws[2..]);
      if |ws| == 2 {
        assert r == "";
      } else {
        ConcatTwo(ws[1..]);
        assert ws[1..][1..] == ws[2..];
        assert r == ws[2] + Concat(ws[3..]) by {
          assert ws[2..][1..] == ws[3..];
        }
        assert CapWord(ws[2]);
        SplitCamelWordsOfWords(ws[2..]);
      }
      SplitCamelWordsPair(ws[0], ws[1], r);
    }
  }

  /** Substitution 2 on a single first word copies it. */
  lemma SplitBoundariesFirstWord(w: string)
    requires FirstWord(w)
    ensures SplitBoundaries(w) == w
  {
    forall p | 0 <= p < |w| && p + 1 < |w|
      ensures !(IsLower(w[p]) || IsDigit(w[p])) || !IsUpper(w[p + 1])
    {
      assert w[p + 1] == w[1..][p];
    }
    NoBoundaryWhere(w, |w|);
    SplitBoundariesSkip(w, |w|);
    assert w[..|w|] == w;
  }

  /** Substitution 2 copies `w0 + "_" + w1` up to the last letter of `w1`. */
  lemma NoBoundaryInPair(w0: string, w1: string, p2: string)
    requires FirstWord(w0) && CapWord(w1)
    ensures NoBoundaryBefore(w0 + "_" + w1 + p2, |w0| + |w1|)
  {
    var s := w0 + "_" + w1 + p2;
    var n := |w0| + |w1|;
    forall p | 0 <= p < n && p + 1 < |s|
      ensures !(IsLower(s[p]) || IsDigit(s[p])) || !IsUpper(s[p + 1])
    {
      if p + 1 < |w0| {
        assert s[p + 1] == w0[1..][p];
      } else if p + 1 == |w0| {
        assert s[p + 1] == '_';
      } else if p + 1 == |w0| + 1 {
        assert s[p] == '_';
      } else {
        assert s[p + 1] == w1[1..][p - |w0| - 1];
      }
    }
    NoBoundaryWhere(s, n);
  }

  /** Substitution 2 matches a lowercase letter and the uppercase letter
      after it. */
  lemma SplitBoundariesMatchUpper(c: char, p: string)
    requires IsLower(c) && |p| > 0 && IsUpper(p[0])
    ensures SplitBoundaries([c] + p) == [c, '_'] + SplitBoundaries(p)
  {
    var s := [c] + p;
    assert s[0] == c && s[1] == p[0] && s[2..] == p[1..];
    SplitBoundariesMatch(s);
    SplitBoundariesKeep(p);
    var x := SplitBoundaries(p[1..]);
    assert [c, '_', p[0]] + x == [c, '_'] + ([p[0]] + x);
  }

  /** Substitution 2 copies a pair up to the last letter of its second
      word. */
  lemma SplitBoundariesSkipPair(w0: string, w1: string, p2: string)
    requires FirstWord(w0) && CapWord(w1)
    ensures SplitBoundaries(w0 + "_" + w1 + p2) ==
      w0 + "_" + w1[..|w1| - 1] + SplitBoundaries([w1[|w1| - 1]] + p2)
  {
    var s := w0 + "_" + w1 + p2;
    var n := |w0| + |w1|;
    NoBoundaryInPair(w0, w1, p2);
    SplitBoundariesSkip(s, n);
    assert s[..n] == w0 + "_" + w1[..|w1| - 1];
    assert s[n..] == [w1[|w1| - 1]] + p2;
  }

  /** The sequence identity `SplitBoundariesPair` rests on. */
  lemma PairJoinAlgebra(w0: string, w1: string, x: string)
    requires |w1| > 0
    ensures w0 + "_" + w1[..|w1| - 1] + ([w1[|w1| - 1], '_'] + x) == w0 + "_" + w1 + ("_" + x)
    ensures w0 + "_" + w1[..|w1| - 1] + [w1[|w1| - 1]] == w0 + "_" + w1 + ""
  {
    assert w1 == w1[..|w1| - 1] + [w1[|w1| - 1]];
  }

  /** Substitution 2 on a pair followed by more pairs: one match, between
      the pair and what follows. */
  lemma SplitBoundariesPair(w0: string, w1: string, p2: string)
    requires FirstWord(w0) && CapWord(w1) && (|p2| == 0 || IsUpper(p2[0]))
    ensures SplitBoundaries(w0 + "_" + w1 + p2) ==
      w0 + "_" + w1 + (if |p2| == 0 then "" else "_" + SplitBoundaries(p2))
  {
    SplitBoundariesSkipPair(w0, w1, p2);
    var c := w1[|w1| - 1];
    PairJoinAlgebra(w0, w1, SplitBoundaries(p2));
    if |p2| == 0 {
      assert [c] + p2 == [c];
      assert SplitBoundaries([c]) == [c];
    } else {
      assert IsLower(c) by {
        assert c == w1[1..][|w1| - 2];
      }
      SplitBoundariesMatchUpper(c, p2);
    }
  }

  lemma {:induction false} SplitBoundariesOfPairs(ws: seq<string>)
    requires IsCamel(ws)
    ensures SplitBoundaries(Pairs(ws)) == JoinWith(ws, '_')
    decreases |ws|
  {
    if |ws| == 1 {
      SplitBoundariesFirstWord(ws[0]);
    } else {
      var p2 := Pairs(ws[2..]);
      assert JoinWith(ws[1..], '_') == ws[1] + (if |ws| == 2 then "" else ['_'] + JoinWith(ws[2..], '_')) by {
        assert ws[1..][1..] == ws[2..];
      }
      if |ws| == 2 {
        assert p2 == "";
      } else {
        assert CapWord(ws[2]);
        assert p2[0] == ws[2][0];
        SplitBoundariesOfPairs(ws[2..]);
      }
      SplitBoundariesPair(ws[0], ws[1], p2);
    }
  }

  /** `snake_case` of a camel-case identifier joins its words with '_' and
      lowercases them. */
  lemma SnakeCaseOfWords(ws: seq<string>)
    requires IsCamel(ws)
    ensures SnakeCase(Concat(ws)) == Lower(JoinWith(ws, '_'))
  {
    SplitCamelWordsOfWords(ws);
    SplitBoundariesOfPairs(ws);
  }
}

=== FILE: chars.dfy ===
/** Character classes and small string operations used throughout the
    tool. Letter case and alphanumerics are the ASCII ranges (the regular
    expressions of the tool name exactly those ranges); whitespace is
    Python's `str.isspace` set, which is also what `\s` and `str.strip()`
    use. */
module Chars {

  predicate IsUpper(c: char) { 'A' <= c <= 'Z' }
  predicate IsLower(c: char) { 'a' <= c <= 'z' }
  predicate IsDigit(c: char) { '0' <= c <= '9' }
  predicate IsAlpha(c: char) { IsUpper(c) || IsLower(c) }
  predicate IsAlnum(c: char) { IsAlpha(c) || IsDigit(c) }

  /** The class `[a-zA-Z0-9_-]` of identifier-like names. */
  predicate IsNameChar(c: char) { IsAlnum(c) || c == '_' || c == '-' }

  /** Python's `str.isspace()`, the characters matched by `\s` and removed
      by `str.strip()`. */
  predicate IsSpace(c: char) {
    || c == ' ' || c == '\t' || c == '\n' || c == '\r'
    || c == '\U{0B}' || c == '\U{0C}'
    || ('\U{1C}' <= c <= '\U{1F}')
    || c == '\U{85}' || c == '\U{A0}' || c == '\U{1680}'
    || ('\U{2000}' <= c <= '\U{200A}')
    || c == '\U{2028}' || c == '\U{2029}' || c == '\U{202F}'
    || c == '\U{205F}' || c == '\U{3000}'
  }

  function LowerChar(c: char): (r: char)
    ensures !IsUpper(r)
    ensures IsAlpha(c) <==> IsAlpha(r)
    ensures !IsUpper(c) ==> r == c
  {
    if IsUpper(c) then (c as int + 32) as char else c
  }

  function UpperChar(c: char): (r: char)
    ensures !IsLower(r)
    ensures IsAlpha(c) <==> IsAlpha(r)
    ensures !IsLower(c) ==> r == c
    ensures LowerChar(r) == LowerChar(c)
  {
    if IsLower(c) then (c as int - 32) as char else c
  }

  /** `str.lower()` restricted to ASCII letters. */
  function Lower(s: string): (r: string)
    ensures |r| == |s|
    ensures forall i :: 0 <= i < |s| ==> r[i] == LowerChar(s[i])
  {
    seq(|s|, i requires 0 <= i < |s| => LowerChar(s[i]))
  }

  predicate NoUpper(s: string) {
    forall i :: 0 <= i < |s| ==> !IsUpper(s[i])
  }

  lemma LowerOfNoUpper(s: string)
    requires NoUpper(s)
    ensures Lower(s) == s
  {
  }

  lemma LowerAppend(a: string, b: string)
    ensures Lower(a + b) == Lower(a) + Lower(b)
  {
  }

  /** Every character of `s` satisfies `IsNameChar`. */
  predicate AllNameChars(s: string) {
    forall i :: 0 <= i < |s| ==> IsNameChar(s[i])
  }

  predicate StartsWith(s: string, prefix: string) {
    |prefix| <= |s| && s[..|prefix|] == prefix
  }

  /** `needle` occurs in `haystack` starting at index `i`. */
  predicate OccursAt(haystack: string, needle: string, i: int) {
    0 <= i <= |haystack| - |needle| && haystack[i..i + |needle|] == needle
  }

  /** Python's `needle in haystack` for strings. */
  predicate Contains(haystack: string, needle: string) {
    exists i :: 0 <= i <= |haystack| - |needle| && OccursAt(haystack, needle, i)
  }

  /** `s` with every occurrence of `c` deleted (`s.replace(c, "")`). */
  function Delete(s: string, c: char): (r: string)
    ensures c !in r
    ensures |r| <= |s|
  {
    if |s| == 0 then []
    else if s[0] == c then Delete(s[1..], c)
    else [s[0]] + Delete(s[1..], c)
  }

  lemma {:induction false} DeleteAppend(a: string, b: string, c: char)
    ensures Delete(a + b, c) == Delete(a, c) + Delete(b, c)
  {
    if |a| == 0 {
      assert a + b == b;
    } else {
      assert (a + b)[1..] == a[1..] + b;
      DeleteAppend(a[1..], b, c);
    }
  }

  lemma {:induction false} DeleteAbsent(s: string, c: char)
    requires c !in s
    ensures Delete(s, c) == s
  {
    if |s| > 0 {
      DeleteAbsent(s[1..], c);
    }
  }

  /** `s.replace(a, b)` for single characters. */
  function Replace(s: string, a: char, b: char): (r: string)
    ensures |r| == |s|
    ensures forall i :: 0 <= i < |s| ==> r[i] == (if s[i] == a then b else s[i])
  {
    seq(|s|, i requires 0 <= i < |s| => if s[i] == a then b else s[i])
  }

  function StripLeft(s: string): (r: string)
    ensures |r| <= |s| && r == s[|s| - |r|..]
    ensures |r| > 0 ==> !IsSpace(r[0])
    ensures forall i :: 0 <= i < |s| - |r| ==> IsSpace(s[i])
  {
    if |s| > 0 && IsSpace(s[0]) then StripLeft(s[1..]) else s
  }

  function StripRight(s: string): (r: string)
    ensures |r| <= |s| && r == s[..|r|]
    ensures |r| > 0 ==> !IsSpace(r[|r| - 1])
    ensures forall i :: |r| <= i < |s| ==> IsSpace(s[i])
  {
    if |s| > 0 && IsSpace(s[|s| - 1]) then StripRight(s[..|s| - 1]) else s
  }

  /** Python's `str.strip()` with no argument. */
  function Strip(s: string): (r: string)
    ensures |r| > 0 ==> !IsSpace(r[0]) && !IsSpace(r[|r| - 1])
    ensures exists k :: OccursAt(s, r, k)
  {
    var l := StripLeft(s);
    var r := StripRight(l);
    assert OccursAt(s, r, |s| - |l|);
    r
  }

  lemma StripNoSpace(s: string)
    requires forall i :: 0 <= i < |s| ==> !IsSpace(s[i])
    ensures Strip(s) == s
  {
  }
}

=== FILE: cli.dfy ===
/** The dispatch of `main` in restack_gen/cli.py: concurrent creation
    first, then help, then a command from the table, with interrupts and
    unexpected errors turned into exit codes. Argument parsing is not
    modelled: `Args` is what `argparse` produced. */
module Cli {
  import opened Wrappers
  import opened Fs
  import C = Constants
  import Registry
  import Batch

  /** How a call ended. */
  datatype Run =
    | Returned(code: int)  // it returned `code`
    | Interrupted          // KeyboardInterrupt
    | Raised               // any other exception

  /** The parsed command line. */
  datatype Args = Args(concurrentNew: Option<seq<string>>, help: bool, command: Option<string>,
                       args: seq<string>, quiet: bool)

  /** What `main` cannot see: whether the help command can be imported,
      whether the command table can be built (it imports every command
      class), how each command runs, and, for concurrent creation, the
      working directory, the file system, the completion order, what
      each project's `NewCommand` does, and whether Ctrl-C arrives while
      the pool is running. */
  datatype Host = Host(
    helpImports: bool,
    registryImports: bool,
    run: (Registry.CommandClass, seq<string>) -> Run,
    cwd: Path,
    fs: FileSystem,
    order: seq<string>,
    execute: (string, FileSystem) -> Batch.Attempt,
    batchInterrupted: bool)

  /** `show_help`: runs the help command and returns SUCCESS whatever it
      returned; failing to import it raises. */
  function ShowHelp(h: Host): (r: Run)
    ensures r.Returned? ==> r.code == C.ExitCode.Success.Value()
    ensures r == Returned(0) <==> h.helpImports && h.run(Registry.HelpCommand, []).Returned?
  {
    if !h.helpImports then Raised
    else
      match h.run(Registry.HelpCommand, [])
      case Returned(_) => Returned(C.ExitCode.Success.Value())
      case Interrupted => Interrupted
      case Raised => Raised
  }

  /** `execute_command`: an unknown name is an error; a known one runs its
      command with the remaining arguments. */
  function ExecuteCommand(name: string, args: seq<string>, h: Host): (r: Run)
    ensures !h.registryImports ==> r == Raised
    ensures h.registryImports && Registry.Get(name).None? ==> r == Returned(C.ExitCode.Error.Value())
    ensures h.registryImports && Registry.Get(name).Some? ==> r == h.run(Registry.Get(name).value, args)
  {
    if !h.registryImports then Raised
    else
      match Registry.Get(name)
      case None => Returned(C.ExitCode.Error.Value())
      case Some(cls) => h.run(cls, args)
  }

  /** `args.help or not args.command`. */
  predicate WantsHelp(a: Args) {
    a.help || a.command.None? || a.command.value == ""
  }

  /** The `try` of `main`: KeyboardInterrupt becomes INTERRUPTED, any other
      exception ERROR. */
  function ExitOf(run: Run): (r: int)
    ensures run.Returned? ==> r == run.code
    ensures run.Interrupted? ==> r == C.ExitCode.Interrupted.Value()
    ensures run.Raised? ==> r == C.ExitCode.Error.Value()
  {
    match run
    case Returned(code) => code
    case Interrupted => C.ExitCode.Interrupted.Value()
    case Raised => C.ExitCode.Error.Value()
  }

  /** `main` after parsing. Concurrent creation runs `create_projects` as
      written; an interrupt while its pool runs reaches the `except
      KeyboardInterrupt` of `main`. */
  function Main(a: Args, h: Host): (r: int)
    requires a.concurrentNew.Some? ==> Batch.IsOrder(a.concurrentNew.value, h.order)
    ensures a.concurrentNew == Some([]) ==> r == C.ExitCode.Error.Value()
    ensures a.concurrentNew.Some? && !h.batchInterrupted ==>
      r in {C.ExitCode.Success.Value(), C.ExitCode.Error.Value()}
    ensures a.concurrentNew.Some? && a.concurrentNew.value != [] && h.batchInterrupted ==>
      r == C.ExitCode.Interrupted.Value()
    ensures a.concurrentNew.Some? && a.concurrentNew.value != [] && !h.batchInterrupted ==>
      (r == C.ExitCode.Success.Value() <==>
       !Batch.AnyFailure(Batch.Results(Batch.RunAll(h.fs, h.cwd, h.order, h.execute).0)))
    ensures a.concurrentNew.None? && WantsHelp(a) ==>
      (r == C.ExitCode.Success.Value() <==> h.helpImports && h.run(Registry.HelpCommand, []).Returned?)
    ensures a.concurrentNew.None? && !WantsHelp(a) && Registry.Get(a.command.value).None? ==>
      r == C.ExitCode.Error.Value()
  {
    if a.concurrentNew.Some? then
      if a.concurrentNew.value != [] && h.batchInterrupted then ExitOf(Interrupted)
      else Batch.CreateProjectsAsWritten(a.quiet, h.cwd, a.concurrentNew.value, h.order, h.fs, h.execute).code
    else if WantsHelp(a) then
      ExitOf(ShowHelp(h))
    else
      ExitOf(ExecuteCommand(a.command.value, a.args, h))
  }

  /** A name given twice to `--concurrent-new`, whose first worker fails
      and whose second succeeds on the file system the first left: `main`
      exits with SUCCESS, while the corrected creation reports ERROR. */
  lemma MainMasksRepeatedFailure(a: Args, h: Host, n: string)
    requires a.concurrentNew == Some([n, n]) && h.order == [n, n] && !h.batchInterrupted
    requires h.execute(n, h.fs).Returned? && h.execute(n, h.fs).code != 0
    requires h.execute(n, Batch.Cleanup(h.execute(n, h.fs).after, h.cwd, n)).Returned?
    requires h.execute(n, Batch.Cleanup(h.execute(n, h.fs).after, h.cwd, n)).code == 0
    ensures Main(a, h) == C.ExitCode.Success.Value()
    ensures Batch.CreateProjects(a.quiet, h.cwd, [n, n], h.order, h.fs, h.execute).code == C.ExitCode.Error.Value()
  {
    var first := h.execute(n, h.fs);
    var fs1 := Batch.Cleanup(first.after, h.cwd, n);
    var w1 := Batch.Work(h.fs, h.cwd, n, first);
    assert w1 == (first.code, fs1);
    var w2 := Batch.Work(fs1, h.cwd, n, h.execute(n, fs1));
    assert w2.0 == 0;
    var cs := Batch.RunAll(h.fs, h.cwd, h.order, h.execute).0;
    assert [n, n][1..] == [n] && [n][1..] == [];
    var tail := Batch.RunAll(fs1, h.cwd, [n], h.execute).0;
    assert tail == [Batch.Completion(n, 0)] + Batch.RunAll(w2.1, h.cwd, [], h.execute).0;
    assert tail == [Batch.Completion(n, 0)];
    assert cs == [Batch.Completion(n, first.code)] + tail;
    assert cs == [Batch.Completion(n, first.code), Batch.Completion(n, 0)];
    Batch.DuplicateMasksFailure(n, first.code, a.quiet);
    Batch.DuplicateFailureKept(n, first.code, a.quiet);
    Batch.CompletedNames([n, n], h.order, cs);
    Batch.FailedListed(Batch.StickyResults(cs));
  }

  /** `--concurrent-new` wins over every other argument. */
  lemma ConcurrentFirst(a: Args, b: Args, h: Host)
    requires a.concurrentNew.Some? && b.concurrentNew == a.concurrentNew && b.quiet == a.quiet
    requires Batch.IsOrder(a.concurrentNew.value, h.order)
    ensures Main(a, h) == Main(b, h)
  {
  }

  /** With `-h` the command and its arguments are ignored. */
  lemma HelpIgnoresCommand(a: Args, b: Args, h: Host)
    requires a.concurrentNew.None? && b.concurrentNew.None? && a.help && b.help
    ensures Main(a, h) == Main(b, h)
  {
  }

  /** INTERRUPTED comes only from an interrupt or a command returning that
      code itself. */
  lemma InterruptedOnlyFromInterrupt(a: Args, h: Host)
    requires a.concurrentNew.None?
    requires Main(a, h) == C.ExitCode.Interrupted.Value()
    ensures WantsHelp(a) ==> h.run(Registry.HelpCommand, []) == Interrupted
    ensures !WantsHelp(a) ==> exists cls :: h.run(cls, a.args) == Interrupted || h.run(cls, a.args) == Returned(130)
  {
    if !WantsHelp(a) {
      var cls := Registry.Get(a.command.value).value;
      assert h.run(cls, a.args) == Interrupted || h.run(cls, a.args) == Returned(130);
    }
  }

  /** A known command's own code is passed through. */
  lemma CommandCodePassedThrough(a: Args, h: Host, code: int)
    requires a.concurrentNew.None? && !WantsHelp(a) && h.registryImports
    requires Registry.Get(a.command.value).Some?
    requires h.run(Registry.Get(a.command.value).value, a.args) == Returned(code)
    ensures Main(a, h) == code
  {
  }

  /** When neither the help command nor the command table can be imported,
      every invocation other than concurrent creation exits with ERROR. */
  lemma ImportFailureFailsEverything(a: Args, h: Host)
    requires a.concurrentNew.None? && !h.helpImports && !h.registryImports
    ensures Main(a, h) == C.ExitCode.Error.Value()
  {
  }

  /** A known command runs with the remaining arguments, and how it ends
      is the exit code. */
  lemma MainRunsCommand(a: Args, h: Host, cls: Registry.CommandClass)
    requires a.concurrentNew.None? && !WantsHelp(a) && h.registryImports
    requires Registry.Get(a.command.value) == Some(cls)
    ensures Main(a, h) == ExitOf(h.run(cls, a.args))
  {
  }

  /** "g" runs the generator with the remaining arguments. */
  lemma GeneratorAlias(a: Args, h: Host)
    requires a.concurrentNew.None? && !a.help && a.command == Some("g") && h.registryImports
    ensures Main(a, h) == ExitOf(h.run(Registry.GenerateCommand, a.args))
  {
    var name := a.command.value;
    Registry.GetGenerate(name, "generate");
    MainRunsCommand(a, h, Registry.GenerateCommand);
  }
}

=== FILE: completers.dfy ===
/** The completer helpers of restack_gen/interactive/completers.py: a choice
    table (an insertion-ordered dict from a choice to its description),
    prefix completion over it, and the package-manager table filtered by
    language. The prompt_toolkit document and completion objects are
    modelled by the text before the cursor and a `Completion` record. */
module Completers {
  import opened Wrappers
  import opened Chars

  /** An insertion-ordered `dict[str, str]`: `keys` in insertion order,
      `desc` the description of each key. */
  datatype Choices = Choices(keys: seq<string>, desc: map<string, string>)

  predicate Distinct(ks: seq<string>) {
    forall i, j :: 0 <= i < j < |ks| ==> ks[i] != ks[j]
  }

  ghost predicate Valid(c: Choices) {
    Distinct(c.keys) && (forall k :: k in c.desc <==> k in c.keys)
  }

  /** Assignment `d[k] = v`: a new key goes last, an existing key keeps its
      place and takes the new value. */
  function Put(c: Choices, k: string, v: string): (r: Choices)
    requires Valid(c)
    ensures Valid(r)
    ensures r.desc == c.desc[k := v]
    ensures k in c.desc ==> r.keys == c.keys
    ensures k !in c.desc ==> r.keys == c.keys + [k]
  {
    if k in c.desc then Choices(c.keys, c.desc[k := v])
    else Choices(c.keys + [k], c.desc[k := v])
  }

  /** `{c: c for c in choices}`. */
  function FromList(cs: seq<string>): (r: Choices)
    ensures Valid(r)
    ensures forall k :: k in r.desc ==> r.desc[k] == k
    decreases |cs|
  {
    if cs == [] then Choices([], map[])
    else Put(FromList(cs[..|cs| - 1]), cs[|cs| - 1], cs[|cs| - 1])
  }

  /** The argument of `ChoiceCompleter.__init__`: a dict or a list. */
  datatype Given = GivenDict(choices: Choices) | GivenList(items: seq<string>)

  /** `ChoiceCompleter.__init__`: a dict is kept as given, a list becomes
      the identity map. */
  function Init(g: Given): (r: Choices)
    ensures g.GivenDict? ==> r == g.choices
    ensures g.GivenList? ==> forall k :: k in r.desc ==> r.desc[k] == k
  {
    match g
    case GivenDict(c) => c
    case GivenList(cs) => FromList(cs)
  }

  /** The list's choices are exactly the map's keys. */
  lemma {:induction false} FromListKeys(cs: seq<string>, k: string)
    ensures k in FromList(cs).desc <==> k in cs
    decreases |cs|
  {
    if cs != [] {
      var init := cs[..|cs| - 1];
      FromListKeys(init, k);
      assert cs == init + [cs[|cs| - 1]];
    }
  }

  /** One more choice at the end of the list. */
  lemma FromListSnoc(init: seq<string>, last: string)
    ensures FromList(init + [last]) == Put(FromList(init), last, last)
  {
    assert (init + [last])[..|init|] == init;
  }

  /** Without repeats, the last element is not among the others, which
      have no repeats either. */
  lemma DistinctSnoc(init: seq<string>, last: string)
    requires Distinct(init + [last])
    ensures Distinct(init) && last !in init
  {
    var cs := init + [last];
    forall i, j | 0 <= i < j < |init| ensures init[i] != init[j] {
      assert init[i] == cs[i] && init[j] == cs[j];
    }
    forall i | 0 <= i < |init| ensures init[i] != last {
      assert init[i] == cs[i] && last == cs[|init|];
    }
  }

  /** A list without repeats keeps its order; a repeat keeps the first
      position. */
  lemma {:induction false} FromListOrder(cs: seq<string>)
    requires Distinct(cs)
    ensures FromList(cs).keys == cs
    decreases |cs|
  {
    if cs != [] {
      var init := cs[..|cs| - 1];
      var last := cs[|cs| - 1];
      assert cs == init + [last];
      DistinctSnoc(init, last);
      FromListOrder(init);
      FromListKeys(init, last);
      FromListSnoc(init, last);
      var c := FromList(init);
      assert last !in c.desc;
      assert Put(c, last, last).keys == init + [last];
    }
  }

  lemma FromListRepeat(cs: seq<string>, k: string)
    requires k in cs
    ensures FromList(cs + [k]) == FromList(cs)
  {
    FromListKeys(cs, k);
    FromListSnoc(cs, k);
    var c := FromList(cs);
    assert k in c.desc && c.desc[k] == k;
    UpdateSame(c.desc, k);
  }

  /** Storing a key's own value again changes nothing. */
  lemma UpdateSame(m: map<string, string>, k: string)
    requires k in m
    ensures m[k := m[k]] == m
  {
  }

  /** The keys of `ks` for which `p` holds, in their order. */
  function Select(ks: seq<string>, p: string -> bool): (r: seq<string>)
    ensures |r| <= |ks|
    decreases |ks|
  {
    if ks == [] then []
    else
      var rest := Select(ks[1..], p);
      if p(ks[0]) then [ks[0]] + rest else rest
  }

  /** A key is selected exactly when it is one of `ks` and `p` holds. */
  lemma {:induction false} SelectMembers(ks: seq<string>, p: string -> bool, k: string)
    ensures k in Select(ks, p) <==> k in ks && p(k)
    decreases |ks|
  {
    if ks != [] {
      SelectMembers(ks[1..], p, k);
      assert ks == [ks[0]] + ks[1..];
    }
  }

  lemma SelectMembersAll(ks: seq<string>, p: string -> bool)
    ensures forall k :: k in Select(ks, p) <==> k in ks && p(k)
  {
    forall k ensures k in Select(ks, p) <==> k in ks && p(k) {
      SelectMembers(ks, p, k);
    }
  }

  /** Selection keeps the order: it distributes over concatenation. */
  lemma {:induction false} SelectAppend(a: seq<string>, b: seq<string>, p: string -> bool)
    ensures Select(a + b, p) == Select(a, p) + Select(b, p)
    decreases |a|
  {
    if a == [] {
      assert a + b == b;
    } else {
      assert (a + b)[0] == a[0];
      assert (a + b)[1..] == a[1..] + b;
      SelectAppend(a[1..], b, p);
    }
  }

  /** When every key qualifies, all are selected in their order. */
  lemma {:induction false} SelectAll(ks: seq<string>, p: string -> bool)
    requires forall i :: 0 <= i < |ks| ==> p(ks[i])
    ensures Select(ks, p) == ks
    decreases |ks|
  {
    if ks != [] {
      SelectAll(ks[1..], p);
      assert ks == [ks[0]] + ks[1..];
    }
  }

  lemma {:induction false} SelectDistinct(ks: seq<string>, p: string -> bool)
    requires Distinct(ks)
    ensures Distinct(Select(ks, p))
    decreases |ks|
  {
    if ks != [] {
      SelectDistinct(ks[1..], p);
      var rest := Select(ks[1..], p);
      SelectMembers(ks[1..], p, ks[0]);
      if p(ks[0]) {
        assert ks[0] !in ks[1..];
        var r := [ks[0]] + rest;
        forall i, j | 0 <= i < j < |r| ensures r[i] != r[j] {
          if i == 0 { assert r[j] == rest[j - 1]; assert r[j] in rest; }
          else { assert r[i] == rest[i - 1] && r[j] == rest[j - 1]; }
        }
      }
    }
  }

  /** One suggestion: the key, where it starts relative to the cursor, and
      the text shown. */
  datatype Completion = Completion(text: string, startPosition: int, display: string)

  /** The keys starting with `prefix`, in map order. */
  function Matching(c: Choices, prefix: string): seq<string> {
    Select(c.keys, k => StartsWith(k, prefix))
  }

  /** `get_completions`: each key that starts with the lowercased text
      before the cursor, in map order, replacing that text and shown with
      its description. */
  function Completions(c: Choices, before: string): (r: seq<Completion>)
    requires Valid(c)
    ensures |r| == |Matching(c, Lower(before))|
    ensures forall i :: 0 <= i < |r| ==>
      r[i].text == Matching(c, Lower(before))[i]
      && r[i].text in c.desc && r[i].display == c.desc[r[i].text]
      && StartsWith(r[i].text, Lower(before))
      && r[i].startPosition == -|before|
  {
    var ks := Matching(c, Lower(before));
    SelectMembersAll(c.keys, k => StartsWith(k, Lower(before)));
    seq(|ks|, i requires 0 <= i < |ks| =>
      assert ks[i] in ks;
      Completion(ks[i], -|before|, c.desc[ks[i]]))
  }

  /** Every key that starts with the lowercased text is offered. */
  lemma CompletionsComplete(c: Choices, before: string, k: string)
    requires Valid(c) && k in c.desc
    ensures StartsWith(k, Lower(before)) <==> exists i :: 0 <= i < |Completions(c, before)| && Completions(c, before)[i].text == k
  {
    var ks := Matching(c, Lower(before));
    var r := Completions(c, before);
    SelectMembers(c.keys, k => StartsWith(k, Lower(before)), k);
    if StartsWith(k, Lower(before)) {
      assert k in ks;
      var i :| 0 <= i < |ks| && ks[i] == k;
      assert r[i].text == k;
    }
  }

  /** Empty text before the cursor offers every key, in map order. */
  lemma EmptyTextOffersAll(c: Choices)
    requires Valid(c)
    ensures Matching(c, "") == c.keys
  {
    var p := (k: string) => StartsWith(k, "");
    forall i | 0 <= i < |c.keys| ensures p(c.keys[i]) {
      assert c.keys[i][..0] == "";
    }
    SelectAll(c.keys, p);
  }

  /** The case of the typed text does not matter. */
  lemma CaseInsensitive(c: Choices, a: string, b: string)
    requires Valid(c) && Lower(a) == Lower(b)
    ensures Completions(c, a) == Completions(c, b)
  {
  }

  const EmDash: string := "\U{2014}"

  /** The four package managers and their descriptions, in order. */
  const ManagerKeys: seq<string> := ["uv", "pip", "pnpm", "npm"]
  const Managers: Choices := Choices(ManagerKeys, map[
    "uv" := "uv " + EmDash + " Unchecked Package Manager (Python)",
    "pip" := "pip " + EmDash + " Python's pip",
    "pnpm" := "pnpm " + EmDash + " Fast JS package manager",
    "npm" := "npm " + EmDash + " Node package manager"])

  /** `{k: v for k, v in d.items() if k in allowed}`. */
  function Restrict(c: Choices, allowed: set<string>): (r: Choices)
    requires Valid(c)
    ensures Valid(r)
    ensures forall k :: k in r.desc <==> k in c.desc && k in allowed
    ensures forall k :: k in r.desc ==> r.desc[k] == c.desc[k]
  {
    var ks := Select(c.keys, k => k in allowed);
    SelectDistinct(c.keys, k => k in allowed);
    SelectMembersAll(c.keys, k => k in allowed);
    Choices(ks, map k | k in ks :: c.desc[k])
  }

  /** The manager names `PackageManagerCompleter` offers for a language. */
  function ManagersFor(language: Option<string>): (r: set<string>)
    ensures r <= set k | k in ManagerKeys
  {
    if language == Some("py") then {"uv", "pip"}
    else if language == Some("ts") then {"pnpm", "npm"}
    else {"uv", "pip", "pnpm", "npm"}
  }

  /** `PackageManagerCompleter.__init__`. */
  function PackageManagers(language: Option<string>): (r: Choices)
    ensures Valid(r)
    ensures forall k :: k in r.desc <==> k in ManagersFor(language)
    ensures forall k :: k in r.desc ==> k in Managers.desc && r.desc[k] == Managers.desc[k]
  {
    assert Valid(Managers);
    if language == Some("py") then Restrict(Managers, {"uv", "pip"})
    else if language == Some("ts") then Restrict(Managers, {"pnpm", "npm"})
    else Managers
  }

  lemma SelectOne(k: string, p: string -> bool)
    ensures Select([k], p) == if p(k) then [k] else []
  {
    assert [k][1..] == [];
  }

  /** One step of `Select`. */
  lemma SelectCons(k: string, rest: seq<string>, p: string -> bool)
    ensures Select([k] + rest, p) == (if p(k) then [k] else []) + Select(rest, p)
  {
    assert ([k] + rest)[1..] == rest;
  }

  /** Selection from four keys, one key at a time. */
  lemma SelectFour(w: string, x: string, y: string, z: string, p: string -> bool)
    ensures Select([w, x, y, z], p) ==
      (if p(w) then [w] else []) + (if p(x) then [x] else [])
      + (if p(y) then [y] else []) + (if p(z) then [z] else [])
  {
    assert [w, x, y, z] == [w] + ([x] + ([y] + ([z] + [])));
    SelectCons(w, [x] + ([y] + ([z] + [])), p);
    SelectCons(x, [y] + ([z] + []), p);
    SelectCons(y, [z] + [], p);
    SelectCons(z, [], p);
    Concat4((if p(w) then [w] else []), (if p(x) then [x] else []), (if p(y) then [y] else []), (if p(z) then [z] else []));
  }

  lemma Concat4(a: seq<string>, b: seq<string>, c: seq<string>, d: seq<string>)
    ensures a + (b + (c + (d + []))) == a + b + c + d
  {
    assert d + [] == d;
  }

  /** Selection from the manager table, one manager at a time. */
  lemma SelectManagers(p: string -> bool)
    ensures Select(ManagerKeys, p) ==
      (if p("uv") then ["uv"] else []) + (if p("pip") then ["pip"] else [])
      + (if p("pnpm") then ["pnpm"] else []) + (if p("npm") then ["npm"] else [])
  {
    SelectFour("uv", "pip", "pnpm", "npm", p);
  }

  /** Python gets uv then pip. */
  lemma PythonManagers()
    ensures PackageManagers(Some("py")).keys == ["uv", "pip"]
  {
    var allowed: set<string> := {"uv", "pip"};
    assert "pnpm" !in allowed && "npm" !in allowed;
    SelectManagers(k => k in allowed);
  }

  /** TypeScript gets pnpm then npm. */
  lemma TypeScriptManagers()
    ensures PackageManagers(Some("ts")).keys == ["pnpm", "npm"]
  {
    var allowed: set<string> := {"pnpm", "npm"};
    assert "uv" !in allowed && "pip" !in allowed;
    SelectManagers(k => k in allowed);
  }

  /** Any other language, None included, gets all four in table order. */
  lemma OtherManagers(language: Option<string>)
    requires language != Some("py") && language != Some("ts")
    ensures PackageManagers(language).keys == ManagerKeys
  {
  }
}

=== FILE: constants.dfy ===
/** The shared enumerations and the global configuration record of
    restack-gen (restack_gen/constants.py), and the CLI exit codes
    (restack_gen/cli.py). */
module Constants {
  import Wrappers
  type Option<T> = Wrappers.Option<T>
  import Fs

  /** The two supported ecosystems. The value string doubles as the
      generated file extension and the template sub-directory name. */
  datatype Language = Python | TypeScript {
    function Value(): (r: string)
      ensures r == "py" || r == "ts"
    {
      match this
      case Python => "py"
      case TypeScript => "ts"
    }
  }

  /** `Language(s)`: the member whose value is `s`, if any. */
  function ParseLanguage(s: string): (r: Option<Language>)
    ensures forall l: Language :: r == Wrappers.Some(l) <==> l.Value() == s
  {
    if s == "py" then Wrappers.Some(Python)
    else if s == "ts" then Wrappers.Some(TypeScript)
    else Wrappers.None
  }

  /** The component kinds `restack-gen g <type> <name>` accepts. */
  datatype GenerationType = Agent | Function | Workflow {
    function Value(): (r: string)
      ensures r == "agent" || r == "function" || r == "workflow"
    {
      match this
      case Agent => "agent"
      case Function => "function"
      case Workflow => "workflow"
    }
  }

  /** `GenerationType(s)`: the member whose value is `s`; any other string
      raises `ValueError`, modelled as `None`. */
  function ParseGenerationType(s: string): (r: Option<GenerationType>)
    ensures forall t: GenerationType :: r == Wrappers.Some(t) <==> t.Value() == s
  {
    if s == "agent" then Wrappers.Some(Agent)
    else if s == "function" then Wrappers.Some(Function)
    else if s == "workflow" then Wrappers.Some(Workflow)
    else Wrappers.None
  }

  /** Parsing inverts `Value`, and exactly the three value strings parse. */
  lemma GenerationTypeRoundTrip(s: string)
    ensures forall t: GenerationType :: ParseGenerationType(t.Value()) == Wrappers.Some(t)
    ensures ParseGenerationType(s).Some? <==> s in {"agent", "function", "workflow"}
    ensures ParseLanguage(s).Some? <==> s in {"py", "ts"}
  {
  }

  /** The global CLI configuration; the working directory is kept as
      written, because the generator reads its final component. */
  datatype Config = Config(
    lang: Option<Language>,
    packageManager: Option<string>,
    cwd: Option<Fs.RawPath>,
    quiet: bool,
    yes: bool,
    force: bool,
    dryRun: bool,
    verbose: bool,
    noColor: bool)

  /** `Config()` with every field at its declared default. */
  function DefaultConfig(): (c: Config)
    ensures c.lang.None? && c.packageManager.None? && c.cwd.None?
    ensures !c.quiet && !c.yes && !c.force && !c.dryRun && !c.verbose && !c.noColor
  {
    Config(Wrappers.None, Wrappers.None, Wrappers.None, false, false, false, false, false, false)
  }

  /** `ExitCode`: the process statuses the CLI returns. */
  datatype ExitCode = Success | Error | Interrupted {
    function Value(): (r: int)
      ensures r in {0, 1, 130}
    {
      match this
      case Success => 0
      case Error => 1
      case Interrupted => 130
    }
  }

  lemma ExitCodesDistinct()
    ensures forall a: ExitCode, b: ExitCode :: a.Value() == b.Value() ==> a == b
    ensures {Success.Value(), Error.Value(), Interrupted.Value()} == {0, 1, 130}
  {
    assert Success.Value() == 0 && Error.Value() == 1 && Interrupted.Value() == 130;
  }
}

=== FILE: entry.dfy ===
/** The entry dispatcher (restack_gen/__main__.py): the choice between the
    interactive front end and the standard CLI, and the exit codes of a
    failed dispatch. */
module Entry {
  import C = Constants
  import Cli

  /** Arguments that fall back to the standard CLI. */
  const HelpWords: set<string> := {"help", "--help", "-h", "--version", "-v"}
  const StandardCommands: seq<string> := ["new", "init", "build", "test", "deploy"]

  /** `should_use_interactive_mode`: the interactive front end is used for
      an explicit `-i`/`--interactive`, or for an empty command line on a
      terminal; every later test only ever answers no. */
  function ShouldUseInteractive(argv: seq<string>, stdinTty: bool, stdoutTty: bool): (r: bool)
    ensures r <==> "--interactive" in argv || "-i" in argv || (argv == [] && stdinTty && stdoutTty)
  {
    if "--interactive" in argv || "-i" in argv then true
    else if argv == [] && stdinTty && stdoutTty then true
    else if exists arg :: arg in argv && arg in HelpWords then false
    else if argv != [] && argv[0] in StandardCommands then false
    else false
  }

  /** `main`: runs the chosen front end (each an input here); an interrupt
      gives 130 and any other exception 1. */
  function Main(argv: seq<string>, stdinTty: bool, stdoutTty: bool,
                interactive: Cli.Run, standard: Cli.Run): (r: int)
    ensures ShouldUseInteractive(argv, stdinTty, stdoutTty) ==> r == Cli.ExitOf(interactive)
    ensures !ShouldUseInteractive(argv, stdinTty, stdoutTty) ==> r == Cli.ExitOf(standard)
  {
    Cli.ExitOf(if ShouldUseInteractive(argv, stdinTty, stdoutTty) then interactive else standard)
  }

  /** The flag is honoured wherever it appears, even after a command or
      next to `--help`. */
  lemma FlagAnywhere(argv: seq<string>, i: nat, stdinTty: bool, stdoutTty: bool)
    requires i < |argv| && argv[i] in {"-i", "--interactive"}
    ensures ShouldUseInteractive(argv, stdinTty, stdoutTty)
  {
    assert argv[i] in argv;
  }

  /** Without the flag, any argument selects the standard CLI, whatever the
      terminal. */
  lemma ArgumentsMeanStandard(argv: seq<string>, stdinTty: bool, stdoutTty: bool)
    requires argv != [] && "-i" !in argv && "--interactive" !in argv
    ensures !ShouldUseInteractive(argv, stdinTty, stdoutTty)
  {
  }

  lemma HelpFallsBack(argv: seq<string>)
    requires argv == ["help"] || argv == ["--help"] || argv == ["new", "app"]
    ensures !ShouldUseInteractive(argv, true, true)
  {
    assert "-i" !in argv && "--interactive" !in argv;
  }

  /** An interrupt in either front end exits with 130. */
  lemma InterruptExits130(argv: seq<string>, stdinTty: bool, stdoutTty: bool)
    ensures Main(argv, stdinTty, stdoutTty, Cli.Interrupted, Cli.Interrupted) == C.ExitCode.Interrupted.Value()
  {
  }

  /** An empty command line off a terminal goes to the standard CLI. */
  lemma EmptyOffTerminal(stdinTty: bool, stdoutTty: bool, interactive: Cli.Run, standard: Cli.Run)
    requires !stdinTty || !stdoutTty
    ensures Main([], stdinTty, stdoutTty, interactive, standard) == Cli.ExitOf(standard)
  {
  }
}

=== FILE: fs.dfy ===
/** The file system as a value. A path is the sequence of its components
    below the file-system root (`[]` is the root); the file system records
    which paths are directories and what text each file holds. The
    operations mirror the `pathlib`/`shutil` calls the tool makes:
    `mkdir(parents=True, exist_ok=True)`, `shutil.rmtree`, `write_text`
    and `Path.resolve()` (lexically; symbolic links are not modelled). */
module Fs {
  import opened Wrappers

  type Path = seq<string>

  datatype FileSystem = FileSystem(dirs: set<Path>, files: map<Path, string>)

  predicate Exists(fs: FileSystem, p: Path) {
    p in fs.dirs || p in fs.files
  }

  function Parent(p: Path): Path
    requires p != []
  {
    p[..|p| - 1]
  }

  /** `a` is `p` itself or one of its ancestors. */
  predicate IsUnder(a: Path, p: Path) {
    |a| <= |p| && p[..|a|] == a
  }

  /** The root is a directory, every entry's parent is a directory, and no
      path is both a file and a directory. */
  predicate Wf(fs: FileSystem) {
    && [] in fs.dirs
    && (forall p :: p in fs.dirs && p != [] ==> Parent(p) in fs.dirs)
    && (forall p :: p in fs.files ==> p != [] && Parent(p) in fs.dirs && p !in fs.dirs)
  }

  /** `p` and all its ancestors, root included. */
  function Prefixes(p: Path): (r: set<Path>)
    ensures forall q :: q in r <==> IsUnder(q, p)
  {
    var r := set k | 0 <= k <= |p| :: p[..k];
    assert forall q :: IsUnder(q, p) ==> q == p[..|q|] && q in r;
    r
  }

  /** Some ancestor of `p` (or `p` itself) is a regular file. */
  predicate BlockedByFile(fs: FileSystem, p: Path) {
    exists k :: 0 <= k <= |p| && p[..k] in fs.files
  }

  /** `Path(p).mkdir(parents=True, exist_ok=True)`: creates `p` and its
      missing ancestors; fails when one of them is a regular file. */
  function MkdirParents(fs: FileSystem, p: Path): (r: Result<FileSystem, string>)
    ensures r.Success? <==> !BlockedByFile(fs, p)
    ensures r.Success? ==> p in r.value.dirs && r.value.files == fs.files
    ensures r.Success? ==> r.value.dirs == fs.dirs + Prefixes(p)
    ensures r.Success? && Wf(fs) ==> Wf(r.value)
  {
    if BlockedByFile(fs, p) then Failure("File exists")
    else
      var fs' := fs.(dirs := fs.dirs + Prefixes(p));
      assert p == p[..|p|];
      assert forall q :: q in Prefixes(p) && q != [] ==> Parent(q) in Prefixes(p);
      assert forall q :: q in Prefixes(p) ==> q !in fs.files by {
        forall q | q in Prefixes(p) ensures q !in fs.files {
          assert q == p[..|q|];
        }
      }
      Success(fs')
  }

  lemma MkdirExisting(fs: FileSystem, p: Path)
    requires Wf(fs) && p in fs.dirs
    ensures MkdirParents(fs, p) == Success(fs)
  {
    assert !BlockedByFile(fs, p) by {
      forall k | 0 <= k <= |p| ensures p[..k] !in fs.files {
        AncestorsOfDirAreDirs(fs, p, k);
      }
    }
    forall q | q in Prefixes(p) ensures q in fs.dirs {
      AncestorsOfDirAreDirs(fs, p, |q|);
      assert q == p[..|q|];
    }
    assert fs.dirs + Prefixes(p) == fs.dirs;
  }

  lemma {:induction false} AncestorsOfDirAreDirs(fs: FileSystem, p: Path, k: nat)
    requires Wf(fs) && p in fs.dirs && k <= |p|
    ensures p[..k] in fs.dirs && p[..k] !in fs.files
    decreases |p| - k
  {
    if k < |p| {
      AncestorsOfDirAreDirs(fs, p, k + 1);
      assert Parent(p[..k + 1]) == p[..k];
    } else {
      assert p[..k] == p;
    }
  }

  /** `shutil.rmtree(p, ignore_errors=True)` after an `exists()` test:
      removes the directory `p` and everything below it; a regular file or
      a missing path is left alone (the error is ignored). The root itself
      is never removed. */
  function RemoveTree(fs: FileSystem, p: Path): (r: FileSystem)
    ensures p in fs.dirs ==> forall q :: IsUnder(p, q) && q != [] ==> !Exists(r, q)
    ensures forall q :: !IsUnder(p, q) ==> (q in r.dirs <==> q in fs.dirs)
    ensures forall q :: !IsUnder(p, q) && q in fs.files ==> q in r.files && r.files[q] == fs.files[q]
    ensures r.files.Keys <= fs.files.Keys && r.dirs <= fs.dirs
    ensures p !in fs.dirs ==> r == fs
    ensures Wf(fs) ==> Wf(r)
  {
    if p in fs.dirs then
      var r := FileSystem(
        set q | q in fs.dirs && !(IsUnder(p, q) && q != []),
        map q | q in fs.files && !IsUnder(p, q) :: fs.files[q]);
      r
    else fs
  }

  /** `Path(p).write_text(content)`: fails on a directory or when the parent
      directory is missing; otherwise creates or replaces the file. */
  function WriteText(fs: FileSystem, p: Path, content: string): (r: Result<FileSystem, string>)
    ensures r.Success? <==> p != [] && p !in fs.dirs && Parent(p) in fs.dirs
    ensures r.Success? ==> r.value.dirs == fs.dirs && r.value.files == fs.files[p := content]
    ensures r.Success? && Wf(fs) ==> Wf(r.value)
  {
    if p == [] || p in fs.dirs then Failure("Is a directory")
    else if Parent(p) !in fs.dirs then Failure("No such file or directory")
    else Success(fs.(files := fs.files[p := content]))
  }

  /** `dir / name` for a single component: joining "" or "." adds no component. */
  function Join(dir: Path, name: string): (p: Path)
    ensures name != "" && name != "." ==> p == dir + [name]
    ensures name == "" || name == "." ==> p == dir
  {
    if name == "" || name == "." then dir else dir + [name]
  }

  /** A path as written (`pathlib` has already dropped empty and `.`
      components): absolute or relative, and its components. */
  datatype RawPath = RawPath(absolute: bool, parts: seq<string>)

  /** `Path.name`: the final component, or "" when there is none. */
  function Name(raw: RawPath): (r: string)
    ensures |raw.parts| > 0 ==> r == raw.parts[|raw.parts| - 1]
    ensures |raw.parts| == 0 ==> r == ""
  {
    if |raw.parts| == 0 then "" else raw.parts[|raw.parts| - 1]
  }

  /** No empty, `.` or `..` component. */
  predicate Normal(p: Path) {
    forall i :: 0 <= i < |p| ==> p[i] != "" && p[i] != "." && p[i] != ".."
  }

  function Normalize(base: Path, parts: seq<string>): (r: Path)
    ensures Normal(base) ==> Normal(r)
    decreases |parts|
  {
    if |parts| == 0 then base
    else if parts[0] == ".." then
      Normalize(if base == [] then [] else Parent(base), parts[1..])
    else if parts[0] == "." || parts[0] == "" then Normalize(base, parts[1..])
    else Normalize(base + [parts[0]], parts[1..])
  }

  /** `Path.resolve()` against the working directory `cwd`. */
  function Resolve(raw: RawPath, cwd: Path): (r: Path)
    ensures (raw.absolute || Normal(cwd)) ==> Normal(r)
  {
    Normalize(if raw.absolute then [] else cwd, raw.parts)
  }

  lemma {:induction false} NormalizeNormal(base: Path, parts: seq<string>)
    requires Normal(parts)
    ensures Normalize(base, parts) == base + parts
    decreases |parts|
  {
    if |parts| > 0 {
      NormalizeNormal(base + [parts[0]], parts[1..]);
      assert base + [parts[0]] + parts[1..] == base + parts;
    }
  }
}

=== FILE: generate.dfy ===
/** The `generate` command (restack_gen/commands/generate.py):
    `restack-gen g <type> <name>` checks its arguments, lays out the
    project, picks the language, and renders one template into
    `src/<kind>/<snake name>.<lang>`. The outcome is the exit code and the
    file system afterwards; the console output is not modelled. */
module Generate {
  import opened Wrappers
  import opened Fs
  import C = Constants
  import Text
  import Validation
  import Templates
  import Project

  /** What the command consults outside its arguments: the process
      working directory, where the packaged templates live, whether
      Jinja2 imports, the environment a first access creates, the
      template renderer, and the user's answer to the overwrite prompt. */
  datatype Host = Host(
    cwd: Path,
    templatesRoot: Path,
    jinjaAvailable: bool,
    created: Templates.EnvId,
    load: (Templates.EnvId, string, Templates.Context) -> Result<string, string>,
    confirmReply: bool)

  /** The exit code and the file system the command leaves behind. */
  datatype Outcome = Outcome(code: int, fs: FileSystem)

  /** `Path(config.cwd or Path.cwd())`, as written. */
  function ProjectRootArg(config: C.Config, host: Host): (raw: RawPath)
    ensures config.cwd.Some? ==> raw == config.cwd.value
    ensures config.cwd.None? ==> raw.absolute && raw.parts == host.cwd
  {
    match config.cwd
    case Some(raw) => raw
    case None => RawPath(true, host.cwd)
  }

  /** The `src/` sub-directory each kind is generated into. */
  function Subdir(t: C.GenerationType): (d: string)
    ensures d in {"agents", "functions", "workflows"}
  {
    match t
    case Agent => "agents"
    case Function => "functions"
    case Workflow => "workflows"
  }

  /** Distinct kinds go to distinct directories. */
  lemma SubdirInjective(t1: C.GenerationType, t2: C.GenerationType)
    ensures Subdir(t1) == Subdir(t2) <==> t1 == t2
  {
  }

  predicate EndsWith(s: string, suffix: string) {
    |suffix| <= |s| && s[|s| - |suffix|..] == suffix
  }

  /** The recursive glob for `*.<ext>` under `dir` finds something: some
      entry strictly below `dir` has a name ending in `.<ext>`. */
  predicate GlobAny(fs: FileSystem, dir: Path, ext: string) {
    || (exists p :: p in fs.files && GlobHit(dir, ext, p))
    || (exists p :: p in fs.dirs && GlobHit(dir, ext, p))
  }

  predicate GlobHit(dir: Path, ext: string, p: Path) {
    |p| > |dir| && p[..|dir|] == dir && EndsWith(p[|p| - 1], "." + ext)
  }

  /** `_detect_language`: the configured language, else Python when a
      `.py` entry exists under `src`, else TypeScript when a `.ts` entry
      does, else Python. */
  function DetectLanguage(lang: Option<C.Language>, fs: FileSystem, srcDir: Path): (r: C.Language)
    ensures lang.Some? ==> r == lang.value
    ensures lang.None? ==> (r == C.TypeScript <==> !GlobAny(fs, srcDir, "py") && GlobAny(fs, srcDir, "ts"))
  {
    match lang
    case Some(l) => l
    case None =>
      if GlobAny(fs, srcDir, "py") then C.Python
      else if GlobAny(fs, srcDir, "ts") then C.TypeScript
      else C.Python
  }

  /** Python sources win over TypeScript ones when both are present. */
  lemma PythonWins(fs: FileSystem, srcDir: Path)
    requires GlobAny(fs, srcDir, "py")
    ensures DetectLanguage(None, fs, srcDir) == C.Python
  {
  }

  /** `_setup_engine`: the language's value names the template directory. */
  function TemplateDir(templatesRoot: Path, lang: C.Language): (d: Path)
    ensures |d| == |templatesRoot| + 1 && d[..|templatesRoot|] == templatesRoot
    ensures d[|templatesRoot|] == lang.Value()
  {
    templatesRoot + [lang.Value()]
  }

  /** `f"{snake_case(name)}.{lang.value}"`: the language's value doubles as
      the file extension. */
  function OutputFileName(name: string, lang: C.Language): (f: string)
    ensures EndsWith(f, "." + lang.Value())
    ensures f[..|f| - |lang.Value()| - 1] == Text.SnakeCase(name)
  {
    var f := Text.SnakeCase(name) + "." + lang.Value();
    assert f[|f| - |"." + lang.Value()|..] == "." + lang.Value();
    f
  }

  /** `_get_output_path`, the path part. */
  function OutputPath(s: Project.Structure, t: C.GenerationType, name: string, lang: C.Language): (p: Path)
    ensures p == s.srcDir + [Subdir(t), OutputFileName(name, lang)]
    ensures Parent(p) == Project.GetSubdir(s, Subdir(t))
  {
    Project.GetSubdir(s, Subdir(t)) + [OutputFileName(name, lang)]
  }

  /** Two generated components share an output file only when they are
      of the same kind. */
  lemma OutputPathsOfKinds(s: Project.Structure, t1: C.GenerationType, t2: C.GenerationType,
                           n1: string, n2: string, lang: C.Language)
    requires t1 != t2
    ensures OutputPath(s, t1, n1, lang) != OutputPath(s, t2, n2, lang)
  {
    var p1 := OutputPath(s, t1, n1, lang);
    var p2 := OutputPath(s, t2, n2, lang);
    assert p1[|s.srcDir|] == Subdir(t1) && p2[|s.srcDir|] == Subdir(t2);
  }

  /** `f"{gen_type.value}.{lang.value}.j2"`. */
  function TemplateName(t: C.GenerationType, lang: C.Language): (n: string)
    ensures EndsWith(n, ".j2") && |n| > |t.Value()|
    ensures n[..|t.Value()| + 1] == t.Value() + "."
  {
    var n := t.Value() + "." + lang.Value() + ".j2";
    assert n[|n| - 3..] == ".j2";
    assert n[..|t.Value()| + 1] == t.Value() + ".";
    n
  }

  /** `_check_overwrite`: a missing file may be written; an existing one
      only with `--force`, never with `--yes` alone, and otherwise as the
      user answers. */
  function MayWrite(fs: FileSystem, output: Path, config: C.Config, confirmReply: bool): (ok: bool)
    ensures !Exists(fs, output) ==> ok
    ensures Exists(fs, output) && config.force ==> ok
    ensures Exists(fs, output) && !config.force && config.yes ==> !ok
    ensures Exists(fs, output) && !config.force && !config.yes ==> ok == confirmReply
  {
    if !Exists(fs, output) then true
    else if config.force then true
    else if config.yes then false
    else confirmReply
  }

  /** The overwrite table read the other way round: the command declines
      exactly when the file exists, `--force` is off, and either `--yes` is
      on or the user says no. */
  lemma MayWriteDeclines(fs: FileSystem, output: Path, config: C.Config, confirmReply: bool)
    ensures !MayWrite(fs, output, config, confirmReply) <==>
      Exists(fs, output) && !config.force && (config.yes || !confirmReply)
  {
  }

  /** The template context `_generate` builds: the application name is the
      final component of the configured working directory as written. */
  function GenerateContext(config: C.Config, host: Host, name: string): (c: Templates.Context)
    ensures Templates.Fixed(Templates.Name) in c && Templates.Fixed(Templates.AppName) in c
    ensures c[Templates.Fixed(Templates.Name)] == Templates.StrValue(name)
    ensures c[Templates.Fixed(Templates.AppName)] ==
      Templates.StrValue(if Name(ProjectRootArg(config, host)) == "" then name else Name(ProjectRootArg(config, host)))
  {
    Templates.BuildTemplateContext(name, Some(Name(ProjectRootArg(config, host))), map[])
  }

  /** A working directory written as `.` has no final component, so the
      entity name stands in for the application name. */
  lemma DotCwdUsesEntityName(config: C.Config, host: Host, name: string)
    requires config.cwd == Some(RawPath(false, []))
    ensures GenerateContext(config, host, name)[Templates.Fixed(Templates.AppName)] == Templates.StrValue(name)
  {
  }

  /** The decisions `_generate` makes before it renders: the layout, the
      language detected after the layout is made, and the output file. */
  datatype Plan = Plan(structure: Project.Structure, afterLayout: FileSystem, layoutError: Option<string>,
                       lang: C.Language, templateDir: Path, output: Path)

  function MakePlan(fs: FileSystem, config: C.Config, host: Host, t: C.GenerationType, name: string): (p: Plan)
    ensures p.structure == Project.NewStructure(fs, Some(ProjectRootArg(config, host)), host.cwd)
    ensures p.afterLayout.files == fs.files && (Wf(fs) ==> Wf(p.afterLayout))
    ensures config.lang.Some? ==> p.lang == config.lang.value
    ensures p.output == OutputPath(p.structure, t, name, p.lang)
    ensures p.output == p.structure.root + ["src", Subdir(t), OutputFileName(name, p.lang)]
  {
    var s := Project.NewStructure(fs, Some(ProjectRootArg(config, host)), host.cwd);
    var (fs1, err) := Project.EnsureStructure(fs, s);
    var lang := DetectLanguage(config.lang, fs1, s.srcDir);
    var out := OutputPath(s, t, name, lang);
    assert out == s.root + ["src", Subdir(t), OutputFileName(name, lang)];
    Plan(s, fs1, err, lang, TemplateDir(host.templatesRoot, lang), out)
  }

  /** The template `_generate` renders, with its context, through a fresh
      engine on the language's template directory. */
  function RenderOutput(p: Plan, config: C.Config, host: Host, t: C.GenerationType, name: string): (r: Result<string, string>)
    ensures !host.jinjaAvailable ==> r == Failure(Templates.JinjaMissingMessage)
    ensures host.jinjaAvailable ==> r == host.load(host.created, TemplateName(t, p.lang), GenerateContext(config, host, name))
  {
    Templates.Render(Templates.NewEngine(p.templateDir), host.jinjaAvailable, host.created,
                     host.load, TemplateName(t, p.lang), GenerateContext(config, host, name)).1
  }

  /** `output_file.write_text(content)` once rendering has produced
      `content`; nothing is written when rendering failed. */
  function WriteRendered(fs: FileSystem, output: Path, rendered: Result<string, string>): (r: Outcome)
    ensures r.code == 1 ==> r.fs == fs
    ensures r.code == 0 ==> rendered.Success? && r.fs.dirs == fs.dirs && r.fs.files == fs.files[output := rendered.value]
    ensures r.code == 0 || r.code == 1
  {
    match rendered
    case Failure(_) => Outcome(1, fs)
    case Success(content) =>
      match WriteText(fs, output, content)
      case Failure(_) => Outcome(1, fs)
      case Success(fs1) => Outcome(0, fs1)
  }

  /** At most the file at `output` differs, and only with its new text. */
  predicate OnlyWrote(before: FileSystem, after: FileSystem, output: Path) {
    output in after.files && after.files == before.files[output := after.files[output]]
  }

  /** The steps after the plan: make the output directory, ask about
      overwriting, stop for a dry run, render and write. Every exception
      (a missing template directory, a blocked directory, a failed render
      or write) ends the command with 1. */
  function Finish(p: Plan, config: C.Config, host: Host, t: C.GenerationType, name: string): (r: Outcome)
    requires p.layoutError.None?
    ensures r.code == 0 || r.code == 1
    ensures r.fs.files == p.afterLayout.files || (r.code == 0 && !config.dryRun && OnlyWrote(p.afterLayout, r.fs, p.output))
    ensures r.code == 1 ==> r.fs.files == p.afterLayout.files
  {
    FinishWith(p, config, host.confirmReply, t, RenderOutput(p, config, host, t, name))
  }

  /** `Finish` for a given outcome of rendering, which is produced only
      when the steps before it succeed. */
  function FinishWith(p: Plan, config: C.Config, confirmReply: bool, t: C.GenerationType,
                      rendered: Result<string, string>): (r: Outcome)
    ensures r.code == 0 || r.code == 1
    ensures r.fs.files == p.afterLayout.files || (r.code == 0 && !config.dryRun && OnlyWrote(p.afterLayout, r.fs, p.output))
    ensures r.code == 1 ==> r.fs.files == p.afterLayout.files
  {
    var fs1 := p.afterLayout;
    if !Exists(fs1, p.templateDir) then Outcome(1, fs1)
    else match MkdirParents(fs1, Project.GetSubdir(p.structure, Subdir(t)))
      case Failure(_) => Outcome(1, fs1)
      case Success(fs2) =>
        if !MayWrite(fs2, p.output, config, confirmReply) then Outcome(0, fs2)
        else if config.dryRun then Outcome(0, fs2)
        else WriteRendered(fs2, p.output, rendered)
  }

  /** `_generate(gen_type, gen_name)`. */
  function RunGenerate(fs: FileSystem, config: C.Config, host: Host, t: C.GenerationType, name: string): (r: Outcome)
    ensures r.code == 0 || r.code == 1
    ensures r.fs.files == fs.files
      || (r.code == 0 && !config.dryRun && OnlyWrote(fs, r.fs, MakePlan(fs, config, host, t, name).output))
    ensures r.code == 1 ==> r.fs.files == fs.files
  {
    var p := MakePlan(fs, config, host, t, name);
    if p.layoutError.Some? then Outcome(1, p.afterLayout)
    else Finish(p, config, host, t, name)
  }

  const UsageError := "Type and name required"

  /** `GenerateCommand.execute(args)`: the argument count, the type and the
      name are checked in that order, and all of them before the file
      system is touched. */
  function Execute(fs: FileSystem, config: C.Config, host: Host, args: seq<string>): (r: Outcome)
    ensures r.code == 0 || r.code == 1
    ensures |args| < 2 ==> r == Outcome(1, fs)
    ensures r.fs != fs ==>
      && |args| >= 2 && C.ParseGenerationType(args[0]).Some? && Validation.ValidateName(args[1]).ok
  {
    if |args| < 2 then Outcome(1, fs)
    else match C.ParseGenerationType(args[0])
      case None => Outcome(1, fs)
      case Some(t) =>
        if !Validation.ValidateName(args[1]).ok then Outcome(1, fs)
        else RunGenerate(fs, config, host, t, args[1])
  }

  /** A rejected type or name ends the command with 1 before the file
      system is touched. */
  lemma RejectedArgumentsTouchNothing(fs: FileSystem, config: C.Config, host: Host, args: seq<string>)
    requires |args| >= 2
    requires C.ParseGenerationType(args[0]).None? || !Validation.ValidateName(args[1]).ok
    ensures Execute(fs, config, host, args) == Outcome(1, fs)
  {
  }

  /** Making the parent of an existing entry changes nothing. */
  lemma ParentOfExisting(fs: FileSystem, p: Path)
    requires Wf(fs) && Exists(fs, p) && p != []
    ensures MkdirParents(fs, Parent(p)) == Success(fs)
  {
    MkdirExisting(fs, Parent(p));
  }

  /** A declined overwrite ends with 0 and writes nothing, although the
      layout and the output directory have been made. */
  lemma DeclinedOverwrite(fs: FileSystem, config: C.Config, host: Host, t: C.GenerationType, name: string)
    requires Wf(fs)
    requires var p := MakePlan(fs, config, host, t, name);
      p.layoutError.None? && Exists(p.afterLayout, p.templateDir)
      && Exists(p.afterLayout, p.output) && !config.force && (config.yes || !host.confirmReply)
    ensures RunGenerate(fs, config, host, t, name).code == 0
    ensures RunGenerate(fs, config, host, t, name).fs.files == fs.files
  {
    var p := MakePlan(fs, config, host, t, name);
    ParentOfExisting(p.afterLayout, p.output);
  }

  /** The kind's directory exists once the layout is made. */
  lemma SubdirMade(fs: FileSystem, p: Plan, config: C.Config, host: Host, t: C.GenerationType, name: string)
    requires p == MakePlan(fs, config, host, t, name) && Wf(fs) && p.layoutError.None?
    ensures MkdirParents(p.afterLayout, Project.GetSubdir(p.structure, Subdir(t))) == Success(p.afterLayout)
  {
    Project.EnsureStructureMakes(fs, p.structure, []);
    MkdirExisting(p.afterLayout, Project.GetSubdir(p.structure, Subdir(t)));
  }

  /** A dry run ends with 0 once the layout is made and the template
      directory exists, and leaves exactly the layout behind. */
  lemma DryRunStopsAfterLayout(fs: FileSystem, config: C.Config, host: Host, t: C.GenerationType, name: string)
    requires Wf(fs) && config.dryRun
    requires var p := MakePlan(fs, config, host, t, name);
      p.layoutError.None? && Exists(p.afterLayout, p.templateDir)
    ensures RunGenerate(fs, config, host, t, name) == Outcome(0, MakePlan(fs, config, host, t, name).afterLayout)
  {
    SubdirMade(fs, MakePlan(fs, config, host, t, name), config, host, t, name);
  }

  /** When every step succeeds, the rendered text of "<type>.<lang>.j2" is
      written to the output file and nothing else changes beyond the
      layout. */
  lemma GenerateWrites(fs: FileSystem, config: C.Config, host: Host, t: C.GenerationType, name: string, content: string)
    requires Wf(fs) && !config.dryRun && host.jinjaAvailable
    requires var p := MakePlan(fs, config, host, t, name);
      && p.layoutError.None? && Exists(p.afterLayout, p.templateDir)
      && MayWrite(p.afterLayout, p.output, config, host.confirmReply) && p.output !in p.afterLayout.dirs
      && host.load(host.created, TemplateName(t, p.lang), GenerateContext(config, host, name)) == Success(content)
    ensures var p := MakePlan(fs, config, host, t, name);
      RunGenerate(fs, config, host, t, name) == Outcome(0, p.afterLayout.(files := fs.files[p.output := content]))
  {
    var p := MakePlan(fs, config, host, t, name);
    SubdirMade(fs, p, config, host, t, name);
    FinishWrites(p, config, host, t, name, content);
  }

  lemma FinishWrites(p: Plan, config: C.Config, host: Host, t: C.GenerationType, name: string, content: string)
    requires p.layoutError.None? && !config.dryRun && host.jinjaAvailable
    requires p.output == OutputPath(p.structure, t, name, p.lang)
    requires MkdirParents(p.afterLayout, Project.GetSubdir(p.structure, Subdir(t))) == Success(p.afterLayout)
    requires Exists(p.afterLayout, p.templateDir) && MayWrite(p.afterLayout, p.output, config, host.confirmReply)
    requires p.output !in p.afterLayout.dirs
    requires host.load(host.created, TemplateName(t, p.lang), GenerateContext(config, host, name)) == Success(content)
    ensures Finish(p, config, host, t, name) == Outcome(0, p.afterLayout.(files := p.afterLayout.files[p.output := content]))
  {
    assert RenderOutput(p, config, host, t, name) == Success(content);
    assert Parent(p.output) in p.afterLayout.dirs;
  }
}

=== FILE: generate_examples.dfy ===
/** The generate command on the tool's own test cases
    (tests/test_generator.py, tests/test_commands.py) and on the usage
    example of the help text (restack_gen/commands/info.py:161),
    `restack-gen g agent EmailHandler`. */
module GenerateExamples {
  import opened Wrappers
  import opened Fs
  import C = Constants
  import TextExamples
  import ValidationExamples
  import opened Generate

  lemma EmailHandlerFileName(name: string)
    requires name == "EmailHandler"
    ensures OutputFileName(name, C.Python) == "email_handler.py"
  {
    TextExamples.SnakeCaseEmailHandler(name);
    assert "email_handler" + "." + "py" == "email_handler.py";
  }

  /** An agent named "EmailHandler" goes to `src/agents/email_handler.py`
      under the project root. */
  lemma EmailHandlerOutput(s: Project.Structure, name: string)
    requires name == "EmailHandler" && s.srcDir == s.root + ["src"]
    ensures OutputPath(s, C.Agent, name, C.Python) == s.root + ["src", "agents", "email_handler.py"]
  {
    EmailHandlerFileName(name);
  }

  /** An unknown type ends the command with 1, touching nothing. */
  lemma BadTypeRejected(fs: FileSystem, config: C.Config, host: Host, args: seq<string>)
    requires args == ["badtype", "x"]
    ensures Execute(fs, config, host, args) == Outcome(1, fs)
  {
    assert C.ParseGenerationType(args[0]).None?;
    RejectedArgumentsTouchNothing(fs, config, host, args);
  }

  /** A name `validate_name` rejects ends the command with 1, touching
      nothing. */
  lemma DigitNameRejected(fs: FileSystem, config: C.Config, host: Host, args: seq<string>)
    requires args == ["agent", "123bad"]
    ensures Execute(fs, config, host, args) == Outcome(1, fs)
  {
    ValidationExamples.DigitRejected(args[1]);
    RejectedArgumentsTouchNothing(fs, config, host, args);
  }

  lemma PyFileHit(dir: Path, p: Path)
    requires p == dir + ["foo.py"]
    ensures GlobHit(dir, "py", p)
  {
    assert p[..|dir|] == dir;
    assert "foo.py"[3..] == ".py";
  }

  /** A `.py` file under `src` makes the project a Python one. */
  lemma DetectsPython(fs: FileSystem, dir: Path)
    requires (dir + ["foo.py"]) in fs.files
    ensures DetectLanguage(None, fs, dir) == C.Python
  {
    PyFileHit(dir, dir + ["foo.py"]);
  }

  lemma TsFileHit(dir: Path, p: Path)
    requires p == dir + ["foo.ts"]
    ensures GlobHit(dir, "ts", p) && !GlobHit(dir, "py", p)
  {
    assert p[..|dir|] == dir;
    assert "foo.ts"[3..] == ".ts";
    assert "foo.ts"[3..] != ".py";
  }

  /** With only a `.ts` file under `src`, the project is a TypeScript one. */
  lemma DetectsTypeScript(dir: Path)
    ensures DetectLanguage(None, FileSystem({dir}, map[dir + ["foo.ts"] := ""]), dir) == C.TypeScript
  {
    var fs := FileSystem({dir}, map[dir + ["foo.ts"] := ""]);
    TsFileHit(dir, dir + ["foo.ts"]);
    assert !GlobHit(dir, "py", dir);
  }
}

=== FILE: preferences.dfy ===
/** The user preferences of the interactive front end
    (restack_gen/interactive/context.py): a JSON document kept at
    `~/.config/restack-gen/preferences.json`, read once at start-up, queried
    for the default language and package manager, updated after a wizard
    run, and the marker-file detection of the current project. The JSON
    codec is a parameter: only its round trip is assumed, where a property
    needs it. */
module Preferences {
  import opened Wrappers
  import opened Fs

  /** A JSON value as `json.load` returns it; numbers, booleans and arrays
      are kept as their text, since nothing here looks inside them. */
  datatype Json =
    | Null
    | Str(s: string)
    | Object(fields: map<string, Json>)
    | Other(text: string)

  const EmptyObject: Json := Object(map[])

  /** `json.load` (None when the text does not parse) and `json.dump`. */
  datatype Codec = Codec(load: string -> Option<Json>, dump: Json -> string)

  /** Dumping and loading back gives the same value. */
  ghost predicate Lossless(codec: Codec) {
    forall j :: codec.load(codec.dump(j)) == Some(j)
  }

  /** `Path.home() / ".config" / "restack-gen" / "preferences.json"`. */
  function ConfigFile(home: Path): (r: Path)
    ensures |r| == |home| + 3 && r[..|home|] == home
    ensures Parent(r) == home + [".config", "restack-gen"]
  {
    home + [".config", "restack-gen", "preferences.json"]
  }

  /** `_load_preferences`: a missing file gives {}, and so does one that
      cannot be opened (it is a directory) or does not parse; otherwise the
      parsed value, whatever its kind. */
  function Load(fs: FileSystem, home: Path, codec: Codec): (r: Json)
    ensures !Exists(fs, ConfigFile(home)) ==> r == EmptyObject
    ensures ConfigFile(home) !in fs.files ==> r == EmptyObject
    ensures ConfigFile(home) in fs.files && codec.load(fs.files[ConfigFile(home)]).None? ==> r == EmptyObject
    ensures ConfigFile(home) in fs.files && codec.load(fs.files[ConfigFile(home)]).Some? ==>
      r == codec.load(fs.files[ConfigFile(home)]).value
  {
    var p := ConfigFile(home);
    if !Exists(fs, p) then EmptyObject
    else if p !in fs.files then EmptyObject
    else
      match codec.load(fs.files[p])
      case None => EmptyObject
      case Some(j) => j
  }

  /** `d.get(key)` on a JSON object, with `default` for a missing key. */
  function Get(fields: map<string, Json>, key: string, default: Json): (r: Json)
    ensures key in fields ==> r == fields[key]
    ensures key !in fields ==> r == default
  {
    if key in fields then fields[key] else default
  }

  /** `get_default_language`: the stored value, or null (Python's None)
      when there is none; a document that is not an object has no `get`
      and raises. */
  function DefaultLanguage(prefs: Json): (r: Result<Json, string>)
    ensures r.Success? <==> prefs.Object?
    ensures prefs.Object? && "default_language" in prefs.fields ==> r == Success(prefs.fields["default_language"])
    ensures prefs.Object? && "default_language" !in prefs.fields ==> r == Success(Null)
  {
    if prefs.Object? then Success(Get(prefs.fields, "default_language", Null))
    else Failure("AttributeError")
  }

  /** `get_default_package_manager(language)`: the entry for `language` in
      the stored `package_managers` object (an empty one when missing), or
      null; anything but an object along the way raises. */
  function DefaultPackageManager(prefs: Json, language: string): (r: Result<Json, string>)
    ensures r.Success? <==>
      (prefs.Object? && ("package_managers" !in prefs.fields || prefs.fields["package_managers"].Object?))
    ensures r.Success? && "package_managers" !in prefs.fields ==> r.value == Null
    ensures r.Success? && "package_managers" in prefs.fields ==>
      var pms := prefs.fields["package_managers"].fields;
      r.value == if language in pms then pms[language] else Null
  {
    if !prefs.Object? then Failure("AttributeError")
    else
      var pms := Get(prefs.fields, "package_managers", EmptyObject);
      if pms.Object? then Success(Get(pms.fields, language, Null))
      else Failure("AttributeError")
  }

  /** A user's preference state: the in-memory document and the file system
      it is saved to. */
  datatype State = State(prefs: Json, fs: FileSystem)

  /** `save_preferences`: the directory is created first, outside the
      `try`, so a file in its way raises; a failed write is swallowed. */
  function Save(fs: FileSystem, home: Path, codec: Codec, prefs: Json): (r: Result<FileSystem, string>)
    ensures r.Failure? <==> MkdirParents(fs, Parent(ConfigFile(home))).Failure?
    ensures r.Success? ==>
      (r.value.files == fs.files || r.value.files == fs.files[ConfigFile(home) := codec.dump(prefs)])
    ensures r.Success? && ConfigFile(home) !in r.value.dirs ==>
      r.value.files == fs.files[ConfigFile(home) := codec.dump(prefs)]
  {
    var p := ConfigFile(home);
    match MkdirParents(fs, Parent(p))
    case Failure(e) => Failure(e)
    case Success(fs1) =>
      match WriteText(fs1, p, codec.dump(prefs))
      case Failure(_) => Success(fs1)
      case Success(fs2) => Success(fs2)
  }

  /** The outcome of `update_from_result`: the new state, and whether it
      raised (after which the in-memory document may already be partly
      changed and nothing was saved). */
  datatype Updated = Updated(state: State, raised: bool)

  /** `update_from_result`: sets `default_language` to the chosen language
      and `package_managers[language]` to the chosen manager (null when none
      was chosen), creating `package_managers` when missing, then saves. */
  function UpdateFromResult(st: State, home: Path, codec: Codec,
                            language: string, manager: Option<string>): (r: Updated)
    ensures !st.prefs.Object? ==> r == Updated(st, true)
    ensures !r.raised ==> r.state.prefs.Object?
    ensures !r.raised ==> DefaultLanguage(r.state.prefs) == Success(Str(language))
    ensures !r.raised ==>
      DefaultPackageManager(r.state.prefs, language) == Success(if manager.Some? then Str(manager.value) else Null)
  {
    if !st.prefs.Object? then Updated(st, true)
    else
      var fields := st.prefs.fields["default_language" := Str(language)];
      var pms := Get(fields, "package_managers", EmptyObject);
      if !pms.Object? then Updated(State(Object(fields), st.fs), true)
      else
        var entry := if manager.Some? then Str(manager.value) else Null;
        var prefs := Object(fields["package_managers" := Object(pms.fields[language := entry])]);
        match Save(st.fs, home, codec, prefs)
        case Failure(_) => Updated(State(prefs, st.fs), true)
        case Success(fs) => Updated(State(prefs, fs), false)
  }

  /** Updating keeps every other key of the document and every other
      language's package manager. */
  lemma UpdateKeepsOthers(st: State, home: Path, codec: Codec, language: string,
                          manager: Option<string>, key: string, other: string)
    requires st.prefs.Object? && DefaultPackageManager(st.prefs, other).Success?
    requires key != "default_language" && key != "package_managers" && other != language
    requires !UpdateFromResult(st, home, codec, language, manager).raised
    ensures var after := UpdateFromResult(st, home, codec, language, manager).state.prefs;
      after.Object? && (key in after.fields <==> key in st.prefs.fields)
      && (key in st.prefs.fields ==> after.fields[key] == st.prefs.fields[key])
      && DefaultPackageManager(after, other) == DefaultPackageManager(st.prefs, other)
  {
  }

  /** Only a document whose `package_managers` is not an object, or a
      config directory blocked by a file, makes an update of an object
      raise. */
  lemma UpdateRaisesOnlyWhen(st: State, home: Path, codec: Codec, language: string, manager: Option<string>)
    requires st.prefs.Object?
    ensures UpdateFromResult(st, home, codec, language, manager).raised <==>
      ("package_managers" in st.prefs.fields && !st.prefs.fields["package_managers"].Object?)
      || BlockedByFile(st.fs, Parent(ConfigFile(home)))
  {
  }

  /** After an update on a writable file system, a fresh start reads the
      same choices back, provided the codec is lossless. */
  lemma SaveThenLoad(st: State, home: Path, codec: Codec, language: string, manager: Option<string>)
    requires Lossless(codec) && st.prefs.Object?
    requires "package_managers" !in st.prefs.fields || st.prefs.fields["package_managers"].Object?
    requires !BlockedByFile(st.fs, Parent(ConfigFile(home)))
    requires ConfigFile(home) !in st.fs.dirs
    ensures var u := UpdateFromResult(st, home, codec, language, manager);
      !u.raised
      && Load(u.state.fs, home, codec) == u.state.prefs
      && DefaultLanguage(Load(u.state.fs, home, codec)) == Success(Str(language))
  {
    var u := UpdateFromResult(st, home, codec, language, manager);
    var p := ConfigFile(home);
    var fs1 := MkdirParents(st.fs, Parent(p)).value;
    assert p !in fs1.dirs by {
      assert fs1.dirs == st.fs.dirs + Prefixes(Parent(p));
      assert p !in Prefixes(Parent(p));
    }
    assert WriteText(fs1, p, codec.dump(u.state.prefs)).Success?;
    assert u.state.fs.files[p] == codec.dump(u.state.prefs);
    assert codec.load(codec.dump(u.state.prefs)) == Some(u.state.prefs);
  }

  /** A file that does not parse starts from an empty document: no default
      language and no package managers. */
  lemma UnparsableStartsEmpty(fs: FileSystem, home: Path, codec: Codec, language: string)
    requires ConfigFile(home) in fs.files && codec.load(fs.files[ConfigFile(home)]).None?
    ensures DefaultLanguage(Load(fs, home, codec)) == Success(Null)
    ensures DefaultPackageManager(Load(fs, home, codec), language) == Success(Null)
  {
  }

  /** What `detect_project_context` found. */
  datatype Detected = Detected(language: Option<string>, manager: Option<string>)

  /** The five marker files, below the working directory. */
  const PyProject := "pyproject.toml"
  const PackageJson := "package.json"
  const UvLock := "uv.lock"
  const PnpmLock := "pnpm-lock.yaml"
  const NpmLock := "package-lock.json"

  /** `detect_project_context`: pyproject.toml means Python, else
      package.json means TypeScript; the manager is read from the first
      lock file present in the order uv, pnpm, npm. */
  function Detect(fs: FileSystem, cwd: Path): (r: Detected)
    ensures r.language.Some? <==> Exists(fs, cwd + [PyProject]) || Exists(fs, cwd + [PackageJson])
    ensures r.language == Some("ts") <==> !Exists(fs, cwd + [PyProject]) && Exists(fs, cwd + [PackageJson])
    ensures r.manager.Some? <==>
      Exists(fs, cwd + [UvLock]) || Exists(fs, cwd + [PnpmLock]) || Exists(fs, cwd + [NpmLock])
    ensures r.manager == Some("pnpm") <==> !Exists(fs, cwd + [UvLock]) && Exists(fs, cwd + [PnpmLock])
    ensures r.manager == Some("npm") <==>
      !Exists(fs, cwd + [UvLock]) && !Exists(fs, cwd + [PnpmLock]) && Exists(fs, cwd + [NpmLock])
  {
    var language :=
      if Exists(fs, cwd + [PyProject]) then Some("py")
      else if Exists(fs, cwd + [PackageJson]) then Some("ts")
      else None;
    var manager :=
      if Exists(fs, cwd + [UvLock]) then Some("uv")
      else if Exists(fs, cwd + [PnpmLock]) then Some("pnpm")
      else if Exists(fs, cwd + [NpmLock]) then Some("npm")
      else None;
    Detected(language, manager)
  }

  /** The markers that `Detect` looks at. */
  predicate SameMarkers(a: FileSystem, b: FileSystem, cwd: Path) {
    forall name :: name in {PyProject, PackageJson, UvLock, PnpmLock, NpmLock} ==>
      (Exists(a, cwd + [name]) <==> Exists(b, cwd + [name]))
  }

  /** Detection depends on nothing but the five marker files. */
  lemma DetectOnlyMarkers(a: FileSystem, b: FileSystem, cwd: Path)
    requires SameMarkers(a, b, cwd)
    ensures Detect(a, cwd) == Detect(b, cwd)
  {
    assert PyProject in {PyProject, PackageJson, UvLock, PnpmLock, NpmLock};
    assert PackageJson in {PyProject, PackageJson, UvLock, PnpmLock, NpmLock};
    assert UvLock in {PyProject, PackageJson, UvLock, PnpmLock, NpmLock};
    assert PnpmLock in {PyProject, PackageJson, UvLock, PnpmLock, NpmLock};
    assert NpmLock in {PyProject, PackageJson, UvLock, PnpmLock, NpmLock};
  }
}

=== FILE: project.dfy ===
/** The layout of a generated project (restack_gen/core/project.py): the
    project root is the nearest directory, from the start path upwards,
    that holds a `restack.toml` marker; the standard directories hang off
    it. */
module Project {
  import opened Wrappers
  import opened Fs

  const Marker := "restack.toml"

  /** `(p / "restack.toml").exists()`: a file or a directory of that name. */
  predicate Marked(fs: FileSystem, p: Path) {
    Exists(fs, p + [Marker])
  }

  /** No ancestor of `p` strictly below length `lo` ... up to `p` itself
      holds the marker: the prefixes of length `lo + 1` to `|p|`. */
  predicate UnmarkedAbove(fs: FileSystem, p: Path, lo: nat) {
    forall k :: lo < k <= |p| ==> !Marked(fs, p[..k])
  }

  /** The loop over `[start_path] + list(start_path.parents)`: the nearest
      marked directory, or `None` when neither `p` nor any ancestor is
      marked. */
  function Search(fs: FileSystem, p: Path): (r: Option<Path>)
    ensures r.Some? ==> IsUnder(r.value, p) && Marked(fs, r.value) && UnmarkedAbove(fs, p, |r.value|)
    ensures r.None? <==> forall k :: 0 <= k <= |p| ==> !Marked(fs, p[..k])
    decreases |p|
  {
    if Marked(fs, p) then
      assert p[..|p|] == p;
      Some(p)
    else if p == [] then
      assert forall k :: 0 <= k <= |p| ==> p[..k] == p;
      None
    else
      var r := Search(fs, Parent(p));
      assert forall k :: 0 <= k < |p| ==> Parent(p)[..k] == p[..k];
      assert p[..|p|] == p;
      r
  }

  /** The project root found from `start`: the nearest marked directory,
      or `start` itself when there is none. */
  function FindRoot(fs: FileSystem, start: Path): (root: Path)
    ensures IsUnder(root, start)
    ensures UnmarkedAbove(fs, start, |root|)
    ensures Marked(fs, root) || (root == start && forall k :: 0 <= k <= |start| ==> !Marked(fs, start[..k]))
  {
    match Search(fs, start)
    case Some(r) => r
    case None => start
  }

  /** The nearest marked ancestor is the only marked ancestor with no
      marked one below it. */
  lemma FindRootUnique(fs: FileSystem, start: Path, r: Path)
    requires IsUnder(r, start) && Marked(fs, r) && UnmarkedAbove(fs, start, |r|)
    ensures FindRoot(fs, start) == r
  {
    var root := FindRoot(fs, start);
    assert Marked(fs, start[..|r|]);
    if Marked(fs, root) {
      assert start[..|root|] == root;
    }
  }

  /** Searching again from the root finds the root. */
  lemma FindRootIdempotent(fs: FileSystem, start: Path)
    ensures FindRoot(fs, FindRoot(fs, start)) == FindRoot(fs, start)
  {
    var root := FindRoot(fs, start);
    if Marked(fs, root) {
      FindRootUnique(fs, root, root);
    }
  }

  /** A start directory holding the marker is its own root. */
  lemma MarkedStartIsRoot(fs: FileSystem, start: Path)
    requires Marked(fs, start)
    ensures FindRoot(fs, start) == start
  {
    FindRootUnique(fs, start, start);
  }

  /** `ProjectStructure`: the root and its three standard directories. */
  datatype Structure = Structure(root: Path, srcDir: Path, testsDir: Path, scriptsDir: Path)

  /** The start path: the resolved argument, or the working directory
      (already absolute). */
  function StartPath(projectRoot: Option<RawPath>, cwd: Path): (p: Path)
    ensures projectRoot.None? ==> p == cwd
    ensures projectRoot.Some? && projectRoot.value.absolute ==> p == Resolve(projectRoot.value, [])
  {
    match projectRoot
    case None => cwd
    case Some(raw) => Resolve(raw, cwd)
  }

  /** `ProjectStructure(project_root)`. */
  function NewStructure(fs: FileSystem, projectRoot: Option<RawPath>, cwd: Path): (s: Structure)
    ensures IsUnder(s.root, StartPath(projectRoot, cwd))
    ensures s.srcDir == s.root + ["src"] && s.testsDir == s.root + ["tests"]
    ensures s.scriptsDir == s.root + ["scripts"]
    ensures Marked(fs, s.root) || s.root == StartPath(projectRoot, cwd)
  {
    var root := FindRoot(fs, StartPath(projectRoot, cwd));
    Structure(root, root + ["src"], root + ["tests"], root + ["scripts"])
  }

  /** `get_subdir(subdir)`: `src / subdir`. */
  function GetSubdir(s: Structure, subdir: string): (p: Path)
    ensures subdir != "" && subdir != "." ==> p == s.srcDir + [subdir] && Parent(p) == s.srcDir
  {
    Join(s.srcDir, subdir)
  }

  /** The directories `ensure_structure` creates, in order. */
  function StructureDirs(s: Structure): seq<Path> {
    [s.srcDir + ["agents"], s.srcDir + ["functions"], s.srcDir + ["workflows"], s.testsDir, s.scriptsDir]
  }

  /** `q` is one of the directories of `ds` or an ancestor of one. */
  predicate UnderAny(q: Path, ds: seq<Path>)
    decreases |ds|
  {
    |ds| > 0 && (IsUnder(q, ds[0]) || UnderAny(q, ds[1..]))
  }

  /** No directory of `ds` is blocked by a regular file. */
  predicate NoneBlocked(fs: FileSystem, ds: seq<Path>)
    decreases |ds|
  {
    |ds| == 0 || (!BlockedByFile(fs, ds[0]) && NoneBlocked(fs, ds[1..]))
  }

  /** Whether a directory is blocked depends on the regular files only. */
  lemma {:induction false} NoneBlockedFiles(fs: FileSystem, fs1: FileSystem, ds: seq<Path>)
    requires fs1.files == fs.files
    ensures NoneBlocked(fs1, ds) <==> NoneBlocked(fs, ds)
    decreases |ds|
  {
    if |ds| > 0 {
      NoneBlockedFiles(fs, fs1, ds[1..]);
    }
  }

  /** `UnderAny` over five directories, spelled out. */
  lemma UnderAnyFive(q: Path, ds: seq<Path>)
    requires |ds| == 5
    ensures UnderAny(q, ds) <==>
      IsUnder(q, ds[0]) || IsUnder(q, ds[1]) || IsUnder(q, ds[2]) || IsUnder(q, ds[3]) || IsUnder(q, ds[4])
  {
    assert UnderAny(q, ds) == (IsUnder(q, ds[0]) || UnderAny(q, ds[1..]));
    assert ds[1..][0] == ds[1] && ds[1..][1..] == ds[2..];
    assert UnderAny(q, ds[1..]) == (IsUnder(q, ds[1]) || UnderAny(q, ds[2..]));
    assert ds[2..][0] == ds[2] && ds[2..][1..] == ds[3..];
    assert UnderAny(q, ds[2..]) == (IsUnder(q, ds[2]) || UnderAny(q, ds[3..]));
    assert ds[3..][0] == ds[3] && ds[3..][1..] == ds[4..];
    assert UnderAny(q, ds[3..]) == (IsUnder(q, ds[3]) || UnderAny(q, ds[4..]));
    assert ds[4..][0] == ds[4] && ds[4..][1..] == [];
    assert UnderAny(q, ds[4..]) == (IsUnder(q, ds[4]) || UnderAny(q, ds[4..][1..]));
  }

  /** The paths made by creating every directory of `ds` with its parents. */
  function PrefixesOfAll(ds: seq<Path>): (r: set<Path>)
    ensures forall q :: q in r <==> UnderAny(q, ds)
    decreases |ds|
  {
    if |ds| == 0 then {} else Prefixes(ds[0]) + PrefixesOfAll(ds[1..])
  }

  /** `for d in ds: d.mkdir(parents=True, exist_ok=True)`. The first
      directory blocked by a regular file raises and stops the loop; the
      directories made before it stay. The error, if any, is returned
      beside the file system. */
  function MkdirAll(fs: FileSystem, ds: seq<Path>): (r: (FileSystem, Option<string>))
    ensures r.0.files == fs.files && fs.dirs <= r.0.dirs
    ensures r.1.None? <==> NoneBlocked(fs, ds)
    ensures r.1.None? ==> r.0.dirs == fs.dirs + PrefixesOfAll(ds)
    ensures r.0.dirs <= fs.dirs + PrefixesOfAll(ds)
    ensures Wf(fs) ==> Wf(r.0)
    decreases |ds|
  {
    if |ds| == 0 then (fs, None)
    else
      match MkdirParents(fs, ds[0])
      case Failure(e) => (fs, Some(e))
      case Success(fs1) =>
        NoneBlockedFiles(fs, fs1, ds[1..]);
        MkdirAll(fs1, ds[1..])
  }

  /** `ensure_structure()`. */
  function EnsureStructure(fs: FileSystem, s: Structure): (r: (FileSystem, Option<string>))
    ensures r.0.files == fs.files
    ensures r.1.None? <==> NoneBlocked(fs, StructureDirs(s))
    ensures r.1.None? ==> r.0.dirs == fs.dirs + PrefixesOfAll(StructureDirs(s))
    ensures Wf(fs) ==> Wf(r.0)
  {
    MkdirAll(fs, StructureDirs(s))
  }

  /** After a successful `ensure_structure` every standard directory
      exists, and nothing outside the standard directories and their
      ancestors was added. */
  lemma EnsureStructureMakes(fs: FileSystem, s: Structure, q: Path)
    requires EnsureStructure(fs, s).1.None?
    ensures var fs1 := EnsureStructure(fs, s).0;
      && (s.srcDir + ["agents"]) in fs1.dirs && (s.srcDir + ["functions"]) in fs1.dirs
      && (s.srcDir + ["workflows"]) in fs1.dirs && s.testsDir in fs1.dirs && s.scriptsDir in fs1.dirs
    ensures q in EnsureStructure(fs, s).0.dirs && q !in fs.dirs ==>
      IsUnder(q, s.srcDir + ["agents"]) || IsUnder(q, s.srcDir + ["functions"])
      || IsUnder(q, s.srcDir + ["workflows"]) || IsUnder(q, s.testsDir) || IsUnder(q, s.scriptsDir)
  {
    var ds := StructureDirs(s);
    forall p | p in ds ensures UnderAny(p, ds) {
      UnderAnyFive(p, ds);
    }
    UnderAnyFive(q, ds);
  }

  /** Running `ensure_structure` a second time changes nothing. */
  lemma EnsureStructureIdempotent(fs: FileSystem, s: Structure)
    requires EnsureStructure(fs, s).1.None?
    ensures EnsureStructure(EnsureStructure(fs, s).0, s) == EnsureStructure(fs, s)
  {
    var fs1 := EnsureStructure(fs, s).0;
    NoneBlockedFiles(fs, fs1, StructureDirs(s));
    var fs2 := EnsureStructure(fs1, s).0;
    assert fs2.dirs == fs1.dirs && fs2.files == fs1.files;
  }

  /** A marker one level up is found from a subdirectory without one. */
  lemma MarkerInParentFound(fs: FileSystem, dir: Path, sub: string)
    requires Marked(fs, dir) && !Marked(fs, dir + [sub])
    ensures FindRoot(fs, dir + [sub]) == dir
  {
    var start := dir + [sub];
    assert start[..|dir|] == dir && start[..|start|] == start;
    FindRootUnique(fs, start, dir);
  }
}

=== FILE: prompt_examples.dfy ===
/** Worked examples of the interactive validators and the sanitiser: the
    cases of tests/test_interactive_validators.py, and how the two name
    checks of the tool disagree on a leading '_' or '-'. */
module PromptExamples {
  import opened Wrappers
  import opened Chars
  import opened Sanitize
  import opened PromptValidators
  import Validation

  lemma WordMyProject(text: string)
    requires text == "my-project"
    ensures IsProjectWord(text)
  {
    assert AllNameChars("my-project");
  }

  lemma WordMyPascalProject(text: string)
    requires text == "MyProject"
    ensures IsProjectWord(text)
  {
    assert AllNameChars("MyProject");
  }

  lemma AcceptsProjectNames(a: string, b: string)
    requires a == "my-project" && b == "MyProject"
    ensures ValidateProjectName(a) == None && ValidateProjectName(b) == None
  {
    WordMyProject(a);
    WordMyPascalProject(b);
  }

  /** A text whose last character is not a newline and that holds a
      character outside the class, or starts with one outside the first
      class, is refused. */
  lemma Refused(text: string, i: nat)
    requires i < |text| && text[|text| - 1] != '\n'
    requires !IsNameChar(text[i]) || (i == 0 && !IsNameStart(text[0]))
    ensures ValidateProjectName(text) == Some(InvalidNameMessage)
  {
  }

  lemma LeadingDigit(text: string)
    requires text == "123-abc"
    ensures |text| > 0 && text[|text| - 1] != '\n' && !IsNameStart(text[0])
  {
    assert "123-abc"[6] == 'c';
  }

  lemma InnerSpace(text: string)
    requires text == "has space"
    ensures 3 < |text| && text[|text| - 1] != '\n' && !IsNameChar(text[3])
  {
    assert "has space"[3] == ' ' && "has space"[8] == 'e';
  }

  lemma RefusesProjectNames(a: string, b: string)
    requires a == "123-abc" && b == "has space"
    ensures ValidateProjectName(a) == Some(InvalidNameMessage)
    ensures ValidateProjectName(b) == Some(InvalidNameMessage)
  {
    LeadingDigit(a);
    Refused(a, 0);
    InnerSpace(b);
    Refused(b, 3);
  }

  lemma EmptyProjectNameRefused(text: string)
    requires text == ""
    ensures ValidateProjectName(text) == Some("Project name cannot be empty")
  {
  }

  /** `$` admits one trailing newline. */
  lemma TrailingNewlineAccepted(text: string)
    requires text == "app\n"
    ensures ValidateProjectName(text) == None
  {
    assert text[..|text| - 1] == "app";
    assert AllNameChars("app");
  }

  lemma ShapePrivate(text: string)
    requires text == "_a"
    ensures IsProjectWord(text) && |text| > 1 && AllNameChars(text) && text[0] == '_' && IsAlnum(text[1])
  {
    assert AllNameChars("_a");
  }

  /** The prompt accepts a leading '_' although its message asks for a
      letter, and `validate_name` rejects the same name. */
  lemma LeadingUnderscoreDisagreement(text: string)
    requires text == "_a"
    ensures ValidateProjectName(text) == None
    ensures Validation.ValidateName(text) == Validation.Verdict(false, Validation.UnderscoreMessage)
  {
    ShapePrivate(text);
    Validation.ValidateNameOrder(text);
  }

  /** No keyword starts with '-'. */
  lemma DashNotKeyword(text: string)
    requires |text| > 0 && text[0] == '-'
    ensures !Validation.IsKeyword(text)
  {
    Validation.KeywordHasNoHyphen(text);
    assert text[0] in text;
  }

  /** '-' followed by a word of letters passes every rule of
      `validate_name`. */
  lemma DashWordAccepted(text: string)
    requires |text| > 1 && text[0] == '-' && Validation.IsWord(text[1..])
    ensures Validation.ValidateName(text) == Validation.Verdict(true, "")
  {
    DashNotKeyword(text);
    DashWordNameChars(text);
    Validation.AcceptedWhen(text, 1);
  }

  lemma DashWordNameChars(text: string)
    requires |text| > 1 && text[0] == '-' && Validation.IsWord(text[1..])
    ensures AllNameChars(text) && IsAlnum(text[1])
  {
    var w := text[1..];
    assert text[1] == w[0];
    forall i | 0 <= i < |text| ensures IsNameChar(text[i]) {
      if i > 0 {
        assert text[i] == w[i - 1];
      }
    }
  }

  lemma ShapeDash(text: string)
    requires text == "-x"
    ensures |text| > 1 && text[0] == '-' && Validation.IsWord(text[1..]) && text[|text| - 1] != '\n'
  {
    assert "-x"[1..] == "x";
  }

  /** `validate_name` accepts a leading '-'. */
  lemma LeadingDashAccepted(text: string)
    requires text == "-x"
    ensures Validation.ValidateName(text) == Validation.Verdict(true, "")
  {
    ShapeDash(text);
    DashWordAccepted(text);
  }

  /** The prompt refuses a leading '-'. */
  lemma LeadingDashRefused(text: string)
    requires text == "-x"
    ensures ValidateProjectName(text) == Some(InvalidNameMessage)
  {
    ShapeDash(text);
    Refused(text, 0);
  }

  // The sanitiser on examples.

  lemma PiecesMyProject(s: string)
    requires s == "my project"
    ensures s == "my" + " " + "project"
    ensures IsSanitized("my") && AllNameChars("project")
    ensures "my" + "-" + "project" == "my-project"
  {
    assert AllNameChars("my") && AllNameChars("project");
  }

  /** A space becomes '-'. */
  lemma SanitizeMyProject(s: string)
    requires s == "my project"
    ensures SanitizeProjectName(s) == "my-project"
  {
    PiecesMyProject(s);
    SanitizeSpaceJoin("my", "project");
  }

  lemma PiecesTab(s: string)
    requires s == "my\tproject"
    ensures s == "my" + ['\t'] + "project"
    ensures NoControl("my") && IsControl('\t') && NoControl("project")
    ensures "my" + "project" == "myproject" && IsSanitized("myproject")
  {
    assert AllNameChars("myproject");
  }

  /** A tab is a control character: it is deleted before whitespace is
      collapsed, so it does not become '-'. */
  lemma SanitizeTab(s: string)
    requires s == "my\tproject"
    ensures SanitizeProjectName(s) == "myproject"
  {
    PiecesTab(s);
    DropControlSplice("my", '\t', "project");
    SanitizeAfterDrop(s);
  }

  lemma ShapeDigitName(s: string)
    requires s == "123abc"
    ensures AllNameChars(s) && |s| > 0 && !IsNameStart(s[0])
    ensures "_" + s == "_123abc"
  {
    assert AllNameChars("123abc");
  }

  /** A leading digit gets a '_' in front. */
  lemma SanitizeDigitName(s: string)
    requires s == "123abc"
    ensures SanitizeProjectName(s) == "_123abc"
  {
    ShapeDigitName(s);
    SanitizeBadStart(s);
  }

  lemma InertBangs(s: string)
    requires s == "!?!"
    ensures Inert(s)
  {
    assert Inert("!?!");
  }

  /** Nothing usable leaves nothing, with no '_' prefix. */
  lemma SanitizeBangs(s: string)
    requires s == "!?!"
    ensures SanitizeProjectName(s) == ""
  {
    InertBangs(s);
    SanitizeNothing(s);
  }
}

=== FILE: prompt_validators.dfy ===
/** The validators of the interactive prompts
    (restack_gen/interactive/validators.py). A validator either accepts the
    text or raises `ValidationError(message)`; the model returns `None` or
    `Some(message)`. */
module PromptValidators {
  import opened Wrappers
  import opened Chars
  import Sanitize
  import Validation

  /** A word of `^[a-zA-Z_][a-zA-Z0-9_-]*`: a letter or '_' and then name
      characters. */
  predicate IsProjectWord(w: string) {
    |w| > 0 && Sanitize.IsNameStart(w[0]) && AllNameChars(w)
  }

  /** `PROJECT_NAME_RE.match(text)` succeeds. In Python `$` matches at the
      end of the text and also just before a final "\n", so one trailing
      newline is admitted. */
  predicate MatchesProjectName(text: string) {
    || IsProjectWord(text)
    || (|text| > 0 && text[|text| - 1] == '\n' && IsProjectWord(text[..|text| - 1]))
  }

  /** The matcher as the regular-expression engine runs it: the first
      class, then the starred class taken greedily, then the `$` test. No
      backtracking is needed, because '\n' is outside the starred class. */
  method MatchProjectName(text: string) returns (m: bool)
    ensures m <==> MatchesProjectName(text)
  {
    if |text| == 0 || !Sanitize.IsNameStart(text[0]) {
      return false;
    }
    var i := 1;
    while i < |text| && IsNameChar(text[i])
      invariant 1 <= i <= |text|
      invariant forall k :: 0 <= k < i ==> IsNameChar(text[k])
    {
      i := i + 1;
    }
    m := i == |text| || (i == |text| - 1 && text[i] == '\n');
    if !m {
      assert i < |text| && !IsNameChar(text[i]);
      assert !IsProjectWord(text);
      if |text| > 0 && text[|text| - 1] == '\n' {
        assert i < |text| - 1;
        assert text[..|text| - 1][i] == text[i];
      }
    }
  }

  const EmptyNameMessage := "Project name cannot be empty"
  const InvalidNameMessage :=
    "Invalid project name. Use letters, numbers, '-', or '_', and start with a letter."

  /** `ProjectNameValidator.validate`. */
  function ValidateProjectName(text: string): (r: Option<string>)
    ensures r.None? <==> MatchesProjectName(text)
    ensures |text| == 0 ==> r == Some(EmptyNameMessage)
    ensures |text| > 0 && !MatchesProjectName(text) ==> r == Some(InvalidNameMessage)
  {
    if |text| == 0 then Some(EmptyNameMessage)
    else if !MatchesProjectName(text) then Some(InvalidNameMessage)
    else None
  }

  /** `PathValidator.validate`: only a NUL character is refused. */
  function ValidatePathText(text: string): (r: Option<string>)
    ensures r.None? <==> '\0' !in text
    ensures r.Some? ==> r.value == "Invalid path"
  {
    if '\0' in text then Some("Invalid path") else None
  }

  /** Without a trailing newline the prompt accepts exactly the non-empty
      sanitised names. */
  lemma AcceptedIsSanitized(text: string)
    requires |text| == 0 || text[|text| - 1] != '\n'
    ensures ValidateProjectName(text).None? <==> |text| > 0 && Sanitize.IsSanitized(text)
  {
  }

  /** Whatever the sanitiser returns, unless it is empty, passes the
      prompt's validator. */
  lemma SanitizedAccepted(name: string)
    requires Sanitize.SanitizeProjectName(name) != ""
    ensures ValidateProjectName(Sanitize.SanitizeProjectName(name)).None?
  {
  }

  /** The prompt accepts exactly what sanitising leaves unchanged, apart
      from the empty text and a trailing newline. */
  lemma AcceptedIsFixpoint(text: string)
    requires |text| > 0 && text[|text| - 1] != '\n'
    ensures ValidateProjectName(text).None? <==> Sanitize.SanitizeProjectName(text) == text
  {
    if Sanitize.SanitizeProjectName(text) == text {
      assert Sanitize.IsSanitized(text);
    } else if Sanitize.IsSanitized(text) {
      Sanitize.SanitizeFixpoint(text);
    }
  }

  /** A name `validate_name` accepts passes the prompt unless it starts
      with '-', which `validate_name` lets through and the prompt's
      pattern does not. */
  lemma ValidNameAccepted(name: string)
    requires Validation.ValidateName(name).ok
    ensures ValidateProjectName(name).None? <==> name[0] != '-'
  {
    Validation.AcceptedShape(name);
    ShapeAccepted(name);
  }

  lemma ShapeAccepted(name: string)
    requires |name| > 0 && AllNameChars(name) && (IsAlpha(name[0]) || name[0] == '-')
    ensures ValidateProjectName(name).None? <==> name[0] != '-'
  {
    assert name[|name| - 1] != '\n';
  }

  /** A NUL-free sanitised path passes the path prompt when resolution
      fails. */
  lemma SanitizedPathAccepted(path: string, resolve: string -> Result<string, string>)
    requires resolve(Delete(path, '\0')).Failure?
    ensures ValidatePathText(Sanitize.SanitizePath(path, resolve)).None?
  {
  }
}

=== FILE: registry.dfy ===
/** The command table (restack_gen/commands/__init__.py): command names
    mapped to command classes, several names sharing a class. */
module Registry {
  import opened Wrappers

  /** The command classes the table refers to. */
  datatype CommandClass =
    | NewCommand | GenerateCommand | RoutesCommand | DevCommand | BuildCommand
    | TestsCommand | DoctorCommand | VersionCommand | ListTemplatesCommand | HelpCommand

  /** The table in its declared order. */
  const Table: seq<(string, CommandClass)> := [
    ("new", NewCommand),
    ("g", GenerateCommand),
    ("generate", GenerateCommand),
    ("routes", RoutesCommand),
    ("dev", DevCommand),
    ("build", BuildCommand),
    ("test", TestsCommand),
    ("doctor", DoctorCommand),
    ("version", VersionCommand),
    ("list-templates", ListTemplatesCommand),
    ("ls-templates", ListTemplatesCommand),
    ("help", HelpCommand)
  ]

  /** The class registered under `name` in `t`, if any. */
  function Lookup(t: seq<(string, CommandClass)>, name: string): (r: Option<CommandClass>)
    ensures r.Some? ==> (name, r.value) in t
    ensures r.None? <==> forall i :: 0 <= i < |t| ==> t[i].0 != name
    decreases |t|
  {
    if |t| == 0 then None
    else if t[0].0 == name then Some(t[0].1)
    else Lookup(t[1..], name)
  }

  /** `CommandRegistry.get(name)`: the class of a known name (the source
      returns an instance of it), `None` for any other name. */
  function Get(name: string): (r: Option<CommandClass>)
    ensures r.Some? ==> (name, r.value) in Table
    ensures r.None? <==> forall i :: 0 <= i < |Table| ==> Table[i].0 != name
  {
    Lookup(Table, name)
  }

  lemma GetGenerate(a: string, b: string)
    requires a == "g" && b == "generate"
    ensures Get(a) == Some(GenerateCommand) && Get(b) == Some(GenerateCommand)
  {
  }

  /** The names in a sequence of entries. */
  function Names(t: seq<(string, CommandClass)>): (r: seq<string>)
    ensures |r| == |t| && forall i :: 0 <= i < |t| ==> r[i] == t[i].0
  {
    seq(|t|, i requires 0 <= i < |t| => t[i].0)
  }

  /** The loop of `list_commands` over the table: an entry is kept when no
      earlier kept entry (nor anything in `seen`) has its class. */
  function FirstEntries(t: seq<(string, CommandClass)>, seen: set<CommandClass>): (r: seq<(string, CommandClass)>)
    ensures forall i :: 0 <= i < |r| ==> r[i] in t && r[i].1 !in seen
    ensures forall i, j :: 0 <= i < j < |r| ==> r[i].1 != r[j].1
    decreases |t|
  {
    if |t| == 0 then []
    else if t[0].1 in seen then FirstEntries(t[1..], seen)
    else
      var rest := FirstEntries(t[1..], seen + {t[0].1});
      assert forall i :: 0 <= i < |rest| ==> rest[i] in t;
      [t[0]] + rest
  }

  /** Every class of the table that was not already seen keeps one name. */
  lemma {:induction false} FirstEntriesCover(t: seq<(string, CommandClass)>, seen: set<CommandClass>, i: nat)
    requires i < |t| && t[i].1 !in seen
    ensures exists j :: 0 <= j < |FirstEntries(t, seen)| && FirstEntries(t, seen)[j].1 == t[i].1
    decreases |t|
  {
    var r := FirstEntries(t, seen);
    if t[0].1 in seen {
      FirstEntriesCover(t[1..], seen, i - 1);
      var j :| 0 <= j < |FirstEntries(t[1..], seen)| && FirstEntries(t[1..], seen)[j].1 == t[i].1;
      assert r[j].1 == t[i].1;
    } else if i > 0 && t[i].1 != t[0].1 {
      FirstEntriesCover(t[1..], seen + {t[0].1}, i - 1);
      var j :| 0 <= j < |FirstEntries(t[1..], seen + {t[0].1})| && FirstEntries(t[1..], seen + {t[0].1})[j].1 == t[i].1;
      assert r[j + 1].1 == t[i].1;
    } else {
      assert r[0].1 == t[i].1;
    }
  }

  /** Python's `<` on strings: code points compared left to right, a
      proper prefix before the longer string. */
  predicate Less(a: string, b: string)
    decreases |a|
  {
    |b| > 0 && (|a| == 0 || a[0] < b[0] || (a[0] == b[0] && Less(a[1..], b[1..])))
  }

  lemma {:induction false} LessAsymmetric(a: string, b: string)
    requires Less(a, b)
    ensures !Less(b, a)
    decreases |a|
  {
    if |a| > 0 && a[0] == b[0] {
      LessAsymmetric(a[1..], b[1..]);
    }
  }

  /** Each element is not less than the one before it. */
  predicate Sorted(s: seq<string>) {
    forall i :: 0 < i < |s| ==> !Less(s[i], s[i - 1])
  }

  predicate NoDuplicates(s: seq<string>) {
    forall i, j :: 0 <= i < j < |s| ==> s[i] != s[j]
  }

  /** Insert `x` after the elements less than it. */
  function Insert(x: string, s: seq<string>): (r: seq<string>)
    requires Sorted(s)
    ensures Sorted(r) && multiset(r) == multiset(s) + multiset{x}
    ensures |r| > 0 && (r[0] == x || (|s| > 0 && r[0] == s[0]))
    decreases |s|
  {
    if |s| == 0 || !Less(s[0], x) then
      [x] + s
    else
      LessAsymmetric(s[0], x);
      assert s == [s[0]] + s[1..];
      [s[0]] + Insert(x, s[1..])
  }

  /** `sorted(s)`, by insertion. */
  function Sort(s: seq<string>): (r: seq<string>)
    ensures Sorted(r) && multiset(r) == multiset(s)
    decreases |s|
  {
    if |s| == 0 then []
    else
      assert s == [s[0]] + s[1..];
      Insert(s[0], Sort(s[1..]))
  }

  /** Two sequences holding the same elements with the same multiplicity
      agree on having duplicates. */
  lemma NoDuplicatesOfMultiset(s: seq<string>, r: seq<string>)
    requires multiset(r) == multiset(s) && NoDuplicates(s)
    ensures NoDuplicates(r)
  {
    forall i, j | 0 <= i < j < |r| ensures r[i] != r[j] {
      if r[i] == r[j] {
        assert r == r[..i] + [r[i]] + r[i + 1..j] + [r[j]] + r[j + 1..];
        assert multiset(r)[r[i]] >= 2;
        MultiplicityOne(s, r[i]);
      }
    }
  }

  /** In a sequence without duplicates every element occurs once. */
  lemma {:induction false} MultiplicityOne(s: seq<string>, x: string)
    requires NoDuplicates(s)
    ensures multiset(s)[x] <= 1
    decreases |s|
  {
    if |s| > 0 {
      assert s == [s[0]] + s[1..];
      MultiplicityOne(s[1..], x);
      if s[0] == x {
        assert x !in s[1..];
      }
    }
  }

  /** `CommandRegistry.list_commands()`: the sorted names, one per command
      class (the first alias in table order), each a known command. */
  function ListCommands(): (r: seq<string>)
    ensures Sorted(r) && NoDuplicates(r)
    ensures forall x :: x in r ==> Get(x).Some?
    ensures forall i :: 0 <= i < |Table| ==>
      (Table[i].0 in r <==> forall j :: 0 <= j < i ==> Table[j].1 != Table[i].1)
  {
    var r := Sort(Names(FirstEntries(Table, {})));
    ListCommandsSortedDistinct();
    forall x | x in r ensures Get(x).Some? {
      ListedAreKnown(x);
    }
    forall i | 0 <= i < |Table| ensures Table[i].0 in r <==> forall j :: 0 <= j < i ==> Table[j].1 != Table[i].1 {
      ListedIff(i);
    }
    r
  }

  /** No two entries of `t` share a name. */
  predicate DistinctNames(t: seq<(string, CommandClass)>) {
    forall i, j :: 0 <= i < j < |t| ==> t[i].0 != t[j].0
  }

  /* The table's names are distinct (`TableNamesDistinct`). Instead of
     comparing the 66 pairs of names letter by letter, the proof gives each
     name a number that two equal names share, the signature below, lists
     the twelve signatures, and shows them pairwise different through
     their sorted order: a name's signature determines its place in
     `SortedSignatures`, and no two entries share a place. */

  /** A name's length and first letter, as one number. */
  function Signature(name: string): int {
    if name == [] then 0 else |name| * 256 + name[0] as int
  }

  /** The signatures of the table's names in increasing order, and the
      place of each entry's signature in that order. */
  const SortedSignatures: seq<int> := [359, 868, 878, 1128, 1140, 1378, 1636, 1650, 1910, 2151, 3180, 3692]
  const SignatureRank: seq<nat> := [2, 0, 9, 7, 1, 5, 4, 6, 8, 11, 10, 3]
  const SignatureOrder: seq<nat> := [1, 4, 0, 11, 6, 5, 7, 3, 8, 2, 10, 9]

  /** `SignatureOrder` undoes `SignatureRank`. */
  lemma RankInverse()
    ensures |SignatureRank| == |SortedSignatures| == |SignatureOrder| == 12
    ensures forall i :: 0 <= i < 12 ==> SignatureRank[i] < 12 && SignatureOrder[SignatureRank[i]] == i
  {
  }

  /** The signatures of the table's names, entry by entry. */
  const TableSignatures: seq<int> := [878, 359, 2151, 1650, 868, 1378, 1140, 1636, 1910, 3692, 3180, 1128]

  lemma SignaturesOfTable()
    ensures |TableSignatures| == |Table|
    ensures forall i :: 0 <= i < |Table| ==> Signature(Table[i].0) == TableSignatures[i]
  {
    SignaturesFirstHalf();
    SignaturesSecondHalf();
  }

  lemma SignaturesFirstHalf()
    ensures forall i :: 0 <= i < 6 ==> Signature(Table[i].0) == TableSignatures[i]
  {
  }

  lemma SignaturesSecondHalf()
    ensures forall i :: 6 <= i < |Table| ==> Signature(Table[i].0) == TableSignatures[i]
  {
  }

  /** Each entry's signature sits at its rank in the sorted list. */
  lemma SignaturesRanked()
    ensures |TableSignatures| == |SignatureRank| == |SortedSignatures| == 12
    ensures forall i :: 0 <= i < 12 ==> SignatureRank[i] < 12 && TableSignatures[i] == SortedSignatures[SignatureRank[i]]
  {
  }

  /** A sequence increasing at every step is strictly increasing. */
  lemma {:induction false} Increasing(s: seq<int>)
    requires forall k :: 0 <= k < |s| - 1 ==> s[k] < s[k + 1]
    ensures forall a, b :: 0 <= a < b < |s| ==> s[a] < s[b]
    decreases |s|
  {
    if |s| > 1 {
      Increasing(s[1..]);
      forall a, b | 0 <= a < b < |s| ensures s[a] < s[b] {
        if a == 0 {
          assert s[1] == s[1..][0];
          if b > 1 {
            assert s[b] == s[1..][b - 1];
          }
        } else {
          assert s[a] == s[1..][a - 1] && s[b] == s[1..][b - 1];
        }
      }
    }
  }

  /** The distinct signatures of the table's names. */
  lemma SignaturesDistinct()
    ensures forall i, j :: 0 <= i < j < |TableSignatures| ==> TableSignatures[i] != TableSignatures[j]
  {
    RankInverse();
    SignaturesRanked();
    assert forall k :: 0 <= k < |SortedSignatures| - 1 ==> SortedSignatures[k] < SortedSignatures[k + 1];
    Increasing(SortedSignatures);
    forall i, j | 0 <= i < j < |TableSignatures| ensures TableSignatures[i] != TableSignatures[j] {
      var ri, rj := SignatureRank[i], SignatureRank[j];
      assert ri != rj;
      assert SortedSignatures[ri] != SortedSignatures[rj];
    }
  }

  /** Names with pairwise different signatures are pairwise different. */
  lemma DistinctBySignature(t: seq<(string, CommandClass)>, sigs: seq<int>)
    requires |sigs| == |t|
    requires forall i :: 0 <= i < |t| ==> Signature(t[i].0) == sigs[i]
    requires forall i, j :: 0 <= i < j < |sigs| ==> sigs[i] != sigs[j]
    ensures DistinctNames(t)
  {
  }

  /** Any two names of the table differ in length or in their first letter. */
  lemma TableNamesDistinct()
    ensures DistinctNames(Table)
  {
    SignaturesOfTable();
    SignaturesDistinct();
    DistinctBySignature(Table, TableSignatures);
  }

  /** An entry is kept exactly when its class is neither seen nor carried by
      an earlier entry. */
  lemma {:induction false} FirstEntriesKept(t: seq<(string, CommandClass)>, seen: set<CommandClass>, i: nat)
    requires i < |t| && DistinctNames(t)
    ensures t[i] in FirstEntries(t, seen) <==> t[i].1 !in seen && forall j :: 0 <= j < i ==> t[j].1 != t[i].1
    decreases |t|
  {
    var r := FirstEntries(t, seen);
    var tail := t[1..];
    assert DistinctNames(tail) by {
      forall a, b | 0 <= a < b < |tail| ensures tail[a].0 != tail[b].0 {
        assert tail[a] == t[a + 1] && tail[b] == t[b + 1];
      }
    }
    if i == 0 {
      if t[0].1 in seen {
        assert t[0] !in r;
      } else {
        assert r[0] == t[0];
      }
    } else {
      assert t[i] == tail[i - 1];
      assert t[i] != t[0] by { assert t[0].0 != t[i].0; }
      var seen' := if t[0].1 in seen then seen else seen + {t[0].1};
      FirstEntriesKept(tail, seen', i - 1);
      assert r == FirstEntries(tail, seen') || r == [t[0]] + FirstEntries(tail, seen');
      assert t[i] in r <==> t[i] in FirstEntries(tail, seen');
      assert (forall j :: 0 <= j < i ==> t[j].1 != t[i].1) <==>
             t[0].1 != t[i].1 && forall j :: 0 <= j < i - 1 ==> tail[j].1 != t[i].1 by {
        forall j | 0 <= j < i - 1 ensures tail[j] == t[j + 1] { }
      }
    }
  }

  /** A name is in `ns` exactly when some entry of `t` carrying it is in
      `Names(t)`: names identify entries when they are distinct. */
  lemma NameOfKept(t: seq<(string, CommandClass)>, i: nat)
    requires i < |t| && DistinctNames(t)
    ensures t[i].0 in Names(FirstEntries(t, {})) <==> t[i] in FirstEntries(t, {})
  {
    var r := FirstEntries(t, {});
    var ns := Names(r);
    if t[i].0 in ns {
      var k :| 0 <= k < |ns| && ns[k] == t[i].0;
      assert r[k] in t;
      var m :| 0 <= m < |t| && t[m] == r[k];
      assert m == i;
    }
  }

  /** The name of table entry `i` is listed exactly when no earlier entry
      has its class: one name per class, the first alias in table order. */
  lemma ListedIff(i: nat)
    requires i < |Table|
    ensures Table[i].0 in Sort(Names(FirstEntries(Table, {}))) <==> forall j :: 0 <= j < i ==> Table[j].1 != Table[i].1
  {
    TableNamesDistinct();
    FirstEntriesKept(Table, {}, i);
    NameOfKept(Table, i);
    var firsts := Names(FirstEntries(Table, {}));
    assert multiset(Sort(Names(FirstEntries(Table, {})))) == multiset(firsts);
    assert Table[i].0 in Sort(Names(FirstEntries(Table, {}))) <==> Table[i].0 in multiset(firsts);
  }

  /** Every listed name is a known command. */
  lemma ListedAreKnown(x: string)
    requires x in Sort(Names(FirstEntries(Table, {})))
    ensures Get(x).Some?
  {
    var r := FirstEntries(Table, {});
    assert multiset(Sort(Names(FirstEntries(Table, {})))) == multiset(Names(r));
    assert x in multiset(Names(r));
    var k :| 0 <= k < |r| && Names(r)[k] == x;
    assert r[k] in Table;
  }

  /** The listed names are sorted and each appears once. */
  lemma ListCommandsSortedDistinct()
    ensures Sorted(Sort(Names(FirstEntries(Table, {})))) && NoDuplicates(Sort(Names(FirstEntries(Table, {}))))
  {
    TableNamesDistinct();
    var r := FirstEntries(Table, {});
    var ns := Names(r);
    forall a, b | 0 <= a < b < |ns| ensures ns[a] != ns[b] {
      assert r[a] in Table && r[b] in Table;
      assert r[a].1 != r[b].1;
    }
    NoDuplicatesOfMultiset(ns, Sort(Names(FirstEntries(Table, {}))));
  }

  /** An entry whose class no earlier entry has is listed. */
  lemma ListedFirst(i: nat)
    requires i < |Table| && forall j :: 0 <= j < i ==> Table[j].1 != Table[i].1
    ensures Table[i].0 in ListCommands()
  {
    ListedIff(i);
  }

  /** An entry sharing the class of an earlier one is not listed. */
  lemma UnlistedAlias(i: nat, j: nat)
    requires j < i < |Table| && Table[j].1 == Table[i].1
    ensures Table[i].0 !in ListCommands()
  {
    ListedIff(i);
  }

  /** The generator is listed under "g", its first alias, and not under
      "generate". */
  lemma ListedGenerator()
    ensures "g" in ListCommands() && "generate" !in ListCommands()
  {
    ListedFirst(1);
    UnlistedAlias(2, 1);
  }

  /** The template listing is listed under "list-templates" and not under
      "ls-templates". */
  lemma ListedTemplates()
    ensures "list-templates" in ListCommands() && "ls-templates" !in ListCommands()
  {
    TableIsShaped();
    ListedFirst(9);
    UnlistedAlias(10, 9);
  }

  /** One step of the `list_commands` loop over a suffix of the table. */
  lemma FirstEntriesStep(t: seq<(string, CommandClass)>, k: nat, seen: set<CommandClass>, n: nat)
    requires k < |t|
    requires t[k].1 !in seen ==> |FirstEntries(t[k + 1..], seen + {t[k].1})| == n
    requires t[k].1 in seen ==> |FirstEntries(t[k + 1..], seen)| == n
    ensures |FirstEntries(t[k..], seen)| == if t[k].1 in seen then n else n + 1
  {
    assert t[k..][1..] == t[k + 1..];
  }

  /** The classes of the table, entry by entry. */
  predicate TableShaped(t: seq<(string, CommandClass)>) {
    && |t| == 12
    && t[0].1 == NewCommand && t[1].1 == GenerateCommand && t[2].1 == GenerateCommand
    && t[3].1 == RoutesCommand && t[4].1 == DevCommand && t[5].1 == BuildCommand
    && t[6].1 == TestsCommand && t[7].1 == DoctorCommand && t[8].1 == VersionCommand
    && t[9].1 == ListTemplatesCommand && t[10].1 == ListTemplatesCommand
    && t[11].1 == HelpCommand
  }

  lemma TableIsShaped()
    ensures TableShaped(Table)
  {
  }

  /** The classes of the first six entries. */
  const FirstClasses: set<CommandClass> :=
    {NewCommand, GenerateCommand, RoutesCommand, DevCommand, BuildCommand}

  /** The last six entries add five classes not among the first six. */
  lemma FirstEntriesTail(t: seq<(string, CommandClass)>)
    requires TableShaped(t)
    ensures |FirstEntries(t[6..], FirstClasses)| == 5
  {
    var s5 := FirstClasses;
    var s6 := s5 + {TestsCommand};
    var s7 := s6 + {DoctorCommand};
    var s8 := s7 + {VersionCommand};
    var s9 := s8 + {ListTemplatesCommand};
    assert t[12..] == [];
    FirstEntriesStep(t, 11, s9, 0);
    FirstEntriesStep(t, 10, s9, 1);
    FirstEntriesStep(t, 9, s8, 1);
    FirstEntriesStep(t, 8, s7, 2);
    FirstEntriesStep(t, 7, s6, 3);
    FirstEntriesStep(t, 6, s5, 4);
  }

  /** From the fourth entry on, after "new" and "g", eight entries are kept. */
  lemma FirstEntriesMiddle(t: seq<(string, CommandClass)>)
    requires TableShaped(t)
    ensures |FirstEntries(t[2..], {NewCommand, GenerateCommand})| == 8
  {
    var s2 := {NewCommand, GenerateCommand};
    FirstEntriesFromDev(t);
    assert s2 + {RoutesCommand} == {NewCommand, GenerateCommand, RoutesCommand};
    FirstEntriesStep(t, 3, s2, 7);
    FirstEntriesStep(t, 2, s2, 8);
  }

  /** From "dev" on, after "new", "g" and "routes", seven entries are kept. */
  lemma FirstEntriesFromDev(t: seq<(string, CommandClass)>)
    requires TableShaped(t)
    ensures |FirstEntries(t[4..], {NewCommand, GenerateCommand, RoutesCommand})| == 7
  {
    var s3 := {NewCommand, GenerateCommand, RoutesCommand};
    var s4 := s3 + {DevCommand};
    FirstEntriesTail(t);
    assert s4 + {BuildCommand} == FirstClasses;
    FirstEntriesStep(t, 5, s4, 5);
    FirstEntriesStep(t, 4, s3, 6);
  }

  /** A table of that shape keeps ten entries, one per class. */
  lemma FirstEntriesCount(t: seq<(string, CommandClass)>)
    requires TableShaped(t)
    ensures |FirstEntries(t, {})| == 10
  {
    var s1 := {NewCommand};
    var s2 := s1 + {GenerateCommand};
    FirstEntriesMiddle(t);
    assert s2 == {NewCommand, GenerateCommand};
    FirstEntriesStep(t, 1, s1, 8);
    assert {} + {t[0].1} == s1;
    FirstEntriesStep(t, 0, {}, 9);
    assert t[0..] == t;
  }

  /** The table has ten distinct classes, so `list_commands` lists ten names. */
  lemma ListCommandsCount()
    ensures |ListCommands()| == 10
  {
    TableIsShaped();
    FirstEntriesCount(Table);
    assert |multiset(ListCommands())| == |multiset(Names(FirstEntries(Table, {})))|;
  }
}

=== FILE: routes.dfy ===
/** The `routes` command (restack_gen/commands/routes.py): finds the
    project's service.py and lists the agents, workflows and functions it
    registers, read from the bracketed lists `agents=[...]`,
    `workflows=[...]` and `functions=[...]` of its text. */
module Routes {
  import opened Wrappers
  import opened Chars
  import opened Fs
  import Text
  import Project

  /** The text that opens a list: `key=[`. */
  function Opening(key: string): string {
    key + "=["
  }

  /** The first index at or after `from` that holds `c`. */
  function FindChar(s: string, c: char, from: nat): (r: Option<nat>)
    requires from <= |s|
    ensures r.Some? ==> from <= r.value < |s| && s[r.value] == c && c !in s[from..r.value]
    ensures r.None? ==> c !in s[from..]
    decreases |s| - from
  {
    if from == |s| then None
    else if s[from] == c then Some(from)
    else
      var r := FindChar(s, c, from + 1);
      assert s[from..] == [s[from]] + s[from + 1..];
      assert r.Some? ==> s[from..r.value] == [s[from]] + s[from + 1..r.value];
      r
  }

  /** `re.search(key + r'=\[([^\]]*)\]', content).group(1)` from position
      `p` on: the leftmost position where the opening is followed, later,
      by a ']'; the group is the text up to the first such ']' (`[^\]]*`
      also crosses line ends). */
  function SearchFrom(content: string, open: string, p: nat): (r: Option<string>)
    requires p <= |content|
    ensures r.Some? ==> ']' !in r.value
    decreases |content| - p
  {
    if p == |content| || p + |open| > |content| then None
    else if OccursAt(content, open, p) then
      match FindChar(content, ']', p + |open|)
      case Some(q) => Some(content[p + |open|..q])
      case None => SearchFrom(content, open, p + 1)
    else SearchFrom(content, open, p + 1)
  }

  /** The text inside the first closed `key=[...]` of `content`. */
  function ListText(content: string, key: string): (r: Option<string>)
    ensures r.Some? ==> ']' !in r.value
  {
    SearchFrom(content, Opening(key), 0)
  }

  /** Non-empty, with no space at either end. */
  predicate Trimmed(x: string) {
    x != [] && !IsSpace(x[0]) && !IsSpace(x[|x| - 1])
  }

  /** `[x.strip() for x in pieces if x.strip()]`. */
  function Kept(pieces: seq<string>): (r: seq<string>)
    ensures |r| <= |pieces|
    decreases |pieces|
  {
    if |pieces| == 0 then []
    else
      var x := Strip(pieces[0]);
      if x == "" then Kept(pieces[1..]) else [x] + Kept(pieces[1..])
  }

  /** A non-empty stripped string is trimmed. */
  lemma StripTrimmed(s: string)
    ensures Strip(s) == "" || Trimmed(Strip(s))
  {
  }

  lemma ConsTrimmed(x: string, rest: seq<string>)
    requires Trimmed(x) && forall i :: 0 <= i < |rest| ==> Trimmed(rest[i])
    ensures forall i :: 0 <= i < |[x] + rest| ==> Trimmed(([x] + rest)[i])
  {
    var r := [x] + rest;
    forall i | 1 <= i < |r| ensures Trimmed(r[i]) {
      assert r[i] == rest[i - 1];
    }
  }

  /** Every kept item is trimmed. */
  lemma {:induction false} KeptTrimmed(pieces: seq<string>)
    ensures forall i :: 0 <= i < |Kept(pieces)| ==> Trimmed(Kept(pieces)[i])
    decreases |pieces|
  {
    if |pieces| > 0 {
      KeptTrimmed(pieces[1..]);
      StripTrimmed(pieces[0]);
      if Strip(pieces[0]) != "" {
        ConsTrimmed(Strip(pieces[0]), Kept(pieces[1..]));
      }
    }
  }

  /** A character in no piece is in no kept item. */
  lemma {:induction false} KeptAbsent(pieces: seq<string>, c: char)
    requires forall j :: 0 <= j < |pieces| ==> c !in pieces[j]
    ensures forall i :: 0 <= i < |Kept(pieces)| ==> c !in Kept(pieces)[i]
    decreases |pieces|
  {
    if |pieces| > 0 {
      var x := Strip(pieces[0]);
      var rest := Kept(pieces[1..]);
      assert c !in pieces[0];
      StripKeepsAbsent(pieces[0], c);
      forall j | 0 <= j < |pieces| - 1 ensures c !in pieces[1..][j] {
        assert pieces[1..][j] == pieces[j + 1];
      }
      KeptAbsent(pieces[1..], c);
      var r := if x != "" then [x] + rest else rest;
      assert Kept(pieces) == r;
      forall i | 0 <= i < |r| ensures c !in r[i] {
        if x != "" && i > 0 {
          assert r[i] == rest[i - 1];
        }
      }
    }
  }

  /** What `strip` returns is a piece of its argument. */
  lemma StripKeepsAbsent(s: string, c: char)
    requires c !in s
    ensures c !in Strip(s)
  {
    var r := Strip(s);
    var k :| OccursAt(s, r, k);
    forall i | 0 <= i < |r| ensures r[i] != c {
      assert r[i] == s[k + i];
    }
  }

  /** The items of a list's text: split on ',', trimmed, empty ones
      dropped. */
  function Items(text: string): (r: seq<string>)
    ensures forall i :: 0 <= i < |r| ==> Trimmed(r[i])
    ensures forall i :: 0 <= i < |r| ==> ',' !in r[i] && (']' !in text ==> ']' !in r[i])
  {
    var pieces := Text.SplitOn(text, ',');
    KeptTrimmed(pieces);
    KeptAbsent(pieces, ',');
    if ']' !in text then
      forall j | 0 <= j < |pieces| ensures ']' !in pieces[j] {
        SplitPiecesFromText(text, ',', j, ']');
      }
      KeptAbsent(pieces, ']');
      Kept(pieces)
    else
      Kept(pieces)
  }

  /** A character absent from the text is absent from every piece. */
  lemma {:induction false} SplitPiecesFromText(s: string, sep: char, j: nat, c: char)
    requires c !in s && j < |Text.SplitOn(s, sep)|
    ensures c !in Text.SplitOn(s, sep)[j]
    decreases |s|
  {
    if |s| > 0 {
      var rest := Text.SplitOn(s[1..], sep);
      assert c !in s[1..] by {
        forall i | 0 <= i < |s| - 1 ensures s[1..][i] != c {
          assert s[1..][i] == s[i + 1];
        }
      }
      if s[0] == sep {
        if j > 0 {
          SplitPiecesFromText(s[1..], sep, j - 1, c);
        }
      } else if j == 0 {
        SplitPiecesFromText(s[1..], sep, 0, c);
        assert s[0] != c by { assert s[0] in s; }
      } else {
        SplitPiecesFromText(s[1..], sep, j, c);
      }
    }
  }

  /** The three lists `_parse_service` returns. */
  datatype Registered = Registered(agents: seq<string>, workflows: seq<string>, functions: seq<string>)

  const NoneRegistered := Registered([], [], [])

  /** The items of `key=[...]`, or none when the list is absent. */
  function ListOf(content: string, key: string): (r: seq<string>)
    ensures ListText(content, key).None? ==> r == []
    ensures ListText(content, key).Some? ==> r == Items(ListText(content, key).value)
    ensures forall i :: 0 <= i < |r| ==> Trimmed(r[i])
    ensures forall i :: 0 <= i < |r| ==> ',' !in r[i] && ']' !in r[i]
  {
    match ListText(content, key)
    case Some(text) => Items(text)
    case None => []
  }

  /** Every listed name is non-empty, trimmed, and holds neither ',' nor
      ']'. */
  predicate CleanItems(items: seq<string>) {
    forall i :: 0 <= i < |items| ==>
      Trimmed(items[i]) && ',' !in items[i] && ']' !in items[i]
  }

  /** `_parse_service`: the three lists from the file's text, or three
      empty lists when the file cannot be read. */
  function ParseService(read: Option<string>): (r: Registered)
    ensures read.None? ==> r == NoneRegistered
    ensures read.Some? ==> r.agents == ListOf(read.value, "agents")
    ensures read.Some? ==> r.workflows == ListOf(read.value, "workflows")
    ensures read.Some? ==> r.functions == ListOf(read.value, "functions")
    ensures CleanItems(r.agents) && CleanItems(r.workflows) && CleanItems(r.functions)
  {
    match read
    case None => NoneRegistered
    case Some(content) =>
      Registered(ListOf(content, "agents"), ListOf(content, "workflows"), ListOf(content, "functions"))
  }

  /** Reading a path: the text of a regular file; a directory or a missing
      path cannot be read. */
  function Read(fs: FileSystem, p: Path): (r: Option<string>)
    ensures r.Some? <==> p in fs.files
  {
    if p in fs.files then Some(fs.files[p]) else None
  }

  /** A line of the command's output. */
  datatype Line =
    | Heading                                       // "Registered Routes:"
    | Section(title: string, items: seq<string>)    // a title and one bullet per item
    | NoRoutes                                      // "No routes found in project"

  /** `_print_list`: nothing for an empty list. */
  function Listing(title: string, items: seq<string>): (r: seq<Line>)
    ensures r == [] <==> items == []
    ensures r != [] ==> r == [Section(title, items)]
  {
    if items == [] then [] else [Section(title, items)]
  }

  /** The output for the lists found, or for no service.py: a section for
      each non-empty list, and the warning exactly when there is no file or
      every list is empty. */
  function Output(found: Option<Registered>): (r: seq<Line>)
    ensures |r| > 0 && r[0] == Heading
    ensures NoRoutes in r <==> found.None? || found.value == NoneRegistered
    ensures found.Some? && found.value.agents != [] ==> Section("Agents", found.value.agents) in r
    ensures found.Some? && found.value.workflows != [] ==> Section("Workflows", found.value.workflows) in r
    ensures found.Some? && found.value.functions != [] ==> Section("Functions", found.value.functions) in r
  {
    match found
    case None => [Heading, NoRoutes]
    case Some(lists) =>
      var sections := Listing("Agents", lists.agents) + Listing("Workflows", lists.workflows)
        + Listing("Functions", lists.functions);
      assert NoRoutes !in sections;
      var warning := if lists == NoneRegistered then [NoRoutes] else [];
      [Heading] + sections + warning
  }

  /** `RoutesCommand.execute`: always SUCCESS; looks for service.py in the
      project root and reads it when it exists. */
  function Execute(fs: FileSystem, configCwd: Option<RawPath>, cwd: Path): (r: (int, seq<Line>))
    ensures r.0 == 0 && |r.1| > 0 && r.1[0] == Heading
    ensures !Exists(fs, Project.NewStructure(fs, configCwd, cwd).root + ["service.py"]) ==> r.1 == [Heading, NoRoutes]
  {
    var service := Project.NewStructure(fs, configCwd, cwd).root + ["service.py"];
    (0, Output(if Exists(fs, service) then Some(ParseService(Read(fs, service))) else None))
  }

  /** The list sits where the opening first occurs when a ']' follows it. */
  lemma {:induction false} SearchFindsFirst(content: string, open: string, p: nat, body: string)
    requires |open| > 0 && OccursAt(content, open, p)
    requires forall j :: 0 <= j < p ==> !OccursAt(content, open, j)
    requires p + |open| + |body| < |content| && content[p + |open|..p + |open| + |body|] == body
    requires ']' !in body && content[p + |open| + |body|] == ']'
    ensures SearchFrom(content, open, 0) == Some(body)
  {
    FromBefore(content, open, 0, p);
    var q := p + |open| + |body|;
    assert FindChar(content, ']', p + |open|) == Some(q) by {
      FindCharFirst(content, ']', p + |open|, q);
    }
  }

  /** Positions before the first occurrence are skipped. */
  lemma {:induction false} FromBefore(content: string, open: string, k: nat, p: nat)
    requires k <= p && p + |open| <= |content|
    requires forall j :: 0 <= j < p ==> !OccursAt(content, open, j)
    ensures SearchFrom(content, open, k) == SearchFrom(content, open, p)
    decreases p - k
  {
    if k < p {
      FromBefore(content, open, k + 1, p);
    }
  }

  /** `FindChar` stops at the first occurrence. */
  lemma {:induction false} FindCharFirst(s: string, c: char, from: nat, q: nat)
    requires from <= q < |s| && s[q] == c && c !in s[from..q]
    ensures FindChar(s, c, from) == Some(q)
    decreases q - from
  {
    if from < q {
      assert s[from] == s[from..q][0];
      assert s[from + 1..q] == s[from..q][1..];
      FindCharFirst(s, c, from + 1, q);
    }
  }

  /** Without the opening there is no list. */
  lemma {:induction false} SearchAbsent(content: string, open: string, p: nat)
    requires p <= |content|
    requires forall j :: p <= j ==> !OccursAt(content, open, j)
    ensures SearchFrom(content, open, p) == None
    decreases |content| - p
  {
    if p < |content| && p + |open| <= |content| {
      SearchAbsent(content, open, p + 1);
    }
  }

  /** An opening that no ']' follows does not start a list, as
      `re.search` fails when the closing bracket is missing: with no
      closed opening from `p` on there is no list. */
  lemma {:induction false} SearchUnclosed(content: string, open: string, p: nat)
    requires p <= |content|
    requires forall j :: p <= j && OccursAt(content, open, j) ==> ']' !in content[j + |open|..]
    ensures SearchFrom(content, open, p) == None
    decreases |content| - p
  {
    if p < |content| && p + |open| <= |content| {
      SearchUnclosed(content, open, p + 1);
    }
  }

  /** One step of `Kept`. */
  lemma KeptCons(x: string, ps: seq<string>)
    ensures Kept([x] + ps) == if Strip(x) != "" then [Strip(x)] + Kept(ps) else Kept(ps)
  {
    assert ([x] + ps)[1..] == ps;
  }

  /** One space before a word without spaces is stripped. */
  lemma StripLeadingSpace(b: string)
    requires b != [] && forall i :: 0 <= i < |b| ==> !IsSpace(b[i])
    ensures Strip(" " + b) == b
  {
    var s := " " + b;
    assert s[0] == ' ' && s[1..] == b;
    assert StripLeft(s) == StripLeft(b);
    assert StripLeft(b) == b;
    assert StripRight(b) == b;
  }

  lemma SplitTwo(a: string, b: string)
    requires ',' !in a && ',' !in b
    ensures Text.SplitOn(a + ", " + b, ',') == [a, " " + b]
  {
    assert a + ", " + b == a + [','] + (" " + b);
    Text.SplitOnFirst(a, " " + b, ',');
    assert ',' !in " " + b;
    Text.SplitOnAbsent(" " + b, ',');
  }

  /** Splitting names separated by ", " gives each name once, trimmed. */
  lemma ItemsOfTwo(a: string, b: string)
    requires a != [] && b != [] && ',' !in a && ',' !in b
    requires forall i :: 0 <= i < |a| ==> !IsSpace(a[i])
    requires forall i :: 0 <= i < |b| ==> !IsSpace(b[i])
    ensures Items(a + ", " + b) == [a, b]
  {
    ItemsAreKept(a + ", " + b);
    SplitTwo(a, b);
    StripNoSpace(a);
    StripLeadingSpace(b);
    KeptOfTwo(a, b);
  }

  lemma KeptOfTwo(a: string, b: string)
    requires a != [] && b != [] && Strip(a) == a && Strip(" " + b) == b
    ensures Kept([a, " " + b]) == [a, b]
  {
    var sb := " " + b;
    KeptCons(sb, []);
    KeptCons(a, [sb]);
    assert [a, sb] == [a] + [sb];
  }

  lemma ItemsAreKept(text: string)
    ensures Items(text) == Kept(Text.SplitOn(text, ','))
  {
  }

  /** A single name without spaces or commas is a one-item list. */
  lemma ItemsOfOne(a: string)
    requires a != [] && ',' !in a
    requires forall i :: 0 <= i < |a| ==> !IsSpace(a[i])
    ensures Items(a) == [a]
  {
    ItemsAreKept(a);
    Text.SplitOnAbsent(a, ',');
    StripNoSpace(a);
    KeptCons(a, []);
    assert [a] + [] == [a];
  }

  /** `", ".join(items)`: how a list of names is written between the
      brackets. */
  function JoinItems(items: seq<string>): string
    decreases |items|
  {
    if |items| == 0 then ""
    else if |items| == 1 then items[0]
    else items[0] + ", " + JoinItems(items[1..])
  }

  /** Stripping a trimmed string, with or without one leading space,
      gives the string. */
  lemma StripPadded(x: string, pad: string)
    requires Trimmed(x) && (pad == "" || pad == " ")
    ensures Strip(pad + x) == x
  {
    var s := pad + x;
    if pad == " " {
      assert s[1..] == x;
      assert StripLeft(s) == StripLeft(x);
    } else {
      assert s == x;
    }
    assert StripLeft(x) == x;
    assert StripRight(x) == x;
  }

  /** The pieces of a joined list, perhaps after one space, keep as the
      list. */
  lemma {:induction false} KeptOfJoin(items: seq<string>, pad: string)
    requires |items| >= 1 && (pad == "" || pad == " ")
    requires Listable(items)
    ensures Kept(Text.SplitOn(pad + JoinItems(items), ',')) == items
    decreases |items|
  {
    var x := items[0];
    StripPadded(x, pad);
    NoCommaPadded(x, pad);
    if |items| == 1 {
      KeptOfJoinOne(x, pad);
      assert JoinItems(items) == x && items == [x];
    } else {
      var t := " " + JoinItems(items[1..]);
      var pieces := Text.SplitOn(t, ',');
      JoinStep(items, pad);
      Text.SplitOnFirst(pad + x, t, ',');
      assert Text.SplitOn(pad + JoinItems(items), ',') == [pad + x] + pieces;
      ListableTail(items);
      KeptOfJoin(items[1..], " ");
      KeptStep(pad + x, pieces, x, items[1..]);
      assert Kept(Text.SplitOn(pad + JoinItems(items), ',')) == [x] + items[1..];
      ConsTail(items);
    }
  }

  /** Names that can be written in a list and read back. */
  predicate Listable(items: seq<string>) {
    forall i :: 0 <= i < |items| ==> Trimmed(items[i]) && ',' !in items[i]
  }

  lemma ListableTail(items: seq<string>)
    requires |items| >= 1 && Listable(items)
    ensures Listable(items[1..])
  {
    forall i | 0 <= i < |items| - 1 ensures Trimmed(items[1..][i]) && ',' !in items[1..][i] {
      assert items[1..][i] == items[i + 1];
    }
  }

  lemma NoCommaPadded(x: string, pad: string)
    requires ',' !in x && (pad == "" || pad == " ")
    ensures ',' !in pad + x
  {
  }

  lemma KeptOfJoinOne(x: string, pad: string)
    requires ',' !in pad + x && Strip(pad + x) == x && x != ""
    ensures Kept(Text.SplitOn(pad + x, ',')) == [x]
  {
    Text.SplitOnAbsent(pad + x, ',');
    KeptCons(pad + x, []);
    assert [x] + [] == [x];
  }

  lemma JoinStep(items: seq<string>, pad: string)
    requires |items| > 1
    ensures pad + JoinItems(items) == (pad + items[0]) + [','] + (" " + JoinItems(items[1..]))
  {
  }

  lemma KeptStep(a: string, pieces: seq<string>, x: string, rest: seq<string>)
    requires Strip(a) == x && x != ""
    requires Kept(pieces) == rest
    ensures Kept([a] + pieces) == [x] + rest
  {
    KeptCons(a, pieces);
  }

  lemma ConsTail(items: seq<string>)
    requires |items| >= 1
    ensures [items[0]] + items[1..] == items
  {
  }

  /** Parsing a written list gives back its names: for trimmed names
      without ',', `Items` undoes `", ".join`. */
  lemma ItemsRoundTrip(items: seq<string>)
    requires Listable(items)
    ensures Items(JoinItems(items)) == items
  {
    ItemsAreKept(JoinItems(items));
    if |items| == 0 {
      EmptyListText();
    } else {
      KeptOfJoin(items, "");
      assert "" + JoinItems(items) == JoinItems(items);
    }
  }

  /** Writing the parsed names back and parsing again changes nothing. */
  lemma ItemsCanonical(text: string)
    ensures Items(JoinItems(Items(text))) == Items(text)
  {
    ItemsRoundTrip(Items(text));
  }

  /** "[]" registers nothing. */
  lemma EmptyListText()
    ensures Items("") == []
  {
    assert Text.SplitOn("", ',') == [""];
    KeptCons("", []);
  }
}

=== FILE: sanitize.dfy ===
/** Input sanitising of the interactive front end
    (restack_gen/interactive/sanitize.py): turning free text into a project
    name, and scrubbing NUL characters from a path. */
module Sanitize {
  import opened Wrappers
  import opened Chars

  /** Unicode general category Cc (control characters): U+0000..U+001F and
      U+007F..U+009F. */
  predicate IsControl(c: char) {
    c < '\U{20}' || ('\U{7F}' <= c <= '\U{9F}')
  }

  /** Drops the characters of category Cc, the control characters, which
      over the modelled characters is what the filter on categories
      starting with 'C' removes. */
  function DropControl(s: string): (r: string)
    ensures |r| <= |s|
    ensures forall i :: 0 <= i < |r| ==> !IsControl(r[i])
  {
    if |s| == 0 then []
    else (if IsControl(s[0]) then [] else [s[0]]) + DropControl(s[1..])
  }

  /** `re.sub(r"\s+", "-", s)`: every maximal run of whitespace becomes a
      single '-'. */
  function CollapseSpaces(s: string): (r: string)
    ensures |r| <= |s|
    ensures forall i :: 0 <= i < |r| ==> !IsSpace(r[i])
    decreases |s|
  {
    if |s| == 0 then []
    else
      var t := if IsSpace(s[0]) then StripLeft(s) else s[1..];
      assert |t| < |s|;
      (if IsSpace(s[0]) then ['-'] else [s[0]]) + CollapseSpaces(t)
  }

  /** `re.sub(r"[^a-zA-Z0-9_-]", "", s)`. */
  function KeepNameChars(s: string): (r: string)
    ensures |r| <= |s|
    ensures AllNameChars(r)
  {
    if |s| == 0 then []
    else (if IsNameChar(s[0]) then [s[0]] else []) + KeepNameChars(s[1..])
  }

  /** What `^[a-zA-Z_]` accepts at the front of a string. */
  predicate IsNameStart(c: char) {
    IsAlpha(c) || c == '_'
  }

  /** The shape of every sanitised name: only name characters, and a
      letter or '_' first. */
  predicate IsSanitized(s: string) {
    AllNameChars(s) && (|s| > 0 ==> IsNameStart(s[0]))
  }

  /** The letters and digits of `s`, in order. */
  function Alnums(s: string): (r: string)
    ensures |r| <= |s|
  {
    if |s| == 0 then []
    else (if IsAlnum(s[0]) then [s[0]] else []) + Alnums(s[1..])
  }

  /** `InputSanitizer.sanitize_project_name`. */
  function SanitizeProjectName(name: string): (r: string)
    ensures IsSanitized(r)
    ensures Alnums(r) == Alnums(name)
  {
    var a := DropControl(name);
    var b := Strip(a);
    var c := CollapseSpaces(b);
    var d := KeepNameChars(c);
    SanitizeAlnums(name);
    PrefixUnderscore(d);
    if |d| > 0 && !IsNameStart(d[0]) then "_" + d else d
  }

  /** The '_' prefix keeps a name of name characters one, and adds no
      letter or digit. */
  lemma PrefixUnderscore(d: string)
    requires AllNameChars(d)
    ensures IsSanitized("_" + d) && Alnums("_" + d) == Alnums(d)
  {
    AlnumsAppend("_", d);
    assert forall i :: 1 <= i < |"_" + d| ==> ("_" + d)[i] == d[i - 1];
  }

  // Alnums through each step.

  lemma {:induction false} AlnumsAppend(a: string, b: string)
    ensures Alnums(a + b) == Alnums(a) + Alnums(b)
    decreases |a|
  {
    if |a| > 0 {
      AlnumsAppend(a[1..], b);
      assert (a + b)[0] == a[0];
      assert (a + b)[1..] == a[1..] + b;
    } else {
      assert a + b == b;
    }
  }

  lemma {:induction false} AlnumsOfSpaces(s: string)
    requires forall i :: 0 <= i < |s| ==> IsSpace(s[i])
    ensures Alnums(s) == []
    decreases |s|
  {
    if |s| > 0 {
      AlnumsOfSpaces(s[1..]);
    }
  }

  lemma {:induction false} AlnumsDropControl(s: string)
    ensures Alnums(DropControl(s)) == Alnums(s)
    decreases |s|
  {
    if |s| > 0 {
      AlnumsDropControl(s[1..]);
      AlnumsAppend(if IsControl(s[0]) then [] else [s[0]], DropControl(s[1..]));
    }
  }

  lemma AlnumsStripLeft(s: string)
    ensures Alnums(StripLeft(s)) == Alnums(s)
  {
    var l := StripLeft(s);
    assert s == s[..|s| - |l|] + l;
    AlnumsAppend(s[..|s| - |l|], l);
    AlnumsOfSpaces(s[..|s| - |l|]);
  }

  lemma AlnumsStripRight(s: string)
    ensures Alnums(StripRight(s)) == Alnums(s)
  {
    var r := StripRight(s);
    assert s == r + s[|r|..];
    AlnumsAppend(r, s[|r|..]);
    AlnumsOfSpaces(s[|r|..]);
  }

  lemma AlnumsStrip(s: string)
    ensures Alnums(Strip(s)) == Alnums(s)
  {
    AlnumsStripLeft(s);
    AlnumsStripRight(StripLeft(s));
  }

  lemma {:induction false} AlnumsCollapseSpaces(s: string)
    ensures Alnums(CollapseSpaces(s)) == Alnums(s)
    decreases |s|
  {
    if |s| > 0 {
      var t := if IsSpace(s[0]) then StripLeft(s) else s[1..];
      var h := if IsSpace(s[0]) then ['-'] else [s[0]];
      assert CollapseSpaces(s) == h + CollapseSpaces(t);
      AlnumsCollapseSpaces(t);
      AlnumsAppend(h, CollapseSpaces(t));
      if IsSpace(s[0]) {
        AlnumsStripLeft(s);
        assert Alnums(h) == [];
      } else {
        assert Alnums(h) == if IsAlnum(s[0]) then [s[0]] else [];
      }
    }
  }

  lemma {:induction false} AlnumsKeepNameChars(s: string)
    ensures Alnums(KeepNameChars(s)) == Alnums(s)
    decreases |s|
  {
    if |s| > 0 {
      AlnumsKeepNameChars(s[1..]);
      AlnumsAppend(if IsNameChar(s[0]) then [s[0]] else [], KeepNameChars(s[1..]));
    }
  }

  /** Sanitising keeps every letter and digit, in order, and adds none. */
  lemma SanitizeAlnums(name: string)
    ensures Alnums(KeepNameChars(CollapseSpaces(Strip(DropControl(name))))) == Alnums(name)
  {
    AlnumsDropControl(name);
    AlnumsStrip(DropControl(name));
    AlnumsCollapseSpaces(Strip(DropControl(name)));
    AlnumsKeepNameChars(CollapseSpaces(Strip(DropControl(name))));
  }

  // Each step leaves a sanitised name alone.

  lemma {:induction false} DropControlOfNameChars(s: string)
    requires AllNameChars(s)
    ensures DropControl(s) == s
    decreases |s|
  {
    if |s| > 0 {
      DropControlOfNameChars(s[1..]);
      assert s == [s[0]] + s[1..];
    }
  }

  lemma {:induction false} CollapseSpacesOfNameChars(s: string)
    requires AllNameChars(s)
    ensures CollapseSpaces(s) == s
    decreases |s|
  {
    if |s| > 0 {
      CollapseSpacesOfNameChars(s[1..]);
      assert s == [s[0]] + s[1..];
    }
  }

  lemma {:induction false} KeepNameCharsOfNameChars(s: string)
    requires AllNameChars(s)
    ensures KeepNameChars(s) == s
    decreases |s|
  {
    if |s| > 0 {
      KeepNameCharsOfNameChars(s[1..]);
      assert s == [s[0]] + s[1..];
    }
  }

  /** A sanitised name is a fixed point, so sanitising is idempotent. */
  lemma SanitizeFixpoint(s: string)
    requires IsSanitized(s)
    ensures SanitizeProjectName(s) == s
  {
    DropControlOfNameChars(s);
    StripNoSpace(s);
    CollapseSpacesOfNameChars(s);
    KeepNameCharsOfNameChars(s);
  }

  lemma SanitizeIdempotent(name: string)
    ensures SanitizeProjectName(SanitizeProjectName(name)) == SanitizeProjectName(name)
  {
    SanitizeFixpoint(SanitizeProjectName(name));
  }

  /** Neither a name character nor whitespace anywhere in `s`. */
  predicate Inert(s: string) {
    forall i :: 0 <= i < |s| ==> !IsNameChar(s[i]) && !IsSpace(s[i])
  }

  lemma {:induction false} InertDropControl(s: string)
    requires Inert(s)
    ensures Inert(DropControl(s))
    decreases |s|
  {
    if |s| > 0 {
      InertDropControl(s[1..]);
      var h := if IsControl(s[0]) then [] else [s[0]];
      var r := DropControl(s);
      assert r == h + DropControl(s[1..]);
      assert forall i :: |h| <= i < |r| ==> r[i] == DropControl(s[1..])[i - |h|];
    }
  }

  lemma InertStrip(s: string)
    requires Inert(s)
    ensures Inert(Strip(s))
  {
    var k :| OccursAt(s, Strip(s), k);
    assert forall i :: 0 <= i < |Strip(s)| ==> Strip(s)[i] == s[k + i];
  }

  lemma {:induction false} CollapseSpacesOfNoSpace(s: string)
    requires forall i :: 0 <= i < |s| ==> !IsSpace(s[i])
    ensures CollapseSpaces(s) == s
    decreases |s|
  {
    if |s| > 0 {
      CollapseSpacesOfNoSpace(s[1..]);
      assert s == [s[0]] + s[1..];
    }
  }

  lemma {:induction false} KeepNameCharsNone(s: string)
    requires forall i :: 0 <= i < |s| ==> !IsNameChar(s[i])
    ensures KeepNameChars(s) == []
    decreases |s|
  {
    if |s| > 0 {
      KeepNameCharsNone(s[1..]);
    }
  }

  /** Text with no name character and no whitespace sanitises to nothing:
      the '_' prefix is only ever put in front of something. */
  lemma SanitizeNothing(name: string)
    requires Inert(name)
    ensures SanitizeProjectName(name) == ""
  {
    InertDropControl(name);
    InertStrip(DropControl(name));
    CollapseSpacesOfNoSpace(Strip(DropControl(name)));
    KeepNameCharsNone(Strip(DropControl(name)));
  }

  // Sanitising names of a common shape.

  /** No control character anywhere in `s`. */
  predicate NoControl(s: string) {
    forall i :: 0 <= i < |s| ==> !IsControl(s[i])
  }

  lemma {:induction false} DropControlOfNoControl(s: string)
    requires NoControl(s)
    ensures DropControl(s) == s
    decreases |s|
  {
    if |s| > 0 {
      DropControlOfNoControl(s[1..]);
      assert s == [s[0]] + s[1..];
    }
  }

  /** A control character between two control-free pieces is deleted. */
  lemma DropControlSplice(a: string, c: char, b: string)
    requires NoControl(a) && IsControl(c) && NoControl(b)
    ensures DropControl(a + [c] + b) == a + b
  {
    var t := [c] + b;
    assert a + [c] + b == a + t;
    DropControlAppend(a, t);
    DropControlOfNoControl(a);
    assert t[0] == c && t[1..] == b;
    DropControlOfNoControl(b);
    assert DropControl(t) == b;
  }

  lemma {:induction false} DropControlAppend(a: string, b: string)
    ensures DropControl(a + b) == DropControl(a) + DropControl(b)
    decreases |a|
  {
    if |a| > 0 {
      DropControlAppend(a[1..], b);
      assert (a + b)[0] == a[0];
      assert (a + b)[1..] == a[1..] + b;
    } else {
      assert a + b == b;
    }
  }

  /** The pipeline after `DropControl` leaves a sanitised name alone, so
      only the control characters of such an input are lost. */
  lemma SanitizeAfterDrop(name: string)
    requires IsSanitized(DropControl(name))
    ensures SanitizeProjectName(name) == DropControl(name)
  {
    var d := DropControl(name);
    StripNoSpace(d);
    CollapseSpacesOfNameChars(d);
    KeepNameCharsOfNameChars(d);
  }

  /** A name of name characters that does not start with a letter or '_'
      gets a '_' in front and is otherwise kept. */
  lemma SanitizeBadStart(name: string)
    requires AllNameChars(name) && |name| > 0 && !IsNameStart(name[0])
    ensures SanitizeProjectName(name) == "_" + name
  {
    DropControlOfNameChars(name);
    StripNoSpace(name);
    CollapseSpacesOfNameChars(name);
    KeepNameCharsOfNameChars(name);
  }

  lemma {:induction false} CollapseSpacesAppend(a: string, t: string)
    requires forall i :: 0 <= i < |a| ==> !IsSpace(a[i])
    ensures CollapseSpaces(a + t) == a + CollapseSpaces(t)
    decreases |a|
  {
    if |a| > 0 {
      CollapseSpacesAppend(a[1..], t);
      assert (a + t)[1..] == a[1..] + t;
      assert (a + t)[0] == a[0];
    } else {
      assert a + t == t;
    }
  }

  lemma CollapseSpacesSingle(b: string)
    requires |b| > 0 && !IsSpace(b[0])
    ensures CollapseSpaces([' '] + b) == ['-'] + CollapseSpaces(b)
  {
    assert ([' '] + b)[1..] == b;
  }

  lemma CollapseSpacesJoin(a: string, b: string)
    requires AllNameChars(a) && |b| > 0 && AllNameChars(b)
    ensures CollapseSpaces(a + " " + b) == a + "-" + b
  {
    NameCharsNoSpace(a);
    NameCharsNoSpace(b);
    CollapseSpacesOfNameChars(b);
    CollapseSpacesSpaceJoin(a, b);
  }

  lemma CollapseSpacesSpaceJoin(a: string, b: string)
    requires forall i :: 0 <= i < |a| ==> !IsSpace(a[i])
    requires |b| > 0 && !IsSpace(b[0])
    ensures CollapseSpaces(a + " " + b) == a + "-" + CollapseSpaces(b)
  {
    var t := [' '] + b;
    CollapseSpacesAppend(a, t);
    CollapseSpacesSingle(b);
    JoinShape(a, b, ' ');
    JoinShape(a, CollapseSpaces(b), '-');
  }

  lemma JoinShape(a: string, b: string, c: char)
    ensures a + [c] + b == a + ([c] + b)
  {
  }

  lemma NameCharsNoSpace(a: string)
    requires AllNameChars(a)
    ensures forall i :: 0 <= i < |a| ==> !IsSpace(a[i])
  {
  }

  lemma JoinNoControl(a: string, b: string)
    requires AllNameChars(a) && AllNameChars(b)
    ensures NoControl(a + " " + b) && AllNameChars(a + "-" + b)
  {
    var s := a + " " + b;
    var t := a + "-" + b;
    assert forall i :: 0 <= i < |s| ==> s[i] == (if i < |a| then a[i] else if i == |a| then ' ' else b[i - |a| - 1]);
    assert forall i :: 0 <= i < |t| ==> t[i] == (if i < |a| then a[i] else if i == |a| then '-' else b[i - |a| - 1]);
  }

  /** Two words separated by one space are joined with '-'. */
  lemma SanitizeSpaceJoin(a: string, b: string)
    requires |a| > 0 && IsSanitized(a) && |b| > 0 && AllNameChars(b)
    ensures SanitizeProjectName(a + " " + b) == a + "-" + b
  {
    var s := a + " " + b;
    JoinNoControl(a, b);
    DropControlOfNoControl(s);
    assert s[0] == a[0] && s[|s| - 1] == b[|b| - 1];
    StripLeftRight(s);
    CollapseSpacesJoin(a, b);
    KeepNameCharsOfNameChars(a + "-" + b);
  }

  lemma StripLeftRight(s: string)
    requires |s| > 0 && !IsSpace(s[0]) && !IsSpace(s[|s| - 1])
    ensures Strip(s) == s
  {
  }

  /** `InputSanitizer.sanitize_path`: every NUL is deleted, then the text
      is resolved; `resolve` stands for `Path(p).expanduser().resolve()`
      and its failure for the exception, after which the NUL-free text is
      returned as it is. */
  function SanitizePath(path: string, resolve: string -> Result<string, string>): (r: string)
    ensures resolve(Delete(path, '\0')).Success? ==> r == resolve(Delete(path, '\0')).value
    ensures resolve(Delete(path, '\0')).Failure? ==> r == Delete(path, '\0') && '\0' !in r
  {
    var p := Delete(path, '\0');
    match resolve(p)
    case Success(resolved) => resolved
    case Failure(_) => p
  }
}

=== FILE: template_catalogue.dfy ===
/** Project templates for the interactive front end
    (restack_gen/interactive/templates.py): the fixed catalogue, the
    templates offered for a language, and the selection of a template from
    the replies typed at the prompt. The prompt is not modelled: the replies
    are an input sequence, and running out of replies ends the selection
    without a template. */
module TemplateCatalogue {
  import opened Wrappers
  import opened Chars

  datatype Template = Template(
    id: string,
    name: string,
    description: string,
    language: string,
    features: seq<string>,
    packageManager: Option<string>)

  const Catalogue: seq<Template> := [
    Template("py-minimal", "Python Minimal", "Bare-bones Python project", "py",
             ["basic-structure"], None),
    Template("py-api", "Python API", "FastAPI + Docker", "py",
             ["fastapi", "docker", "git"], Some("uv")),
    Template("ts-minimal", "TypeScript Minimal", "Basic TS project", "ts",
             ["basic-structure"], None)
  ]

  predicate DistinctIds(ts: seq<Template>) {
    forall i, j :: 0 <= i < j < |ts| ==> ts[i].id != ts[j].id
  }

  /** `{t.id: t for t in ts}`: a later template with the same id wins. */
  function ById(ts: seq<Template>): (r: map<string, Template>)
    ensures forall id :: id in r ==> r[id].id == id
    decreases |ts|
  {
    if ts == [] then map[]
    else
      var last := ts[|ts| - 1];
      ById(ts[..|ts| - 1])[last.id := last]
  }

  /** Each id of the list is a key, and with distinct ids each maps to its
      own template. */
  lemma {:induction false} ByIdFinds(ts: seq<Template>, i: nat)
    requires DistinctIds(ts) && i < |ts|
    ensures ts[i].id in ById(ts) && ById(ts)[ts[i].id] == ts[i]
    decreases |ts|
  {
    var init := ts[..|ts| - 1];
    if i < |ts| - 1 {
      assert init[i] == ts[i];
      assert DistinctIds(init) by {
        forall a, b | 0 <= a < b < |init| ensures init[a].id != init[b].id {
          assert init[a] == ts[a] && init[b] == ts[b];
        }
      }
      ByIdFinds(init, i);
    }
  }

  /** Only ids of the list are keys. */
  lemma {:induction false} ByIdKeys(ts: seq<Template>, id: string)
    ensures id in ById(ts) <==> exists i :: 0 <= i < |ts| && ts[i].id == id
    decreases |ts|
  {
    if ts != [] {
      var init := ts[..|ts| - 1];
      ByIdKeys(init, id);
      if id in ById(init) {
        var i :| 0 <= i < |init| && init[i].id == id;
        assert ts[i] == init[i];
      }
      if exists i :: 0 <= i < |ts| && ts[i].id == id {
        var i :| 0 <= i < |ts| && ts[i].id == id;
        if i < |init| {
          assert init[i] == ts[i];
        }
      }
    }
  }

  /** The catalogue has three templates with distinct ids, and the
      selector's map has one entry for each. */
  lemma CatalogueShape()
    ensures |Catalogue| == 3 && DistinctIds(Catalogue)
    ensures forall i :: 0 <= i < |Catalogue| ==>
      Catalogue[i].id in ById(Catalogue) && ById(Catalogue)[Catalogue[i].id] == Catalogue[i]
    ensures forall id :: id in ById(Catalogue) <==> id in {"py-minimal", "py-api", "ts-minimal"}
  {
    assert DistinctIds(Catalogue);
    forall i | 0 <= i < |Catalogue|
      ensures Catalogue[i].id in ById(Catalogue) && ById(Catalogue)[Catalogue[i].id] == Catalogue[i]
    {
      ByIdFinds(Catalogue, i);
    }
    forall id ensures id in ById(Catalogue) <==> id in {"py-minimal", "py-api", "ts-minimal"} {
      ByIdKeys(Catalogue, id);
      if id in {"py-minimal", "py-api", "ts-minimal"} {
        assert id == Catalogue[0].id || id == Catalogue[1].id || id == Catalogue[2].id;
      }
    }
  }

  /** The templates whose language is `language`, in catalogue order. */
  function OfLanguage(ts: seq<Template>, language: string): (r: seq<Template>)
    ensures |r| <= |ts|
    decreases |ts|
  {
    if ts == [] then []
    else
      var rest := OfLanguage(ts[1..], language);
      if ts[0].language == language then [ts[0]] + rest else rest
  }

  lemma {:induction false} OfLanguageMembers(ts: seq<Template>, language: string, t: Template)
    ensures t in OfLanguage(ts, language) <==> t in ts && t.language == language
    decreases |ts|
  {
    if ts != [] {
      OfLanguageMembers(ts[1..], language, t);
      assert ts == [ts[0]] + ts[1..];
    }
  }

  /** A language argument that Python treats as false: None or "". */
  predicate NoLanguage(language: Option<string>) {
    language.None? || language.value == ""
  }

  /** The templates `prompt_template` offers. */
  function Available(language: Option<string>): (r: seq<Template>)
    ensures NoLanguage(language) ==> r == Catalogue
  {
    if NoLanguage(language) then Catalogue else OfLanguage(Catalogue, language.value)
  }

  /** A template is offered exactly when no language is given or it is the
      template's language. */
  lemma AvailableMembers(language: Option<string>, t: Template)
    ensures t in Available(language) <==> t in Catalogue && (NoLanguage(language) || t.language == language.value)
  {
    if !NoLanguage(language) {
      OfLanguageMembers(Catalogue, language.value, t);
    }
  }

  /** "py" offers the two Python templates and "ts" the TypeScript one,
      in catalogue order. */
  lemma AvailableByLanguage()
    ensures Available(Some("py")) == Catalogue[..2]
    ensures Available(Some("ts")) == Catalogue[2..]
  {
    var c := Catalogue;
    assert c[1..][1..] == [c[2]];
    assert [c[2]][1..] == [];
    assert OfLanguage([c[2]], "py") == [];
    assert OfLanguage([c[2]], "ts") == [c[2]];
    assert OfLanguage(c[1..], "py") == [c[1]];
    assert OfLanguage(c[1..], "ts") == [c[2]];
  }

  /** The menu: the id and name of each offered template. */
  function Menu(language: Option<string>): (r: seq<(string, string)>)
    ensures |r| == |Available(language)|
    ensures forall i :: 0 <= i < |r| ==> r[i].0 in ById(Catalogue) && r[i].1 == ById(Catalogue)[r[i].0].name
  {
    var ts := Available(language);
    seq(|ts|, i requires 0 <= i < |ts| =>
      AvailableMembers(language, ts[i]);
      CatalogueShape();
      assert ts[i] in Catalogue;
      (ts[i].id, ts[i].name))
  }

  /** A reply, stripped and lowercased. */
  function Normalize(reply: string): string {
    Lower(Strip(reply))
  }

  /** The selector's map from id to template. */
  function Selector(): (r: map<string, Template>)
    ensures forall id :: id in r ==> r[id] in Catalogue && r[id].id == id
  {
    CatalogueShape();
    var r := ById(Catalogue);
    forall id | id in r ensures r[id] in Catalogue {
      ByIdKeys(Catalogue, id);
      var i :| 0 <= i < |Catalogue| && Catalogue[i].id == id;
      ByIdFinds(Catalogue, i);
    }
    r
  }

  /** A reply is accepted when it normalizes to a key of `table`. */
  predicate Accepts(table: map<string, Template>, reply: string) {
    Normalize(reply) in table
  }

  /** The index of the first of `keys`, at or after `from`, that is a key
      of `table`. */
  function FirstIn(table: map<string, Template>, keys: seq<string>, from: nat): (r: Option<nat>)
    requires from <= |keys|
    ensures r.Some? ==>
      (from <= r.value < |keys| && keys[r.value] in table
       && forall j :: from <= j < r.value ==> keys[j] !in table)
    ensures r.None? ==> forall j :: from <= j < |keys| ==> keys[j] !in table
    decreases |keys| - from
  {
    if from == |keys| then None
    else if keys[from] in table then Some(from)
    else FirstIn(table, keys, from + 1)
  }

  /** Every reply, stripped and lowercased. */
  function NormalizeAll(replies: seq<string>): (r: seq<string>)
    ensures |r| == |replies| && forall j :: 0 <= j < |r| ==> r[j] == Normalize(replies[j])
  {
    seq(|replies|, j requires 0 <= j < |replies| => Normalize(replies[j]))
  }

  /** `prompt_template`: rejected replies prompt again; the first reply
      that names an id of the whole catalogue, whatever language was asked
      for, selects that template. */
  function PromptTemplate(language: Option<string>, replies: seq<string>): (r: Option<Template>)
    ensures r.Some? <==> exists j :: 0 <= j < |replies| && Accepts(Selector(), replies[j])
    ensures r.Some? ==> r.value in Catalogue
    ensures r.Some? ==>
      exists k :: 0 <= k < |replies| && Normalize(replies[k]) == r.value.id
        && forall j :: 0 <= j < k ==> !Accepts(Selector(), replies[j])
  {
    var table := Selector();
    var keys := NormalizeAll(replies);
    match FirstIn(table, keys, 0)
    case None => None
    case Some(k) => Some(table[keys[k]])
  }

  /** The search stops at the first key of the table. */
  lemma {:induction false} FirstInAt(table: map<string, Template>, keys: seq<string>, from: nat, k: nat)
    requires from <= k < |keys| && keys[k] in table
    requires forall j :: from <= j < k ==> keys[j] !in table
    ensures FirstIn(table, keys, from) == Some(k)
    decreases k - from
  {
    if from < k {
      FirstInAt(table, keys, from + 1, k);
    }
  }

  /** A reply equal to a template's id, in any case and with surrounding
      spaces, selects that template even when its language was not asked
      for. */
  lemma PicksById(language: Option<string>, i: nat, pre: seq<string>, reply: string, post: seq<string>)
    requires i < |Catalogue| && Normalize(reply) == Catalogue[i].id
    requires forall j :: 0 <= j < |pre| ==> !Accepts(Selector(), pre[j])
    ensures PromptTemplate(language, pre + [reply] + post) == Some(Catalogue[i])
  {
    var replies := pre + [reply] + post;
    var table := Selector();
    var keys := NormalizeAll(replies);
    CatalogueShape();
    assert keys[|pre|] == Catalogue[i].id;
    forall j | 0 <= j < |pre| ensures keys[j] !in table {
      assert replies[j] == pre[j];
    }
    FirstInAt(table, keys, 0, |pre|);
  }
}

=== FILE: template_examples.dfy ===
/** The template context the tool's unit tests expect
    (tests/test_templates.py): the derived forms of "test_name" and
    "my_app", the fallback of the application name, and a custom value. */
module TemplateExamples {
  import opened Wrappers
  import opened Chars
  import opened Text
  import opened Templates
  import opened TextExamples

  /** `pascal_case` of two lowercase pieces joined by '_'. */
  lemma PascalOfTwo(s: string, a: string, b: string, ca: char, cb: char, r: string)
    requires s == a + ['_'] + b && NoUpper(s) && '_' !in a && '_' !in b
    requires |a| > 0 && |b| > 0 && UpperChar(a[0]) == ca && UpperChar(b[0]) == cb
    requires r == ([ca] + a[1..]) + ([cb] + b[1..])
    ensures PascalCase(s) == r
  {
    assert NoUpper(a) && NoUpper(b) by {
      forall i | 0 <= i < |a| ensures !IsUpper(a[i]) { assert a[i] == s[i]; }
      forall i | 0 <= i < |b| ensures !IsUpper(b[i]) { assert b[i] == s[|a| + 1 + i]; }
    }
    PascalOfLower(s);
    SplitTwo(s, a, b);
    ConcatCapitalizeTwo([a, b]);
    CapitalizeWord(a, ca);
    CapitalizeWord(b, cb);
    assert PascalCase(s) == Capitalize(a) + Capitalize(b);
  }

  /** The facts `PascalOfTwo` needs about "test_name". */
  lemma PiecesTestName(s: string, a: string, b: string, r: string)
    requires s == "test_name" && a == "test" && b == "name" && r == "TestName"
    ensures s == a + ['_'] + b && NoUpper(s) && '_' !in a && '_' !in b
    ensures |a| > 0 && |b| > 0 && UpperChar(a[0]) == 'T' && UpperChar(b[0]) == 'N'
    ensures r == (['T'] + a[1..]) + (['N'] + b[1..])
  {
    assert NoUpper("test_name");
  }

  lemma PiecesMyApp(s: string, a: string, b: string, r: string)
    requires s == "my_app" && a == "my" && b == "app" && r == "MyApp"
    ensures s == a + ['_'] + b && NoUpper(s) && '_' !in a && '_' !in b
    ensures |a| > 0 && |b| > 0 && UpperChar(a[0]) == 'M' && UpperChar(b[0]) == 'A'
    ensures r == (['M'] + a[1..]) + (['A'] + b[1..])
  {
    assert NoUpper("my_app");
  }

  lemma PascalTestName(s: string)
    requires s == "test_name"
    ensures PascalCase(s) == "TestName"
  {
    PiecesTestName(s, "test", "name", "TestName");
    PascalOfTwo(s, "test", "name", 'T', 'N', "TestName");
  }

  lemma PascalMyApp(s: string)
    requires s == "my_app"
    ensures PascalCase(s) == "MyApp"
  {
    PiecesMyApp(s, "my", "app", "MyApp");
    PascalOfTwo(s, "my", "app", 'M', 'A', "MyApp");
  }

  /** `kebab_case` of an uppercase-free name only turns '_' into '-'. */
  lemma KebabOfLower(s: string)
    requires NoUpper(s)
    ensures KebabCase(s) == Replace(s, '_', '-')
  {
    SnakeCaseFixpoints(s);
  }

  lemma HyphenateTestName(s: string)
    requires s == "test_name"
    ensures NoUpper(s) && Replace(s, '_', '-') == "test-name"
  {
    assert NoUpper("test_name");
    assert Replace("test_name", '_', '-') == "test-name";
  }

  lemma HyphenateMyApp(s: string)
    requires s == "my_app"
    ensures NoUpper(s) && Replace(s, '_', '-') == "my-app"
  {
    assert NoUpper("my_app");
    assert Replace("my_app", '_', '-') == "my-app";
  }

  lemma KebabTestName(s: string)
    requires s == "test_name"
    ensures SnakeCase(s) == s && KebabCase(s) == "test-name"
  {
    HyphenateTestName(s);
    SnakeCaseFixpoints(s);
    KebabOfLower(s);
  }

  lemma KebabMyApp(s: string)
    requires s == "my_app"
    ensures SnakeCase(s) == s && KebabCase(s) == "my-app"
  {
    HyphenateMyApp(s);
    SnakeCaseFixpoints(s);
    KebabOfLower(s);
  }

  /** `build_template_context("test_name", "my_app")`: the name forms, the
      application-name forms and the four defaults the tests expect. */
  lemma ContextTestName(name: string, app: string)
    requires name == "test_name" && app == "my_app"
    ensures var c := BuildTemplateContext(name, Some(app), map[]);
      && c[Fixed(Name)] == StrValue("test_name") && c[Fixed(AppName)] == StrValue("my_app")
      && c[Fixed(SnakeName)] == StrValue("test_name")
      && c[Fixed(PascalName)] == StrValue("TestName")
      && c[Fixed(KebabName)] == StrValue("test-name")
      && c[Fixed(SnakeAppName)] == StrValue("my_app")
      && c[Fixed(PascalAppName)] == StrValue("MyApp")
      && c[Fixed(KebabAppName)] == StrValue("my-app")
      && c[Fixed(TimeoutSeconds)] == IntValue(30)
      && c[Fixed(Timeout)] == StrValue("30s")
      && c[Fixed(RetryPolicyJson)] == StrValue("{}")
      && c[Fixed(DefaultQueue)] == StrValue("default")
  {
    ContextNameForms(name, Some(app));
    ContextAppForms(name, Some(app));
    ContextDefaults(name, Some(app));
    PascalTestName(name);
    PascalMyApp(app);
    KebabTestName(name);
    KebabMyApp(app);
  }

  /** `build_template_context("test_name", app_name="my_app")`, the call of
      the tests and of the generate command: the keyword is bound to the
      parameter, so the context is that of the positional call. */
  lemma ContextAppNameKeyword(name: string, app: string, kwargs: map<string, Value>)
    requires name == "test_name" && app == "my_app" && kwargs == map["app_name" := StrValue(app)]
    ensures BuildFromKeywords(name, None, kwargs) == BuildFromKeywords(name, Some(app), map[])
    ensures BuildFromKeywords(name, None, kwargs).Success?
    ensures BuildFromKeywords(name, None, kwargs).value[Fixed(AppName)] == StrValue("my_app")
  {
    var none: map<string, Value> := map[];
    assert kwargs == none["app_name" := StrValue(app)];
    AppNameKeywordIsPositional(name, app, none);
    assert BoundAppName(None, kwargs) == Success(Some(app));
  }

  /** An application name passed both by position and by keyword is a
      `TypeError`. */
  lemma ContextAppNameTwice(kwargs: map<string, Value>)
    requires kwargs == map["app_name" := StrValue("b")]
    ensures BuildFromKeywords("test_name", Some("a"), kwargs).Failure?
  {
  }

  /** Without an application name, the entity name stands in for it. */
  lemma ContextDefaultApp(name: string)
    requires name == "test_name"
    ensures var c := BuildTemplateContext(name, None, map[]);
      c[Fixed(AppName)] == StrValue("test_name") && c[Fixed(SnakeAppName)] == StrValue("test_name")
  {
    ContextAppForms(name, None);
    KebabTestName(name);
  }

  /** A keyword argument becomes a variable of its own. */
  lemma ContextCustom(name: string, kwargs: map<string, Value>)
    requires name == "test_name" && kwargs == map["custom_var" := StrValue("value")]
    ensures BuildFromKeywords(name, None, kwargs).Success?
    ensures BuildFromKeywords(name, None, kwargs).value[KeyOf("custom_var")] == StrValue("value")
  {
  }

  /** `snake_name="x"` replaces the derived snake form. */
  lemma ContextSnakeOverride(name: string, kwargs: map<string, Value>)
    requires name == "test_name" && kwargs == map["snake_name" := StrValue("x")]
    ensures BuildFromKeywords(name, None, kwargs).Success?
    ensures BuildFromKeywords(name, None, kwargs).value[Fixed(SnakeName)] == StrValue("x")
  {
    KeywordOverridesFixed(name, None, kwargs, SnakeName);
  }

  /** `name=` among the keyword arguments is a `TypeError`. */
  lemma ContextNameKeywordRejected(kwargs: map<string, Value>)
    requires kwargs == map["name" := StrValue("x")]
    ensures BuildFromKeywords("test_name", None, kwargs).Failure?
  {
  }
}

=== FILE: templates.dfy ===
/** Template loading and the template context (restack_gen/core/templates.py).
    The Jinja2 environment is a two-state value created on first use; the
    template directory is a path of the modelled file system; the context
    is a map from variable names to values. */
module Templates {
  import opened Wrappers
  import opened Chars
  import opened Fs
  import Text

  /** The identity of the Jinja2 `Environment` object, as handed out. */
  type EnvId = nat

  datatype EnvState = Uninitialized | Ready(env: EnvId)

  datatype Engine = Engine(templatesDir: Path, state: EnvState)

  /** `TemplateEngine(templates_dir)`: no environment yet. */
  function NewEngine(templatesDir: Path): (e: Engine)
    ensures e.templatesDir == templatesDir && e.state == Uninitialized
  {
    Engine(templatesDir, Uninitialized)
  }

  const JinjaMissingMessage :=
    "Jinja2 is required for template rendering. Install with: pip install jinja2"

  /** The `env` property. `jinjaAvailable` says whether the import
      succeeds, and `created` is the environment a first access creates. */
  function Env(e: Engine, jinjaAvailable: bool, created: EnvId): (r: Result<(Engine, EnvId), string>)
    ensures e.state.Ready? ==> r == Success((e, e.state.env))
    ensures e.state.Uninitialized? && jinjaAvailable ==>
      r == Success((e.(state := Ready(created)), created))
    ensures r.Failure? <==> e.state.Uninitialized? && !jinjaAvailable
    ensures r.Failure? ==> r.error == JinjaMissingMessage
    ensures r.Success? ==> r.value.0.templatesDir == e.templatesDir && r.value.0.state == Ready(r.value.1)
  {
    match e.state
    case Ready(env) => Success((e, env))
    case Uninitialized =>
      if jinjaAvailable then Success((e.(state := Ready(created)), created))
      else Failure(JinjaMissingMessage)
  }

  /** After a successful access every further access returns the same
      environment and changes nothing, whatever the import would do now. */
  lemma EnvStable(e: Engine, jinjaAvailable: bool, created: EnvId, available2: bool, created2: EnvId)
    requires Env(e, jinjaAvailable, created).Success?
    ensures var (e1, env1) := Env(e, jinjaAvailable, created).value;
      Env(e1, available2, created2) == Success((e1, env1))
  {
  }

  /** A failed import leaves the engine as it was, so a later access may
      still succeed. */
  lemma EnvRetry(e: Engine, created: EnvId)
    requires e.state.Uninitialized?
    ensures Env(e, false, created).Failure?
    ensures Env(e, true, created) == Success((e.(state := Ready(created)), created))
  {
  }

  /** `TemplateEngine.render`: the environment is fetched first (and
      kept, even when loading or rendering the template then fails), and
      `load` stands for Jinja2's `get_template(...).render(context)` on
      that environment. The engine is returned with the outcome. */
  function Render(e: Engine, jinjaAvailable: bool, created: EnvId,
                  load: (EnvId, string, Context) -> Result<string, string>,
                  templateName: string, context: Context): (r: (Engine, Result<string, string>))
    ensures !jinjaAvailable && e.state.Uninitialized? ==> r == (e, Failure(JinjaMissingMessage))
    ensures jinjaAvailable || e.state.Ready? ==>
      r.0.state.Ready? && r.0.templatesDir == e.templatesDir
      && r.1 == load(r.0.state.env, templateName, context)
    ensures e.state.Ready? ==> r.0 == e
  {
    match Env(e, jinjaAvailable, created)
    case Failure(msg) => (e, Failure(msg))
    case Success((e1, env)) => (e1, load(env, templateName, context))
  }

  /** Two renders through one engine use the same environment: the second
      one neither imports Jinja2 again nor replaces the environment. */
  lemma RenderReusesEnv(e: Engine, jinjaAvailable: bool, created: EnvId,
                        load: (EnvId, string, Context) -> Result<string, string>,
                        t1: string, c1: Context, available2: bool, created2: EnvId, t2: string, c2: Context)
    requires jinjaAvailable || e.state.Ready?
    ensures var (e1, _) := Render(e, jinjaAvailable, created, load, t1, c1);
      var (e2, out2) := Render(e1, available2, created2, load, t2, c2);
      e2 == e1 && out2 == load(e1.state.env, t2, c2)
  {
  }

  /** `TemplateEngine.template_exists`: `(templates_dir / name).exists()`,
      true for a file and for a directory alike. */
  predicate TemplateExists(e: Engine, fs: FileSystem, name: string)
    ensures name != "" && name != "." ==>
      (TemplateExists(e, fs, name) <==> (e.templatesDir + [name]) in fs.files || (e.templatesDir + [name]) in fs.dirs)
    ensures name == "" || name == "." ==> (TemplateExists(e, fs, name) <==> Exists(fs, e.templatesDir))
  {
    Exists(fs, Join(e.templatesDir, name))
  }

  /** The names of the entries directly inside `dir`. */
  function Children(fs: FileSystem, dir: Path): (r: set<string>)
    ensures forall n :: n in r <==> (dir + [n]) in fs.files || (dir + [n]) in fs.dirs
  {
    var fromFiles := set p | p in fs.files && |p| == |dir| + 1 && p[..|dir|] == dir :: p[|dir|];
    var fromDirs := set p | p in fs.dirs && |p| == |dir| + 1 && p[..|dir|] == dir :: p[|dir|];
    assert forall n :: (dir + [n]) in fs.files ==> n in fromFiles by {
      forall n | (dir + [n]) in fs.files ensures n in fromFiles {
        var p := dir + [n];
        assert p[..|dir|] == dir && p[|dir|] == n;
      }
    }
    assert forall n :: (dir + [n]) in fs.dirs ==> n in fromDirs by {
      forall n | (dir + [n]) in fs.dirs ensures n in fromDirs {
        var p := dir + [n];
        assert p[..|dir|] == dir && p[|dir|] == n;
      }
    }
    assert forall p :: |p| == |dir| + 1 && p[..|dir|] == dir ==> p == dir + [p[|dir|]];
    fromFiles + fromDirs
  }

  /** `TemplateEngine.list_templates`: nothing when the directory is
      missing, an error (`NotADirectoryError`) when it is a regular file,
      and otherwise the regular files whose names do not start with '.'.
      Python lists them in directory order; the model gives the set. */
  function ListTemplates(e: Engine, fs: FileSystem): (r: Result<set<string>, string>)
    ensures !Exists(fs, e.templatesDir) ==> r == Success({})
    ensures r.Failure? <==> e.templatesDir in fs.files
    ensures r.Success? && e.templatesDir in fs.dirs ==>
      forall n :: n in r.value <==> (e.templatesDir + [n]) in fs.files && !StartsWith(n, ".")
  {
    var dir := e.templatesDir;
    if !Exists(fs, dir) then Success({})
    else if dir in fs.files then Failure("Not a directory")
    else Success(set n | n in Children(fs, dir) && (dir + [n]) in fs.files && !StartsWith(n, "."))
  }

  /** Every listed template exists. */
  lemma ListedTemplatesExist(e: Engine, fs: FileSystem, n: string)
    requires ListTemplates(e, fs).Success? && n in ListTemplates(e, fs).value
    ensures TemplateExists(e, fs, n)
  {
    if n != "" && n != "." {
      assert (e.templatesDir + [n]) in fs.files;
    }
  }

  // The template context.

  /** A context value: the tool stores integers and strings. */
  datatype Value = IntValue(i: int) | StrValue(s: string)

  /** The twelve variables the builder defines. */
  datatype FixedKey =
    | Name | AppName | SnakeName | PascalName | KebabName
    | SnakeAppName | PascalAppName | KebabAppName
    | TimeoutSeconds | Timeout | RetryPolicyJson | DefaultQueue
  {
    /** The variable name templates use. */
    function Text(): string {
      match this
      case Name => "name"
      case AppName => "app_name"
      case SnakeName => "snake_name"
      case PascalName => "pascal_name"
      case KebabName => "kebab_name"
      case SnakeAppName => "snake_app_name"
      case PascalAppName => "pascal_app_name"
      case KebabAppName => "kebab_app_name"
      case TimeoutSeconds => "timeouts_start_to_close_seconds"
      case Timeout => "timeouts_start_to_close"
      case RetryPolicyJson => "retry_policies_default_json"
      case DefaultQueue => "queues_default"
    }
  }

  /** A context variable: one of the twelve, or any other keyword name
      passed by the caller. */
  datatype Key = Fixed(f: FixedKey) | Custom(text: string)

  /** The variable name a key stands for. */
  function KeyText(k: Key): string {
    match k
    case Fixed(f) => f.Text()
    case Custom(t) => t
  }

  /** A key is written canonically when a custom key never spells one of
      the twelve names: each Python variable name has exactly one
      canonical key. */
  predicate Canonical(k: Key) {
    k.Custom? ==> forall f: FixedKey :: k.text != f.Text()
  }

  /** The canonical key of a Python variable name. */
  function KeyOf(t: string): (k: Key)
    ensures KeyText(k) == t && Canonical(k)
  {
    if t == "name" then Fixed(Name)
    else if t == "app_name" then Fixed(AppName)
    else if t == "snake_name" then Fixed(SnakeName)
    else if t == "pascal_name" then Fixed(PascalName)
    else if t == "kebab_name" then Fixed(KebabName)
    else if t == "snake_app_name" then Fixed(SnakeAppName)
    else if t == "pascal_app_name" then Fixed(PascalAppName)
    else if t == "kebab_app_name" then Fixed(KebabAppName)
    else if t == "timeouts_start_to_close_seconds" then Fixed(TimeoutSeconds)
    else if t == "timeouts_start_to_close" then Fixed(Timeout)
    else if t == "retry_policies_default_json" then Fixed(RetryPolicyJson)
    else if t == "queues_default" then Fixed(DefaultQueue)
    else Custom(t)
  }

  /** Names and canonical keys are in one-to-one correspondence. */
  lemma KeyRoundTrip(t: string, k: Key)
    ensures KeyText(KeyOf(t)) == t
    ensures Canonical(k) ==> KeyOf(KeyText(k)) == k
  {
    if k.Fixed? {
      match k.f {
        case Name => case AppName => case SnakeName => case PascalName => case KebabName =>
        case SnakeAppName => case PascalAppName => case KebabAppName =>
        case TimeoutSeconds => case Timeout => case RetryPolicyJson => case DefaultQueue =>
      }
    }
  }

  type Context = map<Key, Value>

  const NameKeys: set<Key> := {
    Fixed(Name), Fixed(AppName), Fixed(SnakeName), Fixed(PascalName), Fixed(KebabName),
    Fixed(SnakeAppName), Fixed(PascalAppName), Fixed(KebabAppName)
  }
  const DefaultKeys: set<Key> :=
    {Fixed(TimeoutSeconds), Fixed(Timeout), Fixed(RetryPolicyJson), Fixed(DefaultQueue)}

  /** The keys the context always defines: all twelve. */
  lemma FixedKeysDefined(k: Key)
    ensures k in NameKeys + DefaultKeys <==> k.Fixed?
  {
    match k
    case Custom(_) =>
    case Fixed(f) =>
      match f {
        case Name => case AppName => case SnakeName => case PascalName => case KebabName =>
        case SnakeAppName => case PascalAppName => case KebabAppName =>
        case TimeoutSeconds => case Timeout => case RetryPolicyJson => case DefaultQueue =>
      }
  }

  /** `app_name or name`: an absent or empty application name falls back
      to the entity name. */
  function EffectiveAppName(name: string, appName: Option<string>): (r: string)
    ensures appName.Some? && appName.value != "" ==> r == appName.value
    ensures appName.None? || appName.value == "" ==> r == name
  {
    match appName
    case Some(a) => if a == "" then name else a
    case None => name
  }

  /** The value of a variable before the extra values are merged. */
  function BaseValue(f: FixedKey, name: string, app: string): Value {
    match f
    case Name => StrValue(name)
    case AppName => StrValue(app)
    case SnakeName => StrValue(Text.SnakeCase(name))
    case PascalName => StrValue(Text.PascalCase(name))
    case KebabName => StrValue(Text.KebabCase(name))
    case SnakeAppName => StrValue(Text.SnakeCase(app))
    case PascalAppName => StrValue(Text.PascalCase(app))
    case KebabAppName => StrValue(Text.KebabCase(app))
    case TimeoutSeconds => IntValue(30)
    case Timeout => StrValue("30s")
    case RetryPolicyJson => StrValue("{}")
    case DefaultQueue => StrValue("default")
  }

  /** The context before the extra values are merged. */
  function BaseContext(name: string, app: string): (c: Context)
    ensures forall k :: k in c <==> k.Fixed?
    ensures forall f :: c[Fixed(f)] == BaseValue(f, name, app)
  {
    forall k ensures k in NameKeys + DefaultKeys <==> k.Fixed? {
      FixedKeysDefined(k);
    }
    map k | k in NameKeys + DefaultKeys :: BaseValue(k.f, name, app)
  }

  /** The merge of `context.update(kwargs)` over canonical keys. The
      keyword arguments never hold `name` or `app_name`: both are named
      parameters, which Python binds before collecting the rest (see
      BuildFromKeywords), so the merge never replaces them. */
  function BuildTemplateContext(name: string, appName: Option<string>, extra: Context): (c: Context)
    requires forall k :: k in extra ==> Canonical(k)
    requires Fixed(Name) !in extra && Fixed(AppName) !in extra
    ensures forall k :: k in c <==> k.Fixed? || k in extra
    ensures forall k :: k in extra ==> c[k] == extra[k]
    ensures forall f :: Fixed(f) !in extra ==> c[Fixed(f)] == BaseValue(f, name, EffectiveAppName(name, appName))
    ensures c[Fixed(Name)] == StrValue(name)
    ensures c[Fixed(AppName)] == StrValue(EffectiveAppName(name, appName))
  {
    BaseContext(name, EffectiveAppName(name, appName)) + extra
  }

  /** The keyword arguments, keyed canonically. */
  function Keywords(kwargs: map<string, Value>): (extra: Context)
    ensures forall k :: k in extra ==> Canonical(k) && KeyText(k) in kwargs
    ensures forall t :: t in kwargs ==> KeyOf(t) in extra && extra[KeyOf(t)] == kwargs[t]
  {
    map t | t in kwargs :: KeyOf(t) := kwargs[t]
  }

  /** The `app_name` parameter as Python binds it. `appName` is the
      positional argument (`None` when it is not passed positionally); a
      keyword `app_name` fills the parameter when no positional value did,
      and is a `TypeError` ("multiple values") when one did. A keyword
      value must be a string: `0` is falsy and falls back to the name like
      `None`, while any other integer reaches `snake_case`, whose
      `re.sub` raises `TypeError`. */
  function BoundAppName(appName: Option<string>, kwargs: map<string, Value>): (r: Result<Option<string>, string>)
    ensures "app_name" !in kwargs ==> r == Success(appName)
    ensures "app_name" in kwargs && appName.Some? ==> r.Failure?
    ensures "app_name" in kwargs && appName.None? ==>
      match kwargs["app_name"]
      case StrValue(a) => r == Success(Some(a))
      case IntValue(i) => (r.Failure? <==> i != 0) && (i == 0 ==> r == Success(None))
  {
    if "app_name" !in kwargs then Success(appName)
    else if appName.Some? then Failure("build_template_context() got multiple values for argument 'app_name'")
    else match kwargs["app_name"]
      case StrValue(a) => Success(Some(a))
      case IntValue(i) =>
        if i == 0 then Success(None) else Failure("expected string or bytes-like object")
  }

  /** `build_template_context(name, app_name, **kwargs)` as Python calls
      it, with `name` passed positionally as every caller does: a keyword
      `name` collides with it and raises `TypeError`; `app_name` is bound
      as `BoundAppName` says; every other keyword argument, one spelling a
      fixed variable included, replaces that variable. */
  function BuildFromKeywords(name: string, appName: Option<string>, kwargs: map<string, Value>): (r: Result<Context, string>)
    ensures r.Failure? <==> "name" in kwargs || BoundAppName(appName, kwargs).Failure?
    ensures r.Success? ==> forall t :: t in kwargs && t != "app_name" ==> KeyOf(t) in r.value && r.value[KeyOf(t)] == kwargs[t]
    ensures r.Success? ==> forall f: FixedKey :: Fixed(f) in r.value
    ensures r.Success? ==> r.value[Fixed(AppName)] == StrValue(EffectiveAppName(name, BoundAppName(appName, kwargs).value))
    ensures r.Success? ==> forall f: FixedKey :: f.Text() !in kwargs ==>
      r.value[Fixed(f)] == BaseValue(f, name, EffectiveAppName(name, BoundAppName(appName, kwargs).value))
    ensures r.Success? ==> forall k :: k in r.value ==> Canonical(k) && (k.Fixed? || KeyText(k) in kwargs)
  {
    if "name" in kwargs then
      Failure("build_template_context() got multiple values for argument 'name'")
    else match BoundAppName(appName, kwargs)
      case Failure(e) => Failure(e)
      case Success(app) => Success(MergeKeywords(name, app, kwargs))
  }

  /** The context once `name` and `app_name` are bound: every keyword
      other than `app_name` is merged in last. */
  function MergeKeywords(name: string, app: Option<string>, kwargs: map<string, Value>): (c: Context)
    requires "name" !in kwargs
    ensures forall t :: t in kwargs && t != "app_name" ==> KeyOf(t) in c && c[KeyOf(t)] == kwargs[t]
    ensures forall f: FixedKey :: Fixed(f) in c
    ensures c[Fixed(AppName)] == StrValue(EffectiveAppName(name, app))
    ensures forall f: FixedKey :: f.Text() !in kwargs ==> c[Fixed(f)] == BaseValue(f, name, EffectiveAppName(name, app))
    ensures forall k :: k in c ==> Canonical(k) && (k.Fixed? || KeyText(k) in kwargs)
  {
    var rest := kwargs - {"app_name"};
    assert forall t :: t in rest <==> t in kwargs && t != "app_name";
    assert forall t :: t in rest ==> rest[t] == kwargs[t];
    KeywordsMiss(rest);
    var extra := Keywords(rest);
    assert Fixed(Name) !in extra && Fixed(AppName) !in extra;
    BuildTemplateContext(name, app, extra)
  }

  /** Passing the application name by keyword or by position is the same
      call. */
  lemma AppNameKeywordIsPositional(name: string, a: string, kwargs: map<string, Value>)
    requires "app_name" !in kwargs
    ensures BuildFromKeywords(name, None, kwargs["app_name" := StrValue(a)]) == BuildFromKeywords(name, Some(a), kwargs)
  {
    var kw := kwargs["app_name" := StrValue(a)];
    assert ("name" in kw) == ("name" in kwargs);
    assert BoundAppName(None, kw) == Success(Some(a)) == BoundAppName(Some(a), kwargs);
    assert kw - {"app_name"} == kwargs == kwargs - {"app_name"};
  }

  /** A fixed variable not passed as a keyword is not among the keywords. */
  lemma KeywordsMiss(kwargs: map<string, Value>)
    ensures forall f: FixedKey :: f.Text() !in kwargs ==> Fixed(f) !in Keywords(kwargs)
    ensures "name" !in kwargs ==> Fixed(Name) !in Keywords(kwargs)
    ensures "app_name" !in kwargs ==> Fixed(AppName) !in Keywords(kwargs)
  {
    forall f: FixedKey | f.Text() !in kwargs ensures Fixed(f) !in Keywords(kwargs) {
      assert KeyText(Fixed(f)) == f.Text();
    }
    assert KeyText(Fixed(Name)) == "name" && KeyText(Fixed(AppName)) == "app_name";
  }

  /** A keyword argument spelling a fixed variable replaces it: there is
      one entry per variable name, as in the Python dictionary. */
  lemma KeywordOverridesFixed(name: string, appName: Option<string>, kwargs: map<string, Value>, f: FixedKey)
    requires "name" !in kwargs && "app_name" !in kwargs
    requires f.Text() in kwargs
    ensures BuildFromKeywords(name, appName, kwargs).Success?
    ensures BuildFromKeywords(name, appName, kwargs).value[Fixed(f)] == kwargs[f.Text()]
    ensures Custom(f.Text()) !in BuildFromKeywords(name, appName, kwargs).value
  {
    KeyRoundTrip(f.Text(), Fixed(f));
    assert KeyOf(f.Text()) == Fixed(f);
    assert !Canonical(Custom(f.Text()));
  }

  /** Without extra values, the derived keys of the entity name hold its
      snake, Pascal and kebab forms. */
  lemma ContextNameForms(name: string, appName: Option<string>)
    ensures var c := BuildTemplateContext(name, appName, map[]);
      && c[Fixed(SnakeName)] == StrValue(Text.SnakeCase(name))
      && c[Fixed(PascalName)] == StrValue(Text.PascalCase(name))
      && c[Fixed(KebabName)] == StrValue(Text.KebabCase(name))
  {
    var c := BuildTemplateContext(name, appName, map[]);
    NameForms(c, name, EffectiveAppName(name, appName));
  }

  /** Without extra values, the derived keys of the application name hold
      the forms of the application name in effect. */
  lemma ContextAppForms(name: string, appName: Option<string>)
    ensures var c := BuildTemplateContext(name, appName, map[]);
      var app := EffectiveAppName(name, appName);
      && c[Fixed(SnakeAppName)] == StrValue(Text.SnakeCase(app))
      && c[Fixed(PascalAppName)] == StrValue(Text.PascalCase(app))
      && c[Fixed(KebabAppName)] == StrValue(Text.KebabCase(app))
  {
    var c := BuildTemplateContext(name, appName, map[]);
    AppForms(c, name, EffectiveAppName(name, appName));
  }

  /** A context holding the base values holds the forms of the entity
      name. */
  lemma NameForms(c: Context, name: string, app: string)
    requires forall f :: Fixed(f) in c && c[Fixed(f)] == BaseValue(f, name, app)
    ensures c[Fixed(SnakeName)] == StrValue(Text.SnakeCase(name))
    ensures c[Fixed(PascalName)] == StrValue(Text.PascalCase(name))
    ensures c[Fixed(KebabName)] == StrValue(Text.KebabCase(name))
  {
    assert c[Fixed(SnakeName)] == BaseValue(SnakeName, name, app);
    assert c[Fixed(PascalName)] == BaseValue(PascalName, name, app);
    assert c[Fixed(KebabName)] == BaseValue(KebabName, name, app);
  }

  /** A context holding the base values holds the forms of the application
      name. */
  lemma AppForms(c: Context, name: string, app: string)
    requires forall f :: Fixed(f) in c && c[Fixed(f)] == BaseValue(f, name, app)
    ensures c[Fixed(SnakeAppName)] == StrValue(Text.SnakeCase(app))
    ensures c[Fixed(PascalAppName)] == StrValue(Text.PascalCase(app))
    ensures c[Fixed(KebabAppName)] == StrValue(Text.KebabCase(app))
  {
    assert c[Fixed(SnakeAppName)] == BaseValue(SnakeAppName, name, app);
    assert c[Fixed(PascalAppName)] == BaseValue(PascalAppName, name, app);
    assert c[Fixed(KebabAppName)] == BaseValue(KebabAppName, name, app);
  }

  lemma DefaultValues(name: string, app: string)
    ensures BaseValue(TimeoutSeconds, name, app) == IntValue(30)
    ensures BaseValue(Timeout, name, app) == StrValue("30s")
    ensures BaseValue(RetryPolicyJson, name, app) == StrValue("{}")
    ensures BaseValue(DefaultQueue, name, app) == StrValue("default")
  {
  }

  /** The four literal defaults. */
  lemma ContextDefaults(name: string, appName: Option<string>)
    ensures var c := BuildTemplateContext(name, appName, map[]);
      && c[Fixed(TimeoutSeconds)] == IntValue(30)
      && c[Fixed(Timeout)] == StrValue("30s")
      && c[Fixed(RetryPolicyJson)] == StrValue("{}")
      && c[Fixed(DefaultQueue)] == StrValue("default")
  {
    var app := EffectiveAppName(name, appName);
    var c := BuildTemplateContext(name, appName, map[]);
    DefaultValues(name, app);
    assert c[Fixed(TimeoutSeconds)] == BaseValue(TimeoutSeconds, name, app);
    assert c[Fixed(Timeout)] == BaseValue(Timeout, name, app);
    assert c[Fixed(RetryPolicyJson)] == BaseValue(RetryPolicyJson, name, app);
    assert c[Fixed(DefaultQueue)] == BaseValue(DefaultQueue, name, app);
  }

  /** Extra values win over every key they name, the derived ones
      included, and leave the other keys as they were. */
  lemma ContextOverride(name: string, appName: Option<string>, extra: Context, k: Key)
    requires forall k :: k in extra ==> Canonical(k)
    requires Fixed(Name) !in extra && Fixed(AppName) !in extra
    ensures k in extra ==> BuildTemplateContext(name, appName, extra)[k] == extra[k]
    ensures k !in extra && k.Fixed? ==>
      BuildTemplateContext(name, appName, extra)[k] == BuildTemplateContext(name, appName, map[])[k]
  {
  }

  /** An empty application name behaves as an omitted one, and both as
      passing the entity name itself. */
  lemma AppNameFallback(name: string, extra: Context)
    requires forall k :: k in extra ==> Canonical(k)
    requires Fixed(Name) !in extra && Fixed(AppName) !in extra
    ensures BuildTemplateContext(name, Some(""), extra) == BuildTemplateContext(name, None, extra)
    ensures BuildTemplateContext(name, None, extra) == BuildTemplateContext(name, Some(name), extra)
  {
  }

  /** The snake form of a name has no uppercase letter, the Pascal form no
      '_' and the kebab form neither '_' nor uppercase. */
  lemma ContextForms(name: string, appName: Option<string>)
    ensures var c := BuildTemplateContext(name, appName, map[]);
      && c[Fixed(SnakeName)].StrValue? && NoUpper(c[Fixed(SnakeName)].s)
      && c[Fixed(PascalName)].StrValue? && '_' !in c[Fixed(PascalName)].s
      && c[Fixed(KebabName)].StrValue? && '_' !in c[Fixed(KebabName)].s && NoUpper(c[Fixed(KebabName)].s)
  {
    ContextNameForms(name, appName);
  }
}

=== FILE: text.dfy ===
/** Name case conversion (restack_gen/utils/text.py).

    `snake_case` is two regular-expression substitutions followed by
    `lower()`. Each substitution is modelled as the left-to-right,
    non-overlapping scan `re.sub` performs:

    1. `(.)([A-Z][a-z]+)` → `\1_\2`: at a position holding any character
       but a newline, followed by an uppercase letter and a (greedy) run of
       lowercase letters, insert '_' after the first character and resume
       after the run;
    2. `([a-z0-9])([A-Z])` → `\1_\2`: after a lowercase letter or digit that
       is followed by an uppercase letter, insert '_' and resume after the
       uppercase letter.

    `pascal_case` capitalises every '_'-separated piece of the snake form
    and concatenates them; `kebab_case` turns the snake form's '_' into
    '-'. */
module Text {
  import opened Chars

  /** The end of the run of lowercase letters that starts at `k`. */
  function LowerRunEnd(s: string, k: nat): (j: nat)
    requires k <= |s|
    ensures k <= j <= |s|
    ensures forall i :: k <= i < j ==> IsLower(s[i])
    ensures j == |s| || !IsLower(s[j])
    decreases |s| - k
  {
    if k < |s| && IsLower(s[k]) then LowerRunEnd(s, k + 1) else k
  }

  /** The first pattern matches at the head of `s`. */
  predicate CamelWordAt(s: string) {
    |s| >= 3 && s[0] != '\n' && IsUpper(s[1]) && IsLower(s[2])
  }

  /** Substitution 1 of `snake_case`. */
  function SplitCamelWords(s: string): (r: string)
    ensures |s| > 0 ==> |r| > 0 && r[0] == s[0]
    decreases |s|
  {
    if |s| == 0 then []
    else
      var j := if CamelWordAt(s) then LowerRunEnd(s, 2) else 1;
      (if CamelWordAt(s) then [s[0], '_'] + s[1..j] else [s[0]]) + SplitCamelWords(s[j..])
  }

  /** The second pattern matches at the head of `s`. */
  predicate BoundaryAt(s: string) {
    |s| >= 2 && (IsLower(s[0]) || IsDigit(s[0])) && IsUpper(s[1])
  }

  /** Substitution 2 of `snake_case`. */
  function SplitBoundaries(s: string): (r: string)
    ensures |s| > 0 ==> |r| > 0 && r[0] == s[0]
    decreases |s|
  {
    if |s| == 0 then []
    else
      var j := if BoundaryAt(s) then 2 else 1;
      (if BoundaryAt(s) then [s[0], '_', s[1]] else [s[0]]) + SplitBoundaries(s[j..])
  }

  /** No match of pattern 1 starts in the first `n` positions of `s`. */
  predicate NoCamelWordBefore(s: string, n: nat)
    decreases n
  {
    n == 0 || |s| == 0 || (!CamelWordAt(s) && NoCamelWordBefore(s[1..], n - 1))
  }

  /** Substitution 1 copies a stretch in which pattern 1 does not match. */
  lemma {:induction false} SplitCamelWordsSkip(s: string, n: nat)
    requires n <= |s| && NoCamelWordBefore(s, n)
    ensures SplitCamelWords(s) == s[..n] + SplitCamelWords(s[n..])
    decreases n
  {
    if n > 0 {
      SplitCamelWordsSkip(s[1..], n - 1);
      assert s[1..][..n - 1] == s[1..n];
      assert s[1..][n - 1..] == s[n..];
      assert s[..n] == [s[0]] + s[1..n];
    }
  }

  /** Substitution 1 at a match: '_' after the first character, then the
      scan resumes after the lowercase run. */
  lemma SplitCamelWordsMatch(s: string)
    requires CamelWordAt(s)
    ensures SplitCamelWords(s) ==
      [s[0], '_'] + s[1..LowerRunEnd(s, 2)] + SplitCamelWords(s[LowerRunEnd(s, 2)..])
  {
  }

  /** Substitution 2 where it does not match: the character is copied. */
  lemma SplitBoundariesKeep(s: string)
    requires |s| > 0 && !BoundaryAt(s)
    ensures SplitBoundaries(s) == [s[0]] + SplitBoundaries(s[1..])
  {
  }

  /** No match of pattern 2 starts in the first `n` positions of `s`. */
  predicate NoBoundaryBefore(s: string, n: nat)
    decreases n
  {
    n == 0 || |s| == 0 || (!BoundaryAt(s) && NoBoundaryBefore(s[1..], n - 1))
  }

  /** Substitution 2 copies a stretch in which pattern 2 does not match. */
  lemma {:induction false} SplitBoundariesSkip(s: string, n: nat)
    requires n <= |s| && NoBoundaryBefore(s, n)
    ensures SplitBoundaries(s) == s[..n] + SplitBoundaries(s[n..])
    decreases n
  {
    if n > 0 {
      SplitBoundariesSkip(s[1..], n - 1);
      assert s[1..][..n - 1] == s[1..n];
      assert s[1..][n - 1..] == s[n..];
      assert s[..n] == [s[0]] + s[1..n];
    }
  }

  /** Substitution 2 at a match: '_' between the two characters, then the
      scan resumes after the uppercase letter. */
  lemma SplitBoundariesMatch(s: string)
    requires BoundaryAt(s)
    ensures SplitBoundaries(s) == [s[0], '_', s[1]] + SplitBoundaries(s[2..])
  {
  }

  /** `snake_case(name)`. The result holds no uppercase letter, keeps the
      (lowercased) first character in front, and differs from `name` only
      by inserted underscores and lowercasing. */
  function SnakeCase(name: string): (r: string)
    ensures NoUpper(r)
    ensures |name| > 0 ==> |r| > 0 && r[0] == LowerChar(name[0])
    ensures Delete(r, '_') == Delete(Lower(name), '_')
  {
    var s1 := SplitCamelWords(name);
    var s2 := SplitBoundaries(s1);
    SplitCamelWordsOnlyInserts(name);
    SplitBoundariesOnlyInserts(s1);
    LowerDelete(s2);
    LowerDelete(name);
    Lower(s2)
  }

  lemma DeletePair(x: char, c: char)
    ensures Delete([x, c], c) == Delete([x], c)
  {
    assert [x, c][1..] == [c];
    assert [c][1..] == [];
  }

  /** Substitution 1 only inserts underscores. */
  lemma {:induction false} SplitCamelWordsOnlyInserts(s: string)
    ensures Delete(SplitCamelWords(s), '_') == Delete(s, '_')
    decreases |s|
  {
    if |s| == 0 {
    } else if CamelWordAt(s) {
      var j := LowerRunEnd(s, 2);
      SplitCamelWordsOnlyInserts(s[j..]);
      DeleteAppend([s[0], '_'] + s[1..j], SplitCamelWords(s[j..]), '_');
      DeleteAppend([s[0], '_'], s[1..j], '_');
      DeletePair(s[0], '_');
      assert s == [s[0]] + s[1..j] + s[j..];
      DeleteAppend([s[0]] + s[1..j], s[j..], '_');
      DeleteAppend([s[0]], s[1..j], '_');
    } else {
      SplitCamelWordsOnlyInserts(s[1..]);
      DeleteAppend([s[0]], SplitCamelWords(s[1..]), '_');
      assert s == [s[0]] + s[1..];
      DeleteAppend([s[0]], s[1..], '_');
    }
  }

  /** Substitution 2 only inserts underscores. */
  lemma {:induction false} SplitBoundariesOnlyInserts(s: string)
    ensures Delete(SplitBoundaries(s), '_') == Delete(s, '_')
    decreases |s|
  {
    if |s| == 0 {
    } else if BoundaryAt(s) {
      SplitBoundariesOnlyInserts(s[2..]);
      DeleteAppend([s[0], '_', s[1]], SplitBoundaries(s[2..]), '_');
      assert [s[0], '_', s[1]] == [s[0], '_'] + [s[1]];
      DeleteAppend([s[0], '_'], [s[1]], '_');
      DeletePair(s[0], '_');
      assert s == [s[0]] + [s[1]] + s[2..];
      DeleteAppend([s[0]] + [s[1]], s[2..], '_');
      DeleteAppend([s[0]], [s[1]], '_');
    } else {
      SplitBoundariesOnlyInserts(s[1..]);
      DeleteAppend([s[0]], SplitBoundaries(s[1..]), '_');
      assert s == [s[0]] + s[1..];
      DeleteAppend([s[0]], s[1..], '_');
    }
  }

  /** Lowercasing commutes with deleting underscores. */
  lemma {:induction false} LowerDelete(s: string)
    ensures Delete(Lower(s), '_') == Lower(Delete(s, '_'))
    decreases |s|
  {
    if |s| > 0 {
      LowerDelete(s[1..]);
      assert Lower(s)[1..] == Lower(s[1..]);
      if s[0] != '_' {
        assert Lower([s[0]] + Delete(s[1..], '_')) == [LowerChar(s[0])] + Lower(Delete(s[1..], '_'));
      }
    }
  }

  /** Substitution 1 leaves an uppercase-free string alone. */
  lemma {:induction false} SplitCamelWordsNoUpper(s: string)
    requires NoUpper(s)
    ensures SplitCamelWords(s) == s
    decreases |s|
  {
    if |s| > 0 {
      SplitCamelWordsNoUpper(s[1..]);
      assert s == [s[0]] + s[1..];
    }
  }

  /** Substitution 2 leaves an uppercase-free string alone. */
  lemma {:induction false} SplitBoundariesNoUpper(s: string)
    requires NoUpper(s)
    ensures SplitBoundaries(s) == s
    decreases |s|
  {
    if |s| > 0 {
      SplitBoundariesNoUpper(s[1..]);
      assert s == [s[0]] + s[1..];
    }
  }

  /** `snake_case` fixes exactly the strings without uppercase letters; in
      particular it is the identity on names made of lowercase letters,
      digits, '_' and '-'. */
  lemma SnakeCaseFixpoints(s: string)
    ensures SnakeCase(s) == s <==> NoUpper(s)
  {
    if NoUpper(s) {
      SplitCamelWordsNoUpper(s);
      SplitBoundariesNoUpper(s);
      LowerOfNoUpper(s);
    }
  }

  /** `snake_case` is idempotent. */
  lemma SnakeCaseIdempotent(s: string)
    ensures SnakeCase(SnakeCase(s)) == SnakeCase(s)
  {
    SnakeCaseFixpoints(SnakeCase(s));
  }

  /** `str.split(sep)`: always at least one piece; no piece holds `sep`. */
  function SplitOn(s: string, sep: char): (r: seq<string>)
    ensures |r| >= 1
    ensures forall i :: 0 <= i < |r| ==> sep !in r[i]
    decreases |s|
  {
    if |s| == 0 then [""]
    else
      var rest := SplitOn(s[1..], sep);
      if s[0] == sep then [""] + rest
      else [[s[0]] + rest[0]] + rest[1..]
  }

  /** `sep.join(ws)`. */
  function JoinWith(ws: seq<string>, sep: char): string
    requires |ws| >= 1
    decreases |ws|
  {
    if |ws| == 1 then ws[0] else ws[0] + [sep] + JoinWith(ws[1..], sep)
  }

  /** `"".join(ws)`. */
  function Concat(ws: seq<string>): string
    decreases |ws|
  {
    if |ws| == 0 then "" else ws[0] + Concat(ws[1..])
  }

  /** Joining the pieces of a split with the separator gives back the
      string. */
  lemma {:induction false} SplitJoin(s: string, sep: char)
    ensures JoinWith(SplitOn(s, sep), sep) == s
    decreases |s|
  {
    if |s| > 0 {
      var rest := SplitOn(s[1..], sep);
      SplitJoin(s[1..], sep);
      if s[0] == sep {
        assert ([""] + rest)[1..] == rest;
      } else {
        var r := [[s[0]] + rest[0]] + rest[1..];
        if |rest| > 1 {
          assert r[1..] == rest[1..];
        }
      }
    }
  }

  /** Concatenating the pieces of a split drops the separators. */
  lemma {:induction false} ConcatSplit(s: string, sep: char)
    ensures Concat(SplitOn(s, sep)) == Delete(s, sep)
    decreases |s|
  {
    if |s| > 0 {
      var rest := SplitOn(s[1..], sep);
      ConcatSplit(s[1..], sep);
      if s[0] == sep {
        assert ([""] + rest)[1..] == rest;
      } else {
        var r := [[s[0]] + rest[0]] + rest[1..];
        assert r[1..] == rest[1..];
        assert Concat(rest) == rest[0] + Concat(rest[1..]);
      }
    }
  }

  /** `str.capitalize()`: first character uppercased, the rest lowercased. */
  function Capitalize(w: string): (r: string)
    ensures |r| == |w|
    ensures Lower(r) == Lower(w)
    ensures |w| > 0 ==> r[0] == UpperChar(w[0]) && !IsLower(r[0])
    ensures forall i :: 0 < i < |w| ==> r[i] == LowerChar(w[i]) && !IsUpper(r[i])
  {
    if |w| == 0 then "" else [UpperChar(w[0])] + Lower(w[1..])
  }

  function CapitalizeAll(ws: seq<string>): (r: seq<string>)
    ensures |r| == |ws|
    ensures forall i :: 0 <= i < |ws| ==> r[i] == Capitalize(ws[i])
  {
    seq(|ws|, i requires 0 <= i < |ws| => Capitalize(ws[i]))
  }

  lemma {:induction false} LowerConcatCapitalize(ws: seq<string>)
    ensures Lower(Concat(CapitalizeAll(ws))) == Lower(Concat(ws))
    decreases |ws|
  {
    if |ws| > 0 {
      LowerConcatCapitalize(ws[1..]);
      assert CapitalizeAll(ws)[1..] == CapitalizeAll(ws[1..]);
      LowerAppend(Capitalize(ws[0]), Concat(CapitalizeAll(ws[1..])));
      LowerAppend(ws[0], Concat(ws[1..]));
    }
  }

  lemma {:induction false} ConcatCapitalizeNoChar(ws: seq<string>, c: char)
    requires forall i :: 0 <= i < |ws| ==> c !in ws[i]
    requires !IsAlpha(c)
    ensures c !in Concat(CapitalizeAll(ws))
    decreases |ws|
  {
    if |ws| > 0 {
      ConcatCapitalizeNoChar(ws[1..], c);
      assert CapitalizeAll(ws)[1..] == CapitalizeAll(ws[1..]);
      var w := ws[0];
      if |w| > 0 {
        assert c !in Lower(w[1..]) by {
          forall i | 0 <= i < |w| - 1 ensures Lower(w[1..])[i] != c {
            assert w[1..][i] == w[i + 1];
          }
        }
      }
    }
  }

  /** `pascal_case(name)`. The result has no underscore, and lowercasing
      it gives `name` lowercased with its underscores deleted: only the
      letter case and the underscores differ. */
  function PascalCase(name: string): (r: string)
    ensures '_' !in r
    ensures Lower(r) == Delete(Lower(name), '_')
  {
    var snake := SnakeCase(name);
    var pieces := SplitOn(snake, '_');
    var r := Concat(CapitalizeAll(pieces));
    ConcatCapitalizeNoChar(pieces, '_');
    LowerConcatCapitalize(pieces);
    ConcatSplit(snake, '_');
    LowerOfNoUpper(snake);
    assert NoUpper(Delete(snake, '_')) by {
      LowerDelete(snake);
    }
    LowerOfNoUpper(Delete(snake, '_'));
    r
  }

  /** Joining lowercase pieces with a non-uppercase separator gives a
      string without uppercase letters. */
  lemma {:induction false} JoinNoUpper(ws: seq<string>, sep: char)
    requires |ws| >= 1 && !IsUpper(sep)
    requires forall i :: 0 <= i < |ws| ==> NoUpper(ws[i])
    ensures NoUpper(JoinWith(ws, sep))
    decreases |ws|
  {
    if |ws| > 1 {
      JoinNoUpper(ws[1..], sep);
      var t := JoinWith(ws[1..], sep);
      assert JoinWith(ws, sep) == ws[0] + [sep] + t;
      forall i | 0 <= i < |ws[0] + [sep] + t| ensures !IsUpper((ws[0] + [sep] + t)[i]) {
        if i > |ws[0]| {
          assert (ws[0] + [sep] + t)[i] == t[i - |ws[0]| - 1];
        }
      }
    }
  }

  /** Splitting a join of separator-free pieces gives the pieces back. */
  lemma {:induction false} SplitOfJoin(ws: seq<string>, sep: char)
    requires |ws| >= 1
    requires forall i :: 0 <= i < |ws| ==> sep !in ws[i]
    ensures SplitOn(JoinWith(ws, sep), sep) == ws
    decreases |ws|
  {
    if |ws| == 1 {
      SplitOnAbsent(ws[0], sep);
    } else {
      SplitOfJoin(ws[1..], sep);
      SplitOnFirst(ws[0], JoinWith(ws[1..], sep), sep);
      assert [ws[0]] + ws[1..] == ws;
    }
  }

  /** `pascal_case` of lowercase words joined by '_' is the words, each
      capitalised, run together: "my_test" gives "MyTest". */
  lemma PascalOfWords(ws: seq<string>)
    requires |ws| >= 1
    requires forall i :: 0 <= i < |ws| ==> '_' !in ws[i] && NoUpper(ws[i])
    ensures PascalCase(JoinWith(ws, '_')) == Concat(CapitalizeAll(ws))
  {
    var s := JoinWith(ws, '_');
    JoinNoUpper(ws, '_');
    SnakeCaseFixpoints(s);
    SplitOfJoin(ws, '_');
  }

  /** `pascal_case` reads its argument only through `snake_case`, so going
      through the snake form first changes nothing. */
  lemma PascalOfSnake(name: string)
    ensures PascalCase(SnakeCase(name)) == PascalCase(name)
  {
    SnakeCaseIdempotent(name);
  }

  /** `kebab_case(name)`: the snake form with every '_' turned into '-'. */
  function KebabCase(name: string): (r: string)
    ensures |r| == |SnakeCase(name)| && '_' !in r && NoUpper(r)
    ensures forall i :: 0 <= i < |r| ==>
      (r[i] == '-' <==> SnakeCase(name)[i] in {'_', '-'})
    ensures forall i :: 0 <= i < |r| && r[i] != '-' ==> r[i] == SnakeCase(name)[i]
  {
    Replace(SnakeCase(name), '_', '-')
  }

  /** A string without the separator splits into itself. */
  lemma {:induction false} SplitOnAbsent(s: string, sep: char)
    requires sep !in s
    ensures SplitOn(s, sep) == [s]
    decreases |s|
  {
    if |s| > 0 {
      SplitOnAbsent(s[1..], sep);
      assert [s[0]] + s[1..] == s;
    }
  }

  /** Splitting `a + sep + b`, where `a` has no separator, yields `a`
      followed by the pieces of `b`. */
  lemma {:induction false} SplitOnFirst(a: string, b: string, sep: char)
    requires sep !in a
    ensures SplitOn(a + [sep] + b, sep) == [a] + SplitOn(b, sep)
    decreases |a|
  {
    if |a| == 0 {
      assert a + [sep] + b == [sep] + b;
      assert ([sep] + b)[1..] == b;
    } else {
      SplitOnFirst(a[1..], b, sep);
      assert (a + [sep] + b)[1..] == a[1..] + [sep] + b;
      assert [a[0]] + a[1..] == a;
    }
  }
}

=== FILE: text_examples.dfy ===
/** Worked examples of the case conversions (restack_gen/utils/text.py):
    the values the tool's unit tests expect, the component name of the
    help text's usage example, and a hyphenated name.

    Each example names its input through a parameter (`requires s == …`);
    the facts about the literal strings themselves sit in small lemmas of
    their own, and the examples combine them with the general theorems of
    `Text` and `CamelWords`. */
module TextExamples {
  import opened Chars
  import opened Text
  import opened CamelWords

  /** A camel-case example: the words, their concatenation and the
      expected snake form. */
  lemma SnakeCaseExample(s: string, ws: seq<string>, expected: string)
    requires IsCamel(ws) && Concat(ws) == s && Lower(JoinWith(ws, '_')) == expected
    ensures SnakeCase(s) == expected
  {
    SnakeCaseOfWords(ws);
  }

  /** `pascal_case` of an uppercase-free name capitalises its pieces. */
  lemma PascalOfLower(s: string)
    requires NoUpper(s)
    ensures PascalCase(s) == Concat(CapitalizeAll(SplitOn(s, '_')))
  {
    SnakeCaseFixpoints(s);
  }

  lemma WordsMyTest(s: string, ws: seq<string>)
    requires s == "MyTest" && ws == ["My", "Test"]
    ensures IsCamel(ws) && Concat(ws) == s && Lower(JoinWith(ws, '_')) == "my_test"
  {
    assert IsCamel(["My", "Test"]);
    assert Concat(["My", "Test"]) == "MyTest";
    assert Lower(JoinWith(["My", "Test"], '_')) == "my_test";
  }

  lemma SnakeCaseMyTest(s: string)
    requires s == "MyTest"
    ensures SnakeCase(s) == "my_test"
  {
    var ws := ["My", "Test"];
    WordsMyTest(s, ws);
    SnakeCaseExample(s, ws, "my_test");
  }

  lemma HyphenateMyTest(s: string)
    requires s == "my_test"
    ensures Replace(s, '_', '-') == "my-test"
  {
    assert Replace("my_test", '_', '-') == "my-test";
  }

  lemma KebabMyTest(s: string)
    requires s == "MyTest"
    ensures KebabCase(s) == "my-test"
  {
    SnakeCaseMyTest(s);
    HyphenateMyTest(SnakeCase(s));
  }

  lemma WordsMyTestString(s: string, ws: seq<string>)
    requires s == "myTestString" && ws == ["my", "Test", "String"]
    ensures IsCamel(ws) && Concat(ws) == s && Lower(JoinWith(ws, '_')) == "my_test_string"
  {
    assert IsCamel(["my", "Test", "String"]);
    assert Concat(["my", "Test", "String"]) == "myTestString";
    assert Lower(JoinWith(["my", "Test", "String"], '_')) == "my_test_string";
  }

  lemma SnakeCaseMyTestString(s: string)
    requires s == "myTestString"
    ensures SnakeCase(s) == "my_test_string"
  {
    var ws := ["my", "Test", "String"];
    WordsMyTestString(s, ws);
    SnakeCaseExample(s, ws, "my_test_string");
  }

  lemma WordsEmailHandler(s: string, ws: seq<string>)
    requires s == "EmailHandler" && ws == ["Email", "Handler"]
    ensures IsCamel(ws) && Concat(ws) == s && Lower(JoinWith(ws, '_')) == "email_handler"
  {
    assert IsCamel(["Email", "Handler"]);
    assert Concat(["Email", "Handler"]) == "EmailHandler";
    assert Lower(JoinWith(["Email", "Handler"], '_')) == "email_handler";
  }

  /** The component name of `restack-gen g agent EmailHandler`, the usage
      example of restack_gen/commands/info.py:161. */
  lemma SnakeCaseEmailHandler(s: string)
    requires s == "EmailHandler"
    ensures SnakeCase(s) == "email_handler"
  {
    var ws := ["Email", "Handler"];
    WordsEmailHandler(s, ws);
    SnakeCaseExample(s, ws, "email_handler");
  }

  /** `str.split('_')` of two '_'-free pieces joined by one '_'. */
  lemma SplitTwo(s: string, a: string, b: string)
    requires s == a + ['_'] + b && '_' !in a && '_' !in b
    ensures SplitOn(s, '_') == [a, b]
  {
    SplitOnFirst(a, b, '_');
    SplitOnAbsent(b, '_');
  }

  /** `capitalize` of a word whose tail has no uppercase letter. */
  lemma CapitalizeWord(w: string, c: char)
    requires |w| > 0 && UpperChar(w[0]) == c && NoUpper(w)
    ensures Capitalize(w) == [c] + w[1..]
  {
    LowerOfNoUpper(w[1..]);
  }

  /** `"".join` of two capitalised words. */
  lemma ConcatCapitalizeTwo(ws: seq<string>)
    requires |ws| == 2
    ensures Concat(CapitalizeAll(ws)) == Capitalize(ws[0]) + Capitalize(ws[1])
  {
    var cs := CapitalizeAll(ws);
    assert Concat(cs[1..]) == cs[1] + Concat(cs[1..][1..]);
    assert cs[1..][1..] == [];
  }

  /** `"".join` of two words whose capitalised forms are known. */
  lemma ConcatCapitalizedPair(ws: seq<string>, a: string, b: string)
    requires |ws| == 2 && Capitalize(ws[0]) == a && Capitalize(ws[1]) == b
    ensures Concat(CapitalizeAll(ws)) == a + b
  {
    ConcatCapitalizeTwo(ws);
  }

  lemma PiecesMyTest(s: string)
    requires s == "my_test"
    ensures NoUpper(s)
    ensures SplitOn(s, '_') == ["my", "test"]
  {
    assert NoUpper("my_test");
    assert "my_test" == "my" + ['_'] + "test";
    SplitTwo(s, "my", "test");
  }

  lemma CapitalizeMyTest(ws: seq<string>)
    requires ws == ["my", "test"]
    ensures Concat(CapitalizeAll(ws)) == "MyTest"
  {
    ConcatCapitalizeTwo(ws);
    CapitalizeWord(ws[0], 'M');
    CapitalizeWord(ws[1], 'T');
  }

  lemma PascalMyTest(s: string)
    requires s == "my_test"
    ensures PascalCase(s) == "MyTest"
  {
    PiecesMyTest(s);
    PascalOfLower(s);
    CapitalizeMyTest(SplitOn(s, '_'));
  }

  lemma NoUpperAnotherExample(s: string)
    requires s == "another_example"
    ensures NoUpper(s)
  {
    assert NoUpper("another_example");
  }

  lemma PiecesAnotherExample(s: string)
    requires s == "another_example"
    ensures SplitOn(s, '_') == ["another", "example"]
  {
    assert "another_example" == "another" + ['_'] + "example";
    SplitTwo(s, "another", "example");
  }

  lemma CapitalizeAnother(w: string)
    requires w == "another"
    ensures Capitalize(w) == "Another"
  {
    assert NoUpper("another");
    CapitalizeWord(w, 'A');
  }

  lemma CapitalizeExample(w: string)
    requires w == "example"
    ensures Capitalize(w) == "Example"
  {
    assert NoUpper("example");
    CapitalizeWord(w, 'E');
  }

  lemma CapitalizeAnotherExample(ws: seq<string>)
    requires ws == ["another", "example"]
    ensures Concat(CapitalizeAll(ws)) == "AnotherExample"
  {
    CapitalizeAnother(ws[0]);
    CapitalizeExample(ws[1]);
    ConcatCapitalizedPair(ws, "Another", "Example");
    assert "Another" + "Example" == "AnotherExample";
  }

  lemma PascalAnotherExample(s: string)
    requires s == "another_example"
    ensures PascalCase(s) == "AnotherExample"
  {
    NoUpperAnotherExample(s);
    PiecesAnotherExample(s);
    PascalOfLower(s);
    CapitalizeAnotherExample(SplitOn(s, '_'));
  }

  lemma PiecesHyphenated(s: string)
    requires s == "test-py-app3"
    ensures NoUpper(s)
    ensures SplitOn(s, '_') == [s]
  {
    assert NoUpper("test-py-app3");
    SplitOnAbsent("test-py-app3", '_');
  }

  lemma CapitalizeTestPyApp(w: string)
    requires w == "test-py-app3"
    ensures Capitalize(w) == "Test-py-app3"
  {
    assert NoUpper("test-py-app3");
    CapitalizeWord(w, 'T');
  }

  lemma CapitalizeHyphenated(ws: seq<string>)
    requires ws == ["test-py-app3"]
    ensures Concat(CapitalizeAll(ws)) == "Test-py-app3"
  {
    CapitalizeTestPyApp(ws[0]);
    assert CapitalizeAll(ws)[1..] == [];
  }

  /** Hyphens are never touched, so they survive into the Pascal form. */
  lemma PascalHyphenated(s: string)
    requires s == "test-py-app3"
    ensures SnakeCase(s) == s
    ensures PascalCase(s) == "Test-py-app3"
  {
    PiecesHyphenated(s);
    SnakeCaseFixpoints(s);
    PascalOfLower(s);
    CapitalizeHyphenated(SplitOn(s, '_'));
  }

  lemma NoUpperTestName(s: string)
    requires s == "test_name"
    ensures NoUpper(s)
  {
    assert NoUpper("test_name");
  }

  lemma SnakeCaseTestName(s: string)
    requires s == "test_name"
    ensures SnakeCase(s) == s
  {
    NoUpperTestName(s);
    SnakeCaseFixpoints(s);
  }
}

=== FILE: validation.dfy ===
/** Name and path validation of the non-interactive commands
    (restack_gen/core/validation.py). Each check returns the pair
    `(is_valid, error_message)`; the checks run in a fixed order and the
    first failing one supplies the message. */
module Validation {
  import opened Wrappers
  import opened Chars

  /** The pair `(is_valid, error_message)`. */
  datatype Verdict = Verdict(ok: bool, message: string)

  /** Python's `keyword.kwlist` (section 2.3.1 of the Python Language
      Reference): the 35 hard keywords, listed alphabetically in five
      groups. Soft keywords such as `match` are not included, as
      `keyword.iskeyword` does not report them. */
  const Keywords1: seq<string> := ["False", "None", "True", "and", "as", "assert", "async"]
  const Keywords2: seq<string> := ["await", "break", "class", "continue", "def", "del", "elif"]
  const Keywords3: seq<string> := ["else", "except", "finally", "for", "from", "global", "if"]
  const Keywords4: seq<string> := ["import", "in", "is", "lambda", "nonlocal", "not", "or"]
  const Keywords5: seq<string> := ["pass", "raise", "return", "try", "while", "with", "yield"]

  /** `name` occurs in `ks`, searched from the front. */
  predicate Listed(name: string, ks: seq<string>)
    decreases |ks|
  {
    |ks| > 0 && (ks[0] == name || Listed(name, ks[1..]))
  }

  /** `keyword.iskeyword(name)`. */
  predicate IsKeyword(name: string) {
    || Listed(name, Keywords1) || Listed(name, Keywords2) || Listed(name, Keywords3)
    || Listed(name, Keywords4) || Listed(name, Keywords5)
  }

  /** A non-empty run of letters. */
  predicate IsWord(k: string) {
    |k| > 0 && forall i :: 0 <= i < |k| ==> IsAlpha(k[i])
  }

  /** `Listed` is membership. */
  lemma {:induction false} ListedMember(name: string, ks: seq<string>)
    ensures Listed(name, ks) <==> name in ks
    decreases |ks|
  {
    if |ks| > 0 {
      ListedMember(name, ks[1..]);
      assert ks == [ks[0]] + ks[1..];
    }
  }

  /** Python's `str.isalnum()`: non-empty and every character
      alphanumeric. */
  predicate IsAlnumString(s: string) {
    |s| > 0 && forall c :: c in s ==> IsAlnum(c)
  }

  /** What `isalnum()` is asked about: the name with '-' mapped to '_' and
      then every '_' deleted. */
  function CharCheckSubject(name: string): string {
    Delete(Replace(name, '-', '_'), '_')
  }

  const EmptyMessage := "Name cannot be empty"
  const DigitMessage := "Name cannot start with a digit"
  const UnderscoreMessage := "Name should not start with underscore (convention)"

  function InvalidCharsMessage(name: string): string {
    "'" + name + "' contains invalid characters"
  }

  function KeywordMessage(name: string): string {
    "'" + name + "' is a Python keyword"
  }

  /** The names `validate_name` accepts, stated rule by rule without the
      '-'/'_' rewriting: non-empty, only letters, digits, '_' and '-', at
      least one letter or digit, no leading digit or '_', not a keyword. */
  predicate ValidName(name: string) {
    && |name| > 0
    && AllNameChars(name)
    && (exists i :: 0 <= i < |name| && IsAlnum(name[i]))
    && !IsDigit(name[0])
    && name[0] != '_'
    && !IsKeyword(name)
  }

  /** `Validator.validate_name`. */
  function ValidateName(name: string): (r: Verdict)
    ensures r.ok <==> ValidName(name)
    ensures r.ok ==> r.message == ""
    ensures !r.ok ==> r.message in {EmptyMessage, InvalidCharsMessage(name),
      DigitMessage, UnderscoreMessage, KeywordMessage(name)}
  {
    ValidNameRules(name);
    if |name| == 0 then Verdict(false, EmptyMessage)
    else if !IsAlnumString(CharCheckSubject(name)) then Verdict(false, InvalidCharsMessage(name))
    else if IsDigit(name[0]) then Verdict(false, DigitMessage)
    else if StartsWith(name, "_") then Verdict(false, UnderscoreMessage)
    else if '-' !in name && IsKeyword(name) then Verdict(false, KeywordMessage(name))
    else Verdict(true, "")
  }

  /** `ValidName` rule by rule, in the form the checks take. */
  lemma ValidNameRules(name: string)
    ensures ValidName(name) <==>
      && |name| > 0
      && IsAlnumString(CharCheckSubject(name))
      && !IsDigit(name[0])
      && !StartsWith(name, "_")
      && !('-' !in name && IsKeyword(name))
  {
    CharRule(name);
    KeywordHasNoHyphen(name);
    if |name| > 0 {
      assert StartsWith(name, "_") <==> name[0] == '_';
    }
  }

  /** The characters of `Delete(s, c)` are those of `s` other than `c`. */
  lemma {:induction false} DeleteMembers(s: string, c: char)
    ensures forall x :: x in Delete(s, c) <==> x in s && x != c
    decreases |s|
  {
    if |s| > 0 {
      DeleteMembers(s[1..], c);
      assert s == [s[0]] + s[1..];
    }
  }

  /** The character rule: the rewritten name is alphanumeric exactly when
      the name is made of letters, digits, '_' and '-' and holds at least
      one letter or digit. */
  lemma CharRule(name: string)
    ensures IsAlnumString(CharCheckSubject(name)) <==>
      AllNameChars(name) && exists i :: 0 <= i < |name| && IsAlnum(name[i])
  {
    var m := Replace(name, '-', '_');
    var d := CharCheckSubject(name);
    DeleteMembers(m, '_');
    assert forall x :: x in m <==> (x in name && x != '-') || (x == '_' && ('_' in name || '-' in name)) by {
      forall x ensures x in m <==> (x in name && x != '-') || (x == '_' && ('_' in name || '-' in name)) {
        if x in m {
          var i :| 0 <= i < |m| && m[i] == x;
          assert name[i] in name;
        }
        if x in name && x != '-' {
          var i :| 0 <= i < |name| && name[i] == x;
          assert m[i] == x;
        }
        if x == '_' && '-' in name {
          var i :| 0 <= i < |name| && name[i] == '-';
          assert m[i] == '_';
        }
      }
    }
    if IsAlnumString(d) {
      forall i | 0 <= i < |name| ensures IsNameChar(name[i]) {
        var x := name[i];
        if x != '-' && x != '_' {
          assert x in d;
        }
      }
      var x := d[0];
      assert x in name;
      var i :| 0 <= i < |name| && name[i] == x;
    }
    if AllNameChars(name) && exists i :: 0 <= i < |name| && IsAlnum(name[i]) {
      var i :| 0 <= i < |name| && IsAlnum(name[i]);
      assert name[i] in d;
      forall x | x in d ensures IsAlnum(x) {
        var j :| 0 <= j < |name| && name[j] == x;
      }
    }
  }

  lemma Keywords1AreShort() ensures forall i :: 0 <= i < |Keywords1| ==> IsWord(Keywords1[i]) && |Keywords1[i]| <= 8 {}
  lemma Keywords2AreShort() ensures forall i :: 0 <= i < |Keywords2| ==> IsWord(Keywords2[i]) && |Keywords2[i]| <= 8 {}
  lemma Keywords3AreShort() ensures forall i :: 0 <= i < |Keywords3| ==> IsWord(Keywords3[i]) && |Keywords3[i]| <= 8 {}
  lemma Keywords4AreShort() ensures forall i :: 0 <= i < |Keywords4| ==> IsWord(Keywords4[i]) && |Keywords4[i]| <= 8 {}
  lemma Keywords5AreShort() ensures forall i :: 0 <= i < |Keywords5| ==> IsWord(Keywords5[i]) && |Keywords5[i]| <= 8 {}

  /** Every keyword is a non-empty run of at most eight letters. */
  lemma KeywordIsWord(name: string)
    ensures IsKeyword(name) ==> IsWord(name) && |name| <= 8
  {
    ListedMember(name, Keywords1);
    ListedMember(name, Keywords2);
    ListedMember(name, Keywords3);
    ListedMember(name, Keywords4);
    ListedMember(name, Keywords5);
    Keywords1AreShort();
    Keywords2AreShort();
    Keywords3AreShort();
    Keywords4AreShort();
    Keywords5AreShort();
  }

  /** No keyword holds '-', so the hyphen guard of the keyword rule never
      changes the outcome: a name is rejected as a keyword exactly when it
      is one. */
  lemma KeywordHasNoHyphen(name: string)
    ensures IsKeyword(name) ==> '-' !in name
  {
    KeywordIsWord(name);
  }

  /** The rules are applied in order and the first that fails decides the
      message. */
  lemma ValidateNameOrder(name: string)
    ensures |name| == 0 ==> ValidateName(name).message == EmptyMessage
    ensures |name| > 0 && !(AllNameChars(name) && exists i :: 0 <= i < |name| && IsAlnum(name[i])) ==>
      ValidateName(name).message == InvalidCharsMessage(name)
    ensures |name| > 0 && AllNameChars(name) && IsDigit(name[0]) ==>
      ValidateName(name).message == DigitMessage
    ensures |name| > 1 && AllNameChars(name) && name[0] == '_' && IsAlnum(name[1]) ==>
      ValidateName(name).message == UnderscoreMessage
  {
    CharRule(name);
  }

  /** A word of letters passes the character, digit and underscore
      rules. */
  lemma WordPassesEarlierRules(name: string)
    requires IsWord(name)
    ensures IsAlnumString(CharCheckSubject(name))
    ensures !IsDigit(name[0]) && !StartsWith(name, "_") && '-' !in name
  {
    CharRule(name);
    assert IsAlnum(name[0]);
  }

  /** A keyword passes every earlier rule and is reported as a keyword. */
  lemma KeywordRejected(name: string)
    requires IsKeyword(name)
    ensures ValidateName(name) == Verdict(false, KeywordMessage(name))
  {
    KeywordIsWord(name);
    WordPassesEarlierRules(name);
  }

  /** The rules, read as sufficient conditions for acceptance; `i` is
      the position of a letter or digit. */
  lemma AcceptedWhen(name: string, i: nat)
    requires |name| > 0 && AllNameChars(name) && i < |name| && IsAlnum(name[i])
    requires !IsDigit(name[0]) && name[0] != '_' && !IsKeyword(name)
    ensures ValidateName(name) == Verdict(true, "")
  {
  }

  /** An accepted name is made of name characters and starts with a
      letter or '-'. */
  lemma AcceptedShape(name: string)
    requires ValidateName(name).ok
    ensures |name| > 0 && AllNameChars(name) && (IsAlpha(name[0]) || name[0] == '-')
  {
    assert ValidName(name);
  }

  /** `Validator.validate_path`. The path is given by its text (`str(path)`,
      already normalised by `pathlib`); `resolveError` is the exception
      `path.resolve()` raises, if any, and `existsOutcome` the outcome of
      `resolved.exists()`, which is only consulted when the path must
      exist. */
  function ValidatePath(text: string, mustExist: bool, resolveError: Option<string>,
                        existsOutcome: Result<bool, string>): (r: Verdict)
    ensures r.ok <==> resolveError.None? && (mustExist ==> existsOutcome == Success(true))
                      && !Contains(text, "..")
    ensures r.ok ==> r.message == ""
    ensures resolveError.Some? ==> r.message == "Invalid path: " + resolveError.value
  {
    if resolveError.Some? then Verdict(false, "Invalid path: " + resolveError.value)
    else if mustExist && existsOutcome.Failure? then Verdict(false, "Invalid path: " + existsOutcome.error)
    else if mustExist && !existsOutcome.value then Verdict(false, "Path does not exist: " + text)
    else if Contains(text, "..") then Verdict(false, "Path contains suspicious '..' components")
    else Verdict(true, "")
  }

  /** The existence check comes before the '..' check: a missing path is
      reported as missing even when it also holds "..". And '..' is a
      substring test, not a component test. */
  lemma ValidatePathOrder(text: string, e: Result<bool, string>)
    ensures ValidatePath(text, true, None, Success(false)).message == "Path does not exist: " + text
    ensures Contains(text, "..") && (e == Success(true) || e.Failure?) ==>
      !ValidatePath(text, false, None, e).ok &&
      ValidatePath(text, false, None, e).message == "Path contains suspicious '..' components"
    ensures !Contains(text, "..") ==> ValidatePath(text, false, None, e) == Verdict(true, "")
  {
  }
}

=== FILE: validation_examples.dfy ===
/** The verdicts the tool's unit tests expect from `validate_name` and
    `validate_path` (tests/test_validation.py, tests/test_suite_extra.py).
    As in `TextExamples`, each example names its input through a
    parameter and the facts about the literal sit in a leaf lemma. */
module ValidationExamples {
  import opened Wrappers
  import opened Chars
  import opened Validation

  /** A name of name characters that starts with a letter and is not a
      keyword is accepted. */
  lemma Accepted(name: string)
    requires |name| > 0 && AllNameChars(name) && IsAlpha(name[0]) && !IsKeyword(name)
    ensures ValidateName(name) == Verdict(true, "")
  {
    assert IsAlnum(name[0]);
  }

  /** Every keyword has at most eight letters, so a longer name of name
      characters that starts with a letter is accepted. */
  lemma AcceptedLong(name: string)
    requires |name| > 8 && AllNameChars(name) && IsAlpha(name[0])
    ensures ValidateName(name) == Verdict(true, "")
  {
    KeywordIsWord(name);
    Accepted(name);
  }

  lemma ShapeValidName(name: string)
    requires name == "valid_name"
    ensures |name| > 8 && AllNameChars(name) && IsAlpha(name[0])
  {
    assert AllNameChars("valid_name");
  }

  lemma ShapeValidHyphenName(name: string)
    requires name == "valid-name"
    ensures |name| > 8 && AllNameChars(name) && IsAlpha(name[0])
  {
    assert AllNameChars("valid-name");
  }

  lemma ShapeValidPascalName(name: string)
    requires name == "ValidName"
    ensures |name| > 8 && AllNameChars(name) && IsAlpha(name[0])
  {
    assert AllNameChars("ValidName");
  }

  lemma ShapeClassName(name: string)
    requires name == "class-name"
    ensures |name| > 8 && AllNameChars(name) && IsAlpha(name[0])
  {
    assert AllNameChars("class-name");
  }

  lemma AcceptsValidName(name: string)
    requires name == "valid_name"
    ensures ValidateName(name) == Verdict(true, "")
  {
    ShapeValidName(name);
    AcceptedLong(name);
  }

  lemma AcceptsValidHyphenName(name: string)
    requires name == "valid-name"
    ensures ValidateName(name) == Verdict(true, "")
  {
    ShapeValidHyphenName(name);
    AcceptedLong(name);
  }

  lemma AcceptsValidPascalName(name: string)
    requires name == "ValidName"
    ensures ValidateName(name) == Verdict(true, "")
  {
    ShapeValidPascalName(name);
    AcceptedLong(name);
  }

  /** Contains a keyword but is not one. */
  lemma AcceptsClassName(name: string)
    requires name == "class-name"
    ensures ValidateName(name) == Verdict(true, "")
  {
    ShapeClassName(name);
    AcceptedLong(name);
  }

  lemma EmptyRejected(name: string)
    requires name == ""
    ensures ValidateName(name) == Verdict(false, "Name cannot be empty")
  {
  }

  /** A name holding a character other than a letter, digit, '_' or '-'
      is rejected for its characters. */
  lemma BadCharRejected(name: string, i: nat)
    requires i < |name| && !IsNameChar(name[i])
    ensures ValidateName(name) == Verdict(false, "'" + name + "' contains invalid characters")
  {
    ValidateNameOrder(name);
  }

  lemma AtSign(name: string)
    requires name == "invalid@name"
    ensures 7 < |name| && !IsNameChar(name[7])
  {
    assert "invalid@name"[7] == '@';
  }

  lemma InvalidAtRejected(name: string)
    requires name == "invalid@name"
    ensures ValidateName(name) == Verdict(false, InvalidCharsMessage(name))
  {
    AtSign(name);
    BadCharRejected(name, 7);
  }

  lemma Semicolon(name: string)
    requires name == "foo;rm -rf /"
    ensures 3 < |name| && !IsNameChar(name[3])
  {
    assert "foo;rm -rf /"[3] == ';';
  }

  /** A shell-injection attempt is rejected for its characters. */
  lemma InjectionRejected(name: string)
    requires name == "foo;rm -rf /"
    ensures ValidateName(name) == Verdict(false, InvalidCharsMessage(name))
  {
    Semicolon(name);
    BadCharRejected(name, 3);
  }

  /** Separators alone leave nothing for `isalnum` to accept. */
  lemma OnlySeparatorsRejected(name: string)
    requires name == "--"
    ensures ValidateName(name) == Verdict(false, InvalidCharsMessage(name))
  {
    ValidateNameOrder(name);
    assert !IsAlnum(name[0]) && !IsAlnum(name[1]);
  }

  lemma ShapeDigitName(name: string)
    requires name == "123bad"
    ensures |name| > 0 && AllNameChars(name) && IsDigit(name[0])
  {
    assert AllNameChars("123bad");
  }

  lemma DigitRejected(name: string)
    requires name == "123bad"
    ensures ValidateName(name) == Verdict(false, "Name cannot start with a digit")
  {
    ShapeDigitName(name);
    ValidateNameOrder(name);
  }

  lemma ShapePrivateName(name: string)
    requires name == "_private"
    ensures |name| > 1 && AllNameChars(name) && name[0] == '_' && IsAlnum(name[1])
  {
    assert AllNameChars("_private");
  }

  lemma UnderscoreRejected(name: string)
    requires name == "_private"
    ensures ValidateName(name) == Verdict(false, "Name should not start with underscore (convention)")
  {
    ShapePrivateName(name);
    ValidateNameOrder(name);
  }

  lemma ClassIsKeyword(name: string)
    requires name == "class"
    ensures IsKeyword(name)
  {
    assert Listed("class", Keywords2);
  }

  lemma DefIsKeyword(name: string)
    requires name == "def"
    ensures IsKeyword(name)
  {
    assert Listed("def", Keywords2);
  }

  lemma KeywordsRejected(a: string, b: string)
    requires a == "class" && b == "def"
    ensures ValidateName(a) == Verdict(false, KeywordMessage(a))
    ensures ValidateName(b) == Verdict(false, KeywordMessage(b))
  {
    ClassIsKeyword(a);
    KeywordRejected(a);
    DefIsKeyword(b);
    KeywordRejected(b);
  }

  lemma DotDot(text: string)
    requires text == "../../../etc/passwd"
    ensures Contains(text, "..")
  {
    assert OccursAt("../../../etc/passwd", "..", 0);
  }

  /** A traversal path is refused whatever `exists()` reports. */
  lemma TraversalRejected(text: string, e: Result<bool, string>)
    requires text == "../../../etc/passwd"
    ensures !ValidatePath(text, false, None, e).ok
    ensures ValidatePath(text, false, None, e).message == "Path contains suspicious '..' components"
  {
    DotDot(text);
  }
}

=== FILE: wrappers.dfy ===
/** Failure-carrying datatypes shared by the whole model: an optional value
    (Python's `None`) and a value-or-error result (a raised exception). */
module Wrappers {

  datatype Option<+T> = None | Some(value: T) {
    function GetOr(default: T): T {
      match this
      case Some(v) => v
      case None => default
    }
  }

  datatype Result<+R, +E> = Success(value: R) | Failure(error: E) {
    predicate IsFailure() {
      Failure?
    }
  }
}
